=== FILE: README.md ===
# Unimate back end: a Dafny model of its core decisions

This project models the core of the Unimate study-app back end (a Go
service built with gin and GORM). It covers the following parts.

- **Chat room manager** (`chat.dfy`, `chat_lemmas.dfy`, `chat_safety.dfy`).
  - The three default rooms.
  - The `Register`, `Unregister` and `Broadcast` cases of the manager loop, including the private-message branch and the slow-consumer branch.
  - The empty-room sweeper.
  - Room creation, deletion and listing.
  - The admission checks before the WebSocket upgrade.
  - The stamping `ReadPump` applies to every frame, the write pump, and the history `limit` parameter.
  - Go channel panics are part of the model: a send on a closed channel, or closing a channel twice, is a `Panic` step.
- **Learning-goal validator and AI plan handler** (`learning_goal.dfy`, `ai_plan.dfy`).
  - The trimming, length, content, repetition and junk-pattern checks on a goal.
  - The clean-up of the AI's fenced reply.
  - The plan and difficulty defaults.
  - The HTTP outcome of the plan handler.
  - Go's `strings.TrimSpace` and UTF-8 decoding are modelled in `utf8.dfy`. Number formatting and parsing (`strconv.Atoi`, `fmt`'s `%d` and `%06d`) are modelled in `decimal.dfy`.
- **Achievements** (`achievements.dfy`, `achievement_cleanup.dfy`).
  - The initial table of five achievements and the five threshold checks.
  - The stand-alone clean-up script. It deletes records whose name is not one of sixteen valid names, then deletes duplicate names except the smallest id.
- **Model hooks** (`hooks.dfy`).
  - The `Flag` hooks that keep `IsHidden` and `IsPublic` as each other's negation.
  - The `Post` hook that fills in the author's name and avatar path.
- **Utilities** (`util.dfy`).
  - The six-digit e-mail code.
  - The profile avatar path.
  - The claims of an access token: issue, parse and refresh.
- **Avatar handler** (`avatar.dfy`): the id check, the 32 file names, and the order in which the three candidate directories are tried.
- **E-mail code handlers** (`email.dfy`): verify the address, log in with a one-time code, and reset the password.
- **Scheduled jobs** (`reminders.dfy`).
  - The daily, monthly and reminder jobs.
  - The six-field cron line of a reminder.
  - The map that tracks each user's reminder entry, updated by `Init`, `AddUserCronJob` and `UpdateUserReminderJob`.

Inputs to the model:
- Everything the handlers read from outside is an input: repository reads and their errors, the JSON binding, the JWT signature and parse, the bcrypt hash, the random number, the AI call's reply and its JSON decode, the file system, the executable's directory and the cron parser.
- Times are integers: nanoseconds in the chat manager, seconds elsewhere.

Where the documentation and the code disagree, the model follows the code:
- The access token lives thirty days (`util.go` line 50). The comment on that line says seven.
- The profile avatar path accepts 1 to 21 (`util.go` line 149). The comment above it says 1 to 32.

## Model

| member | source | states |
|---|---|---|
| Chat.Boot | backend/internal/app/service/chat_web_service.go:63-86 | the three default rooms exist, and no one is connected |
| Chat.Register | backend/internal/app/service/chat_web_service.go:170-185 | a new client becomes its user's presence entry, replacing any earlier one; it joins its room exactly when a room id is given and the room exists; no other user or room changes |
| Chat.Unregister | backend/internal/app/service/chat_web_service.go:187-205 | when the user is in the presence map, the entry is deleted (whichever client it is) and this client's channel is closed, a panic exactly when it already was; the user leaves the client's room |
| Chat.Offer | backend/internal/app/service/chat_web_service.go:215-220 | a non-blocking send panics exactly on a closed channel; otherwise it enqueues the message if the queue has room and drops it if not |
| Chat.RoutePrivate | backend/internal/app/service/chat_web_service.go:211-233 | the recipient's and the sender's clients, if present, each get one copy (at most); it panics exactly when one of them is closed; nothing else changes |
| Chat.Broadcast | backend/internal/app/service/chat_web_service.go:234-251 | every member with room in its queue gets the message; every member with a full queue is closed and removed from the room but stays in the presence map; it panics exactly when a member's channel is closed |
| Chat.Route | backend/internal/app/service/chat_web_service.go:207-252 | a message with a recipient goes the private way; a room message goes to an existing room; any other message is dropped |
| Chat.Receive | backend/internal/app/service/chat_web_service.go:332-339 | the write pump takes the oldest queued message first, and ends only on a closed, drained channel |
| Chat.Sweep | backend/internal/app/service/chat_web_service.go:258-278 | a room is deleted exactly when it is a non-default, empty room idle for more than ten hours; kept rooms and clients are unchanged |
| Chat.CreateRoom | backend/internal/app/service/chat_web_service.go:373-419 | an empty name is refused first; ten rooms refuse creation; otherwise room "room-"+stamp is added with the creator and a capacity of 50 |
| Chat.DeleteRoom | backend/internal/app/service/chat_web_service.go:422-459 | default rooms, unknown rooms and other users' rooms are refused in that order; otherwise every member's channel is closed and the room is deleted, but the presence map is left as it was |
| Chat.Admit | backend/internal/app/service/chat_web_service.go:95-127 | a caller is admitted exactly when authenticated with a non-zero id, and either no room is asked for or the room exists and is below capacity |
| Chat.ListRooms | backend/internal/app/service/chat_web_service.go:342-369 | one entry per room, each room exactly once, with its member count |
| Chat.Stamp | backend/internal/app/service/chat_web_service.go:296-310 | the sender, room and time are the server's; the name and one of six avatars come from the profile when it is found |
| Chat.HistoryLimit | backend/internal/app/service/chat_web_service.go:465-470 | the limit is 30 unless the parameter scans with `%d` as a number from 1 to 100, which is then used |
| ChatLemmas.RegisterWf | backend/internal/app/service/chat_web_service.go:170-185 | registering keeps every room member and presence entry pointing at an existing client of that user |
| ChatLemmas.UnregisterWf | backend/internal/app/service/chat_web_service.go:187-205 | unregistering keeps the manager well-formed |
| ChatLemmas.RouteWf | backend/internal/app/service/chat_web_service.go:207-252 | routing keeps the manager well-formed |
| ChatLemmas.DeleteRoomWf | backend/internal/app/service/chat_web_service.go:422-459 | deleting a room keeps the manager well-formed |
| ChatLemmas.UnregisterIdempotent | backend/internal/app/service/chat_web_service.go:187-205 | a second unregister of the same, already removed client changes nothing |
| ChatLemmas.RegisterUnregisterRoundTrip | backend/internal/app/service/chat_web_service.go:170-205 | connecting and then disconnecting an offline user gives back the presence map and every room's members, and leaves the client closed |
| ChatLemmas.PrivateEcho | backend/internal/app/service/chat_web_service.go:211-233 | a private message between two online, open, non-full clients reaches the recipient and is echoed to the sender, once each |
| ChatLemmas.BroadcastReachesEveryMember | backend/internal/app/service/chat_web_service.go:234-251 | when no member is full, every member gets the room message and nobody is closed |
| ChatLemmas.StampedMessageStaysInOwnRoom | backend/internal/app/service/chat_web_service.go:298-300 | routing a stamped frame leaves every room but the sender's own as it was, whatever room the frame named |
| ChatLemmas.SweepSpares | backend/internal/app/service/chat_web_service.go:265-272 | default rooms and occupied rooms are never swept |
| ChatLemmas.SweepIdempotent | backend/internal/app/service/chat_web_service.go:258-278 | a second sweep at the same instant deletes nothing more |
| ChatLemmas.CreateRoomBounded | backend/internal/app/service/chat_web_service.go:390-393 | creating rooms never takes the count above ten |
| ChatLemmas.CreateRoomSparesDefaults | backend/internal/app/service/chat_web_service.go:396-410 | a created room never overwrites a default room |
| ChatLemmas.AdmitThenRegisterWithinCapacity | backend/internal/app/service/chat_web_service.go:118-127 | an admitted client registered right away keeps its room within capacity |
| ChatLemmas.HistoryLimitOfDigits | backend/internal/app/service/chat_web_service.go:465-470 | 1 to 100 written in digits reads back as itself; larger numbers fall back to 30 |
| ChatLemmas.HistoryLimitStopsAtNonDigit | backend/internal/app/service/chat_web_service.go:465-470 | a limit from 1 to 100 followed by anything not starting with a digit, such as "5_", is used: the scan leaves the rest unread |
| ChatLemmas.HistoryLimitSkipsSpace | backend/internal/app/service/chat_web_service.go:465-470 | white space that `fmt` scanning skips (the ASCII controls tab to carriage return except the newline, the blank, and the Unicode spaces of `fmt`'s table) in front of the limit changes nothing |
| ChatLemmas.HistoryLimitNewline | backend/internal/app/service/chat_web_service.go:465-470 | a newline in front of the limit makes the scan fail, so the limit is 30 |
| ChatSafety.DeleteRoomBreaksSafety | backend/internal/app/service/chat_web_service.go:448-453 | deleting an occupied room leaves a closed client in the presence map |
| ChatSafety.OrphanedPanics | backend/internal/app/service/chat_web_service.go:187-193 | from that state the client's own unregister closes the channel again, and a private message to the user sends on it: both panic |
| ChatSafety.SlowConsumerBreaksSafety | backend/internal/app/service/chat_web_service.go:243-246 | a full member closed by a broadcast stays in the presence map, and its unregister then panics |
| ChatSafety.SafeUnregister | backend/internal/app/service/chat_web_service.go:187-205 | the corrected unregister removes only entries that are this very client and closes its channel once |
| ChatSafety.SafeBroadcast | backend/internal/app/service/chat_web_service.go:234-251 | the corrected broadcast also removes each closed slow member from the presence map |
| ChatSafety.SafeDeleteRoom | backend/internal/app/service/chat_web_service.go:422-459 | the corrected delete also removes the closed members from the presence map |
| ChatSafety.ApplyInv | backend/internal/app/service/chat_web_service.go:167-255 | every event of the corrected manager from a safe, well-formed state does not panic and stays safe |
| ChatSafety.RunNeverPanics | backend/internal/app/service/chat_web_service.go:167-255 | every run of the corrected manager from a safe state is panic-free and ends safe |
| ChatSafety.BootRunNeverPanics | backend/internal/app/service/chat_web_service.go:63-86 | every run of the corrected manager from the boot state is panic-free |
| Utf8.DecodeEncode | backend/internal/app/service/Ai_serveice.go:71 | decoding the UTF-8 encoding of a BMP code point gives it back with its length, whatever follows |
| Utf8.TrimSpaceAscii | backend/internal/app/service/Ai_serveice.go:62 | on ASCII text, the Unicode trim agrees with cutting ASCII white space from both ends |
| Utf8.DecodeRune | backend/internal/app/service/Ai_serveice.go:71 | the first rune of the text and its width: an ASCII byte is itself with width 1, any other width is 1 to 4 bytes of which all but the first are continuation bytes, and empty text is the error rune of width 0 |
| Utf8.DecodeLastRune | backend/internal/app/service/Ai_serveice.go:62 | the last rune and its width: a final ASCII byte is itself with width 1, otherwise the width is between 1 and the length, and empty text is the error rune of width 0 |
| Utf8.TrimSpace | backend/internal/app/service/Ai_serveice.go:62 | the trimmed text is one contiguous piece of the input, and it neither starts nor ends with a white-space rune; non-empty text that neither starts nor ends with one is kept whole |
| Utf8.TrimSpaceRoundTrip | backend/internal/app/service/Ai_serveice.go:62 | a piece of text padded on each side by one white-space rune of any width, such as U+3000, trims back to exactly that piece |
| LearningGoal.ValidGoalIff | backend/internal/app/service/Ai_serveice.go:60-100 | a goal is valid exactly when its trimmed form has 2 to 200 bytes, holds a content rune, is not a repeated byte, and contains no junk pattern once lower-cased |
| LearningGoal.IsValidLearningGoal | backend/internal/app/service/Ai_serveice.go:60-100 | a valid goal trims to 2 to 200 bytes, so the raw input has at least 2, and is not one repeated byte |
| LearningGoal.HasValidContent | backend/internal/app/service/Ai_serveice.go:70-81 | empty text has no content, and text whose first rune is a letter, a digit or a CJK ideograph has content |
| LearningGoal.ValidGoalIgnoresLeadingSpace | backend/internal/app/service/Ai_serveice.go:62 | a goal with a white-space rune of any width in front, such as U+3000, is judged as the goal without it |
| LearningGoal.HasValidContentIff | backend/internal/app/service/Ai_serveice.go:70-81 | the content scan finds content exactly when some decoded rune is a letter, a digit or a CJK ideograph |
| LearningGoal.IsRepeatingChars | backend/internal/app/service/Ai_serveice.go:103-114 | true exactly when the text has at least 3 bytes, all equal to the first |
| LearningGoal.Contains | backend/internal/app/service/Ai_serveice.go:89-97 | true exactly when the pattern occurs at some position |
| LearningGoal.ToLower | backend/internal/app/service/Ai_serveice.go:89 | no ASCII capital is left; the only bytes that change are capitals, each moved 32 places on to its lower-case letter, so every byte of a multi-byte rune is kept |
| LearningGoal.ToLowerIdempotent | backend/internal/app/service/Ai_serveice.go:89 | lower-casing twice gives the same text as lower-casing once |
| LearningGoal.JunkIgnoresCase | backend/internal/app/service/Ai_serveice.go:89-97 | two goals that differ only in the case of ASCII letters lower-case to the same text, so the junk-pattern test gives the same answer for both |
| LearningGoal.NoAsciiNoJunk | backend/internal/app/service/Ai_serveice.go:89-97 | text without ASCII bytes never matches a junk pattern |
| LearningGoal.StudyIsValid | backend/internal/app/service/Ai_serveice.go:60-100 | the two-ideograph goal "学习" is valid |
| LearningGoal.CountingIsJunk | backend/internal/app/service/Ai_serveice.go:89-97 | "learn 12345" passes the length, content and repetition checks but is rejected for its junk pattern |
| AiPlan.TrimPrefixOfPrefixed | backend/internal/app/service/Ai_serveice.go:332-336 | removing a prefix from text that starts with it gives back the rest |
| AiPlan.TrimSuffixOfSuffixed | backend/internal/app/service/Ai_serveice.go:332-336 | removing a suffix from text that ends with it gives back the rest |
| AiPlan.CleanFencedJson | backend/internal/app/service/Ai_serveice.go:332-336 | a reply wrapped as a json code fence cleans to exactly the JSON inside |
| AiPlan.CleanBareJson | backend/internal/app/service/Ai_serveice.go:332-336 | a bare JSON object is left unchanged by the clean-up |
| AiPlan.Clean | backend/internal/app/service/Ai_serveice.go:332-336 | the cleaned reply is no longer than the reply and does not end in white space |
| AiPlan.ParseAIResponse | backend/internal/app/service/Ai_serveice.go:330-364 | an undecodable reply becomes the plan itself with no flag and difficulty 0; a decoded one gives its flag, plan and difficulty |
| AiPlan.ParsedPlanEmptyIff | backend/internal/app/service/Ai_serveice.go:345-358 | the parsed plan is empty exactly when the cleaned reply is empty and it either does not decode or decodes to an empty plan |
| AiPlan.DefaultScore | backend/internal/app/service/Ai_serveice.go:318-323 | a zero difficulty is replaced by the requested one, and by 150 when that is zero too; the result is never zero |
| AiPlan.GenerateLearningPlan | backend/internal/app/service/Ai_serveice.go:299-326 | a failed call is reported as such; a success always has a plan and a non-zero difficulty |
| AiPlan.GenerateFromReply | backend/internal/app/service/Ai_serveice.go:308-326 | a reply yields a plan exactly when the parsed plan is not empty; the flag and plan are the parsed ones and only a zero difficulty is replaced |
| AiPlan.UndecodableReplyIsPlan | backend/internal/app/service/Ai_serveice.go:345-352 | a reply that does not decode is served as the plan, with the requested difficulty or 150 |
| AiPlan.HandleGenerateOutcome | backend/internal/app/service/Ai_serveice.go:116-162 | 200 follows exactly a bound, valid goal and a successful generation, and carries a plan and a non-zero difficulty; an invalid goal is a 400 whatever the AI answers |
| AiPlan.HandleGenerate | backend/internal/app/service/Ai_serveice.go:116-162 | an unbound request is a 400, and the reply reports success exactly when its status is 200 |
| Achievements.InitAchievementTable | backend/internal/app/service/achievement_service.go:11-22 | the user's achievements become the five named ones, undone, owned by the user; nothing else changes |
| Achievements.TableNamesDistinct | backend/internal/app/service/achievement_service.go:11-22 | the five initial names are pairwise different |
| Achievements.InitForgetsHistory | backend/internal/app/service/achievement_service.go:11-22 | the initial table depends only on the user id: earlier achievements are discarded |
| Achievements.RunCheck | backend/internal/app/service/achievement_service.go:50-131 | a check marks only its own achievement, and nothing when its lookup fails |
| Achievements.CheckAll | backend/internal/app/service/achievement_service.go:41-47 | the run of all five checks marks at most five achievements |
| Achievements.TotalLearnTime | backend/internal/app/service/achievement_service.go:120-124 | the loop's total is the sum of all durations, and is non-negative when they are |
| Achievements.SumAppend | backend/internal/app/service/achievement_service.go:120-124 | the sum of two joined lists is the sum of their sums |
| Achievements.CheckAllIndependent | backend/internal/app/service/achievement_service.go:41-131 | each achievement is marked exactly when its own lookup succeeds and its threshold is met, whatever the other checks do |
| Achievements.MarksMember | backend/internal/app/service/achievement_service.go:41-47 | running a list of checks marks an achievement exactly when its check is in the list and succeeds |
| Achievements.NameOfInjective | backend/internal/app/service/achievement_service.go:50-131 | different checks mark different achievements |
| Achievements.Learn50ImpliesFirstKeep | backend/internal/app/service/achievement_service.go:66-95 | a user earning the 50-flag achievement also earns the first-flag-kept one |
| Achievements.FocusMonotone | backend/internal/app/service/achievement_service.go:114-131 | adding a non-negative learning record never takes away the 1000-minute achievement |
| AchievementCleanup.SixteenValidNames | backend/scripts/cleanup/cleanup_achievements.go:33-43 | exactly sixteen distinct names are valid |
| AchievementCleanup.Pass1 | backend/scripts/cleanup/cleanup_achievements.go:74-85 | a record survives exactly when its name is valid or its delete fails; survivors plus deletions account for every record |
| AchievementCleanup.Pass2 | backend/scripts/cleanup/cleanup_achievements.go:95-127 | a record of the re-read list is removed exactly when its id is slated and its delete succeeds |
| AchievementCleanup.ListedIffDoomed | backend/scripts/cleanup/cleanup_achievements.go:95-115 | with distinct ids, a record is slated exactly when another record shares its name and its id is not that name's smallest |
| AchievementCleanup.Pass2KeepsUndoomed | backend/scripts/cleanup/cleanup_achievements.go:95-127 | with no failed delete, a record survives the second pass exactly when it is not slated |
| AchievementCleanup.Pass2KeepsMinimum | backend/scripts/cleanup/cleanup_achievements.go:104-110 | the record with a name's smallest id always survives |
| AchievementCleanup.Pass2NoDuplicate | backend/scripts/cleanup/cleanup_achievements.go:95-127 | with no failed delete, no name occurs twice afterwards |
| AchievementCleanup.CleanUser | backend/scripts/cleanup/cleanup_achievements.go:55-127 | a failed first read skips the user; a failed re-read stops after the first pass |
| AchievementCleanup.CleanUserOutcome | backend/scripts/cleanup/cleanup_achievements.go:53-157 | with both reads ok and no failed delete, every name left is valid, none is duplicated, and the deletions plus the records left equal the records read |
| AchievementCleanup.CleanAll | backend/scripts/cleanup/cleanup_achievements.go:51-128 | one result per user, in the order the users were read |
| AchievementCleanup.CleanAllSplit | backend/scripts/cleanup/cleanup_achievements.go:51-128 | the script over two lists of users is the two runs side by side, with the deletion totals added |
| AchievementCleanup.CleanAllPerUser | backend/scripts/cleanup/cleanup_achievements.go:53-128 | a user's result depends on that user's records alone |
| AchievementCleanup.CleanupOfInitialTable | backend/scripts/cleanup/cleanup_achievements.go:74-85 | of a freshly initialised table only the "坚持不懈" record survives the first pass |
| AchievementCleanup.InitialNames | backend/scripts/cleanup/cleanup_achievements.go:33-43 | four of the five initial achievement names are not among the valid names |
| Hooks.AfterFind | backend/internal/app/model/user.go:56-59 | after loading, public is the negation of hidden; nothing else changes |
| Hooks.BeforeSave | backend/internal/app/model/user.go:62-65 | before saving, hidden is the negation of public; nothing else changes |
| Hooks.VisibilityRoundTrips | backend/internal/app/model/user.go:56-65 | saving then loading keeps the client's public flag, loading then saving keeps the stored hidden flag, and both leave the flag consistent |
| Hooks.PostAfterFind | backend/internal/app/model/user.go:83-93 | with an author loaded, the name and avatar are filled in and nothing else changes; with none, the post is unchanged |
| Hooks.PostAvatar | backend/internal/app/model/user.go:86-90 | a positive head show gives the numbered path under /avatars/, any other the default path |
| Hooks.PostAvatarReadsBack | backend/internal/app/model/user.go:86-90 | a positive head show can be read back from its "/avatars/N.png" path, which is never the default path |
| Hooks.PostAvatarInjective | backend/internal/app/model/user.go:86-90 | two authors share an avatar path exactly when both have none or both have the same number |
| Hooks.PostAfterFindIdempotent | backend/internal/app/model/user.go:83-93 | loading a post twice is the same as loading it once |
| Util.GenerateCode | backend/util/util.go:139-143 | the code is six digits whose value is the random number modulo one million |
| Util.CodeRoundTrip | backend/util/util.go:139-143 | parsing a code gives back the number it was made from |
| Util.EveryCodeDrawn | backend/util/util.go:139-143 | every six-digit string is the code of some random number |
| Util.GetAvatarPath | backend/util/util.go:148-154 | the path is the avatar prefix followed by digits |
| Util.AvatarPathRoundTrip | backend/util/util.go:148-154 | the number at the end of the path is the head show when it is 1 to 21, and 1 otherwise |
| Util.NewClaims | backend/util/util.go:52-62 | the claims carry the user's identity, are issued and valid from now, expire thirty days later, and name the app as issuer |
| Util.GenerateToken | backend/util/util.go:48-66 | the token is the signature of claims that name this user and expire thirty days from now, issued by the app |
| Util.ParseToken | backend/util/util.go:69-83 | a parse error is passed on; claims are returned exactly when the token parsed and is valid |
| Util.RefreshToken | backend/util/util.go:86-93 | a token that does not parse or is invalid gives that error back |
| Util.RefreshKeepsIdentity | backend/util/util.go:86-93 | a refreshed token is signed for the same user with a fresh thirty-day lifetime, whatever the old token's times were |
| Avatar.AvatarId | backend/internal/app/service/avatar_service.go:54-59 | an id is accepted exactly when it parses as an integer from 1 to 32 |
| Avatar.Candidates | backend/internal/app/service/avatar_service.go:64-72 | the front-end assets, then ./assets, then the executable's directory when it is known |
| Avatar.ExecHead | backend/internal/app/service/avatar_service.go:70-72 | the path starts with the executable's directory, unless that is `.`, and ends in assets/head/ and the file name |
| Avatar.FirstExisting | backend/internal/app/service/avatar_service.go:74-80 | the first candidate that exists, or none exactly when none exists |
| Avatar.ServeAvatar | backend/internal/app/service/avatar_service.go:16-85 | a bad request exactly when the id is rejected |
| Avatar.ServeAvatarOutcome | backend/internal/app/service/avatar_service.go:61-83 | a served file is the first existing candidate for the numbered file; not found means none of them exists |
| Avatar.CandidateOrder | backend/internal/app/service/avatar_service.go:64-80 | the front-end copy wins when it exists; the local copy is served only when it does not |
| Avatar.AvatarFilesDistinct | backend/internal/app/service/avatar_service.go:18-51 | the 32 file names are pairwise different |
| Avatar.ProfileAvatarsServable | backend/util/util.go:148-154 | every profile avatar path names an id the avatar handler accepts |
| Avatar.ChatAvatarsAreFirstSix | backend/internal/app/service/chat_web_service.go:306-307 | the six chat avatars are the first six avatar files, under the same names |
| Email.VerifyEmail | backend/internal/app/service/Email.go:15-72 | an unbound request is a 400, and the handler never writes a password |
| Email.VerifyMarksIff | backend/internal/app/service/Email.go:32-44 | the address is marked verified exactly when the request binds and the code is read, matches and has not expired, whatever happens later |
| Email.VerifyTokenIff | backend/internal/app/service/Email.go:26-71 | a token is handed out exactly when the code is accepted, the user is read back and signing succeeds; it is the signed claims of that user, and the status is 200 exactly then; past the code checks a failed read is a 500 before signing, a failed signing a 500 after it, and both still mark the address |
| Email.LoginWithOTP | backend/internal/app/service/Email.go:75-132 | the address is marked verified exactly when a token is handed out |
| Email.LoginTokenIff | backend/internal/app/service/Email.go:88-130 | a token is handed out exactly when the code is accepted, the user exists and signing succeeds; it is that user's 200 |
| Email.WrongCodeBeforeExpiry | backend/internal/app/service/Email.go:32-41 | a wrong code is reported as wrong, expired or not, by all three handlers |
| Email.ExpiryIsStrict | backend/internal/app/service/Email.go:37-41 | a code is still accepted at its expiry instant and refused one second later |
| Email.ForgetPassword | backend/internal/app/service/Email.go:134-198 | the reset never hands out a token or marks an address |
| Email.ForgetPasswordOrder | backend/internal/app/service/Email.go:148-159 | a password under 6 bytes is refused before anything is read, and an unknown user before the code is looked at |
| Email.ForgetPasswordWritesIff | backend/internal/app/service/Email.go:148-196 | a new hash is stored exactly when every check passes, hashing succeeds and the write succeeds; it is the hash of the requested password |
| Reminders.ReminderSpecFields | backend/internal/app/service/init_service.go:161 | a reminder schedule has six fields: second 0, the minute, the hour, then three stars; minute and hour read back as the numbers given |
| Reminders.ReminderSpec | backend/internal/app/service/init_service.go:55 | the line starts with a zero seconds field and ends with three wildcard fields |
| Reminders.ReminderSpecInjective | backend/internal/app/service/init_service.go:122 | two reminder schedules are equal exactly when the times are |
| Reminders.AddFunc | backend/internal/app/service/init_service.go:33 | an accepted schedule gets a fresh id after the last one; a rejected one changes nothing |
| Reminders.Init | backend/internal/app/service/init_service.go:18-99 | a new scheduler replaces the old one; after a failed user read it stays empty and is not started |
| Reminders.InitTracksIff | backend/internal/app/service/init_service.go:53-90 | a user is tracked after `Init` exactly when already tracked, or wanting a reminder whose schedule is accepted |
| Reminders.InitTracksEveryReminder | backend/internal/app/service/init_service.go:29-92 | with distinct user ids, every reminder `Init` schedules is the one tracked for its user |
| Reminders.UpdateUserReminderJob | backend/internal/app/service/init_service.go:136-194 | without a scheduler nothing changes; with one, a scheduler remains, and if every entry id had been handed out already, that stays so |
| Reminders.AddUserCronJob | backend/internal/app/service/init_service.go:102-133 | the tracking map is never touched; a user wanting an accepted reminder gets a reminder entry |
| Reminders.UpdateTracksIff | backend/internal/app/service/init_service.go:145-193 | the user is tracked afterwards exactly when a reminder is wanted, the user is found and the schedule parses; the tracked entry is then the new reminder |
| Reminders.UpdateRemovesOld | backend/internal/app/service/init_service.go:146-150 | the entry tracked before the update never survives it |
| Reminders.UpdateKeepsOthers | backend/internal/app/service/init_service.go:136-194 | other users' tracking is untouched |
| Reminders.UpdateKeepsTracked | backend/internal/app/service/init_service.go:136-194 | when every reminder is tracked the update keeps it so, and turning reminders off leaves the user none |
| Reminders.AddedReminderOutlivesUpdate | backend/internal/app/service/init_service.go:121-130 | a new user's reminder from `AddUserCronJob` survives the user turning reminders off |
| Reminders.AddUserCronJobLeaks | backend/internal/app/service/init_service.go:121-130 | right after a start-up that tracks every reminder, `AddUserCronJob` leaves a reminder untracked |
| Reminders.TrackedAddUserCronJob | backend/internal/app/service/init_service.go:102-133 | the corrected job tracks the new user exactly when a reminder is wanted and accepted, and no other user's tracking changes |
| Reminders.TrackedAddKeepsTracked | backend/internal/app/service/init_service.go:102-133 | the corrected job keeps every reminder tracked, so turning reminders off later leaves the user none |

## Left out

- Goroutines, locks and the WebSocket connections. The manager's events are applied one at a time, as if each held the manager lock exclusively. Two data races in the source are not modelled:
  - In `WsHandler`, the room is looked up and checked under two separate read locks.
  - The `Broadcast` case (`chat_web_service.go` lines 208-252) holds only the read lock while it writes `room.LastActive` and deletes from `room.Clients`. At the same time, `GetChatRooms` and `WsHandler` read `room.Clients` under their own read locks. Go maps are not safe for a concurrent read and write.
- Go's map iteration order. The broadcast delivers to all members as a set of independent updates. The clean-up script's `toDelete` list is built in record order rather than map order; only its contents matter.
- The JSON encoding of messages and requests, the JWT library, SMTP, bcrypt, the database, the AI HTTP call and the file system. Each is an input or a predicate.
- Chat.CreateRoom: the room id's 14-digit time stamp is a parameter; reading and formatting the clock is not modelled.
- Achievements.TotalLearnTime: the Go sum is an `int`, and 64-bit overflow is not modelled.
- Achievement checks: the `UpdateAchievementHadDone` write is modelled as the name it marks. Its own error is not modelled.
- Avatar.ExecHead: `filepath.Join` is modelled for clean Unix directories only; Windows separators are left out.
- Reminders.AddFunc: the cron parser of robfig/cron is an input predicate on the schedule string.
- Reminders.Init: a scheduler replaced by a second `Init` keeps running in the source. The model forgets it.
- The daily and monthly job bodies (`InitDaliyFlag`, `InitDakaNumberRecord` and the rest) are repository writes and are not modelled.
- `SendEmailCode` and the other thin CRUD handlers are not part of this model.
- The second AI service file, `Ai_service.go`, is context only and is not modelled.
- The front end is not part of this model.
- LearningGoal.ToLower: modelled as ASCII lower-casing. All nine junk patterns are ASCII and contain neither 'i' nor 'k', the only ASCII letters some non-ASCII rune lowers to.
- Email.VerifyEmail: the result of the write that marks the address verified is ignored, as in the source, so the model records only that it was issued.

## Findings

| source | as written | input that shows it | evidently intended | confidence | as-written member | corrected member |
|---|---|---|---|---|---|---|
| backend/internal/app/service/chat_web_service.go:243-246 | a member whose queue is full is closed and removed from the room, but stays in `GlobalClients` | user 5 alone in room-1 with 256 queued messages; a room message closes the client, and its own `Unregister` then closes the channel again (panic) | a closed client is removed from every map that refers to it | high (not executed) | ChatSafety.SlowConsumerBreaksSafety | ChatSafety.SafeBroadcast |
| backend/internal/app/service/chat_web_service.go:448-453 | deleting a room closes every member's channel, but leaves the members in `GlobalClients` | user 5 in user 7's room; user 7 deletes it; a private message to user 5 then sends on the closed channel, and user 5's `Unregister` closes it again (both panic) | the closed members are also removed from `GlobalClients` | high (not executed) | ChatSafety.OrphanedPanics | ChatSafety.SafeDeleteRoom |
| backend/internal/app/service/init_service.go:121-130 | `AddUserCronJob` schedules a reminder without recording its entry id | a new user 7 with reminders on is added, then calls `UpdateUserReminderJob` with reminders off; the first reminder is still scheduled | the reminder entry is tracked, as `Init` and `UpdateUserReminderJob` do | high (not executed) | Reminders.AddedReminderOutlivesUpdate | Reminders.TrackedAddUserCronJob |

=== FILE: achievement_cleanup.dfy ===
/** The achievement clean-up script, one user at a time: records with a
    name outside the sixteen valid ones are deleted, then within each name
    every record but the one with the smallest id is deleted. A delete is
    by id and may fail; `fails` is the set of ids whose delete fails. */
module AchievementCleanup {
  import opened Achievements

  /** The sixteen valid achievement names. */
  const ValidNames: seq<string> := [
    "首次完成", "7天连卡", "任务大师", "目标达成", "学习之星", "坚持不懈",
    "效率达人", "专注大师", "早起鸟", "夜猫子", "完美主义", "全能选手",
    "学习狂人", "社交达人", "时间管理者", "成就收集者"]

  predicate IsValidName(n: string) {
    n in ValidNames
  }

  /** No name is listed twice, so exactly sixteen names are valid. */
  lemma SixteenValidNames()
    ensures |ValidNames| == 16
    ensures forall i, j :: 0 <= i < j < |ValidNames| ==> ValidNames[i] != ValidNames[j]
  {
  }

  /** The records that survive the first pass: a valid name, or a delete
      that failed. */
  predicate SurvivesPass1(a: Achievement, fails: set<nat>) {
    IsValidName(a.name) || a.id in fails
  }

  /** The first pass: the surviving records in order, and the number of
      successful deletes. */
  function Pass1(achs: seq<Achievement>, fails: set<nat>): (r: (seq<Achievement>, nat))
    ensures r.1 + |r.0| == |achs|
    ensures forall a :: a in r.0 <==> a in achs && SurvivesPass1(a, fails)
    ensures fails == {} ==> forall a :: a in r.0 ==> IsValidName(a.name)
  {
    if |achs| == 0 then ([], 0)
    else
      var rest := Pass1(achs[1..], fails);
      assert forall a :: a in achs <==> a == achs[0] || a in achs[1..];
      if SurvivesPass1(achs[0], fails) then ([achs[0]] + rest.0, rest.1)
      else (rest.0, rest.1 + 1)
  }

  /** The records carrying one name, in order: one group of the script's
      name-to-records map. */
  function Named(achs: seq<Achievement>, name: string): (g: seq<Achievement>)
    ensures |g| <= |achs|
    ensures forall a :: a in g <==> a in achs && a.name == name
  {
    if |achs| == 0 then []
    else
      var rest := Named(achs[1..], name);
      assert forall a :: a in achs <==> a == achs[0] || a in achs[1..];
      if achs[0].name == name then [achs[0]] + rest else rest
  }

  /** The smallest id in a non-empty group. */
  function MinId(g: seq<Achievement>): (m: nat)
    requires |g| > 0
    ensures forall a :: a in g ==> m <= a.id
    ensures exists a :: a in g && a.id == m
  {
    if |g| == 1 then g[0].id
    else
      var rest := MinId(g[1..]);
      assert forall a :: a in g[1..] ==> a in g;
      if g[0].id < rest then g[0].id else rest
  }

  /** A record is slated for deletion when its name group has more than one
      record and its id is not the group's smallest. */
  predicate Doomed(achs: seq<Achievement>, a: Achievement) {
    var g := Named(achs, a.name);
    |g| > 1 && a.id != MinId(g)
  }

  /** `toDelete`, in record order: the ids of the doomed records of `all`
      found in `part`. */
  function ToDelete(all: seq<Achievement>, part: seq<Achievement>): (ids: seq<nat>)
    ensures forall id :: id in ids <==> exists a :: a in part && Doomed(all, a) && a.id == id
  {
    if |part| == 0 then []
    else
      var rest := ToDelete(all, part[1..]);
      assert forall a :: a in part <==> a == part[0] || a in part[1..];
      if Doomed(all, part[0]) then [part[0].id] + rest else rest
  }

  /** The number of ids in `ids` whose delete succeeds. */
  function Succeeded(ids: seq<nat>, fails: set<nat>): (n: nat)
    ensures n <= |ids|
    ensures fails == {} ==> n == |ids|
  {
    if |ids| == 0 then 0
    else Succeeded(ids[1..], fails) + (if ids[0] in fails then 0 else 1)
  }

  /** The records that survive deleting `ids`. */
  function Remove(achs: seq<Achievement>, ids: seq<nat>, fails: set<nat>): (r: seq<Achievement>)
    ensures |r| <= |achs|
    ensures forall a :: a in r <==> a in achs && (a.id !in ids || a.id in fails)
  {
    if |achs| == 0 then []
    else
      var rest := Remove(achs[1..], ids, fails);
      assert forall a :: a in achs <==> a == achs[0] || a in achs[1..];
      if achs[0].id !in ids || achs[0].id in fails then [achs[0]] + rest else rest
  }

  /** The second pass over the records read back after the first. */
  function Pass2(achs: seq<Achievement>, fails: set<nat>): (r: (seq<Achievement>, nat))
    ensures r.1 <= |ToDelete(achs, achs)|
    ensures forall a :: a in r.0 <==> a in achs && (a.id !in ToDelete(achs, achs) || a.id in fails)
  {
    var ids := ToDelete(achs, achs);
    (Remove(achs, ids, fails), Succeeded(ids, fails))
  }

  /** What the database holds for one user, and whether the two reads of
      it succeed. A failed first read skips the user; a failed second read
      leaves an empty list, so nothing is de-duplicated. */
  datatype UserRecords = UserRecords(records: seq<Achievement>, firstReadOk: bool, secondReadOk: bool)

  /** One iteration of the user loop: the records left and the deletes
      counted. */
  function CleanUser(u: UserRecords, fails: set<nat>): (r: (seq<Achievement>, nat))
    ensures !u.firstReadOk ==> r == (u.records, 0)
    ensures u.firstReadOk && !u.secondReadOk ==> r == Pass1(u.records, fails)
  {
    if !u.firstReadOk then (u.records, 0)
    else
      var (kept, deleted) := Pass1(u.records, fails);
      if !u.secondReadOk then (kept, deleted)
      else
        var (left, removed) := Pass2(kept, fails);
        (left, deleted + removed)
  }

  /** The whole script: each user's remaining records, and `totalDeleted`. */
  function CleanAll(users: seq<UserRecords>, fails: set<nat>): (r: (seq<seq<Achievement>>, nat))
    ensures |r.0| == |users|
  {
    if |users| == 0 then ([], 0)
    else
      var first := CleanUser(users[0], fails);
      var rest := CleanAll(users[1..], fails);
      ([first.0] + rest.0, first.1 + rest.1)
  }

  /** The script's closing check: some name still occurs twice. */
  predicate HasDuplicate(achs: seq<Achievement>) {
    exists i, j :: 0 <= i < j < |achs| && achs[i].name == achs[j].name
  }

  predicate DistinctIds(achs: seq<Achievement>) {
    forall i, j :: 0 <= i < j < |achs| ==> achs[i].id != achs[j].id
  }

  /** Users are cleaned independently: the run over two lists of users is
      the runs over each, side by side, with the counts added. */
  lemma {:induction false} CleanAllSplit(us: seq<UserRecords>, vs: seq<UserRecords>, fails: set<nat>)
    ensures CleanAll(us + vs, fails).0 == CleanAll(us, fails).0 + CleanAll(vs, fails).0
    ensures CleanAll(us + vs, fails).1 == CleanAll(us, fails).1 + CleanAll(vs, fails).1
    decreases |us|
  {
    if |us| == 0 {
      assert us + vs == vs;
    } else {
      var ws := us + vs;
      assert ws[0] == us[0];
      assert ws[1..] == us[1..] + vs;
      CleanAllSplit(us[1..], vs, fails);
      var left := CleanUser(us[0], fails).0;
      var rest := CleanAll(us[1..], fails).0;
      var other := CleanAll(vs, fails).0;
      assert [left] + (rest + other) == ([left] + rest) + other;
    }
  }

  /** A user's entry in the result depends on that user's records alone. */
  lemma {:induction false} CleanAllPerUser(users: seq<UserRecords>, fails: set<nat>, k: nat)
    requires k < |users|
    ensures CleanAll(users, fails).0[k] == CleanUser(users[k], fails).0
    decreases k
  {
    if k > 0 {
      CleanAllPerUser(users[1..], fails, k - 1);
    }
  }

  /** With distinct ids, a record's id is slated for deletion exactly when
      the record is doomed. */
  lemma ListedIffDoomed(achs: seq<Achievement>, a: Achievement)
    requires DistinctIds(achs) && a in achs
    ensures a.id in ToDelete(achs, achs) <==> Doomed(achs, a)
  {
    if a.id in ToDelete(achs, achs) {
      var b :| b in achs && Doomed(achs, b) && b.id == a.id;
      var i :| 0 <= i < |achs| && achs[i] == a;
      var j :| 0 <= j < |achs| && achs[j] == b;
      assert i == j;
    }
  }

  /** With distinct ids and no failed delete, a record survives the second
      pass exactly when it is not doomed. */
  lemma Pass2KeepsUndoomed(achs: seq<Achievement>, a: Achievement)
    requires DistinctIds(achs) && a in achs
    ensures a in Pass2(achs, {}).0 <==> !Doomed(achs, a)
  {
    ListedIffDoomed(achs, a);
  }

  /** With no failed delete, the record of smallest id in a group survives
      the second pass, and so does a record alone in its group. */
  lemma Pass2KeepsMinimum(achs: seq<Achievement>, a: Achievement)
    requires DistinctIds(achs) && a in achs
    requires |Named(achs, a.name)| == 1 || a.id == MinId(Named(achs, a.name))
    ensures a in Pass2(achs, {}).0
  {
    Pass2KeepsUndoomed(achs, a);
  }

  /** With distinct ids and no failed delete, no two records left by the
      second pass share a name. */
  lemma Pass2NoDuplicate(achs: seq<Achievement>)
    requires DistinctIds(achs)
    ensures !HasDuplicate(Pass2(achs, {}).0)
  {
    var ids := ToDelete(achs, achs);
    var left := Remove(achs, ids, {});
    assert left == Pass2(achs, {}).0;
    if HasDuplicate(left) {
      var i, j :| 0 <= i < j < |left| && left[i].name == left[j].name;
      RemoveKeepsIdsDistinct(achs, ids, i, j);
      var a, b := left[i], left[j];
      assert a in left && b in left;
      Pass2KeepsUndoomed(achs, a);
      Pass2KeepsUndoomed(achs, b);
      UndoomedSameName(achs, a, b);
      assert false;
    }
  }

  /** Two records of one name that are both spared carry the same id. */
  lemma UndoomedSameName(achs: seq<Achievement>, a: Achievement, b: Achievement)
    requires a in achs && b in achs && a.name == b.name
    requires !Doomed(achs, a) && !Doomed(achs, b)
    ensures a.id == b.id
  {
    var g := Named(achs, a.name);
    assert a in g && b in g;
    if |g| == 1 {
      assert a == g[0] && b == g[0];
    }
  }

  /** Two different positions of the surviving list hold records with
      different ids. */
  lemma {:induction false} RemoveKeepsIdsDistinct(achs: seq<Achievement>, ids: seq<nat>, i: nat, j: nat)
    requires DistinctIds(achs)
    requires i < j < |Remove(achs, ids, {})|
    ensures Remove(achs, ids, {})[i].id != Remove(achs, ids, {})[j].id
    decreases |achs|
  {
    var r := Remove(achs, ids, {});
    var rest := Remove(achs[1..], ids, {});
    assert DistinctIds(achs[1..]);
    if achs[0].id !in ids {
      assert r == [achs[0]] + rest;
      if i == 0 {
        assert r[j] == rest[j - 1];
        TailIdDiffers(achs, rest[j - 1]);
      } else {
        RemoveKeepsIdsDistinct(achs[1..], ids, i - 1, j - 1);
      }
    } else {
      RemoveKeepsIdsDistinct(achs[1..], ids, i, j);
    }
  }

  /** A record after the first has a different id from the first. */
  lemma TailIdDiffers(achs: seq<Achievement>, x: Achievement)
    requires DistinctIds(achs) && |achs| > 0 && x in achs[1..]
    ensures x.id != achs[0].id
  {
    var k :| 0 <= k < |achs[1..]| && achs[1..][k] == x;
    assert achs[k + 1] == x;
  }

  /** The outcome the final verification loop expects: with both reads
      succeeding, distinct ids and no failed delete, every record left has a
      valid name, no name occurs twice, and every record counted as deleted
      is gone. */
  lemma CleanUserOutcome(u: UserRecords)
    requires u.firstReadOk && u.secondReadOk && DistinctIds(u.records)
    ensures var (left, deleted) := CleanUser(u, {});
      && (forall a :: a in left ==> IsValidName(a.name) && a in u.records)
      && !HasDuplicate(left)
      && deleted + |left| == |u.records|
  {
    var (kept, d1) := Pass1(u.records, {});
    Pass1Distinct(u.records, {});
    Pass2NoDuplicate(kept);
    var ids := ToDelete(kept, kept);
    RemoveCount(kept, ids);
    SlatedCount(kept, 0);
    assert kept[0..] == kept;
  }

  /** Counting from position `k`: the records whose id is slated are as
      many as the ids slated for those records. */
  lemma {:induction false} SlatedCount(all: seq<Achievement>, k: nat)
    requires DistinctIds(all) && k <= |all|
    ensures |ToDeleteIn(all[k..], ToDelete(all, all))| == |ToDelete(all, all[k..])|
    decreases |all| - k
  {
    if k < |all| {
      SlatedCount(all, k + 1);
      assert all[k..][1..] == all[k + 1..];
      assert all[k] in all;
      ListedIffDoomed(all, all[k]);
    }
  }

  /** The first pass keeps ids distinct. */
  lemma {:induction false} Pass1Distinct(achs: seq<Achievement>, fails: set<nat>)
    requires DistinctIds(achs)
    ensures DistinctIds(Pass1(achs, fails).0)
    decreases |achs|
  {
    if |achs| > 0 {
      assert DistinctIds(achs[1..]);
      Pass1Distinct(achs[1..], fails);
      var rest := Pass1(achs[1..], fails).0;
      forall a | a in rest
        ensures a.id != achs[0].id
      {
        var k :| 0 <= k < |achs[1..]| && achs[1..][k] == a;
        assert achs[k + 1] == a;
      }
    }
  }

  /** Without failures, each record the second pass removes is a distinct
      deleted id, so removed and kept records add up to the input. */
  lemma {:induction false} RemoveCount(achs: seq<Achievement>, ids: seq<nat>)
    requires DistinctIds(achs)
    ensures |Remove(achs, ids, {})| + |ToDeleteIn(achs, ids)| == |achs|
    decreases |achs|
  {
    if |achs| > 0 {
      assert DistinctIds(achs[1..]);
      RemoveCount(achs[1..], ids);
    }
  }

  /** The records of `achs` whose id is slated in `ids`. */
  function ToDeleteIn(achs: seq<Achievement>, ids: seq<nat>): (r: seq<Achievement>)
    ensures |r| <= |achs|
  {
    if |achs| == 0 then []
    else (if achs[0].id in ids then [achs[0]] else []) + ToDeleteIn(achs[1..], ids)
  }

  /** The initial achievement table of any user, run through the script,
      keeps only "坚持不懈": the other four names are not among the
      sixteen. */
  lemma CleanupOfInitialTable(user: User)
    ensures Pass1(InitAchievementTable(user).achievements, {}).0
      == [InitAchievementTable(user).achievements[1]]
  {
    var t := InitAchievementTable(user).achievements;
    InitialNames();
    assert Pass1(t[4..], {}).0 == [] by {
      assert t[4..][1..] == [];
    }
    assert t[3..][1..] == t[4..];
    assert Pass1(t[3..], {}).0 == [];
    assert t[2..][1..] == t[3..];
    assert Pass1(t[2..], {}).0 == [];
    assert t[1..][1..] == t[2..];
    assert Pass1(t[1..], {}).0 == [t[1]];
    assert t[1..] == t[0..][1..];
  }

  /** Of the five initial names only "坚持不懈" is valid. */
  lemma InitialNames()
    ensures !IsValidName(FirstFlagName) && IsValidName(FirstKeepName)
    ensures !IsValidName(Learn50Name) && !IsValidName(CollectorName) && !IsValidName(FocusName)
  {
    assert FirstKeepName == ValidNames[5];
  }
}

=== FILE: achievements.dfy ===
/** A user's achievements: the initial table of five, and the five
    threshold checks that mark one of them done. The user lookup each check
    performs is an input; the repository update it issues is the result. */
module Achievements {
  import opened Wrappers

  datatype Achievement = Achievement(id: nat, name: string, userId: nat, description: string, hadDone: bool)

  /** The fields of a user the checks read. `flags` stands for the user's
      flag list, of which only the length matters; `learnTimes` holds the
      durations of the learning records, in minutes. */
  datatype User = User(
    id: nat,
    flags: nat,
    flagNumber: int,
    count: int,
    learnTimes: seq<int>,
    achievements: seq<Achievement>)

  const FirstFlagName: string := "新手启程"
  const FirstKeepName: string := "坚持不懈"
  const Learn50Name: string := "学习达人"
  const CollectorName: string := "任务收藏家"
  const FocusName: string := "专注家"

  /** The five achievement names, in table order. */
  const TableNames: seq<string> := [FirstFlagName, FirstKeepName, Learn50Name, CollectorName, FocusName]

  const Learn50Threshold: int := 50
  const CollectorThreshold: int := 1000
  const FocusThreshold: int := 1000

  /** `InitAchievementTable`: the user's achievements become the five
      table entries, none done, all owned by the user. */
  function InitAchievementTable(user: User): (r: User)
    ensures |r.achievements| == |TableNames|
    ensures forall i :: 0 <= i < |r.achievements| ==>
      && r.achievements[i].name == TableNames[i]
      && r.achievements[i].userId == user.id
      && !r.achievements[i].hadDone
    ensures r.(achievements := user.achievements) == user
  {
    user.(achievements := [
      Achievement(0, FirstFlagName, user.id, "第一次设置flag", false),
      Achievement(0, FirstKeepName, user.id, "第一次坚持打卡完成", false),
      Achievement(0, Learn50Name, user.id, "累计打卡50次", false),
      Achievement(0, CollectorName, user.id, "积分超过1000", false),
      Achievement(0, FocusName, user.id, "累计学习时间超过1000min", false)])
  }

  /** The five table names are pairwise different, so the initial table
      holds each achievement exactly once. */
  lemma TableNamesDistinct()
    ensures forall i, j :: 0 <= i < j < |TableNames| ==> TableNames[i] != TableNames[j]
  {
    assert FirstFlagName[0] != FirstKeepName[0] && FirstFlagName[0] != Learn50Name[0];
    assert FirstFlagName[0] != CollectorName[0] && FirstFlagName[0] != FocusName[0];
    assert FirstKeepName[0] != Learn50Name[0] && FirstKeepName[0] != CollectorName[0];
    assert FirstKeepName[0] != FocusName[0] && Learn50Name[0] != CollectorName[0];
    assert Learn50Name[0] != FocusName[0] && CollectorName[0] != FocusName[0];
  }

  /** Re-initialising a table discards every earlier achievement. */
  lemma InitForgetsHistory(a: User, b: User)
    requires a.id == b.id
    ensures InitAchievementTable(a).achievements == InitAchievementTable(b).achievements
  {
  }

  /** The sum of the learning durations, as the loop adds them. */
  function Sum(xs: seq<int>): int {
    if |xs| == 0 then 0 else Sum(xs[..|xs| - 1]) + xs[|xs| - 1]
  }

  lemma {:induction false} SumAppend(a: seq<int>, b: seq<int>)
    ensures Sum(a + b) == Sum(a) + Sum(b)
    decreases |b|
  {
    if |b| == 0 {
      assert a + b == a;
    } else {
      assert (a + b)[..|a + b| - 1] == a + b[..|b| - 1];
      SumAppend(a, b[..|b| - 1]);
    }
  }

  /** The loop of `AchievementCheckLearn1000Min`. */
  method TotalLearnTime(durations: seq<int>) returns (total: int)
    ensures total == Sum(durations)
    ensures (forall i :: 0 <= i < |durations| ==> durations[i] >= 0) ==> total >= 0
  {
    total := 0;
    var i := 0;
    while i < |durations|
      invariant 0 <= i <= |durations|
      invariant total == Sum(durations[..i])
      invariant (forall k :: 0 <= k < |durations| ==> durations[k] >= 0) ==> total >= 0
    {
      assert durations[..i + 1][..i] == durations[..i];
      total := total + durations[i];
      i := i + 1;
    }
    assert durations[..i] == durations;
  }

  datatype Check = FirstFlag | FirstKeep | Learn50 | Collector | Focus

  /** The checks in the order `AchievementCheckAll` runs them. */
  const AllChecks: seq<Check> := [FirstFlag, FirstKeep, Learn50, Collector, Focus]

  function NameOf(c: Check): (n: string)
    ensures n in TableNames
  {
    match c
    case FirstFlag => FirstFlagName
    case FirstKeep => FirstKeepName
    case Learn50 => Learn50Name
    case Collector => CollectorName
    case Focus => FocusName
  }

  /** The threshold each check tests on the user it looked up. */
  predicate Earns(c: Check, u: User) {
    match c
    case FirstFlag => u.flags >= 1
    case FirstKeep => u.flagNumber >= 1
    case Learn50 => u.flagNumber >= Learn50Threshold
    case Collector => u.count >= CollectorThreshold
    case Focus => Sum(u.learnTimes) >= FocusThreshold
  }

  /** One `AchievementCheck*`: a failed lookup ends the check; otherwise
      the achievement is marked when its threshold is reached. The result
      is the name passed to the repository update, if any. */
  function RunCheck(c: Check, lookup: Option<User>): (marked: Option<string>)
    ensures marked.Some? ==> marked.value == NameOf(c) && lookup.Some?
    ensures lookup.None? ==> marked.None?
  {
    match lookup
    case None => None
    case Some(u) => if Earns(c, u) then Some(NameOf(c)) else None
  }

  /** `AchievementCheckAll`: every check runs with its own lookup; the
      result lists the names whose update is issued, in check order. */
  function CheckAll(lookup: Check -> Option<User>): (marked: seq<string>)
    ensures |marked| <= |AllChecks|
  {
    Marks(AllChecks, lookup)
  }

  function Marks(cs: seq<Check>, lookup: Check -> Option<User>): (marked: seq<string>)
    ensures |marked| <= |cs|
    ensures forall n :: n in marked ==> exists i :: 0 <= i < |cs| && RunCheck(cs[i], lookup(cs[i])) == Some(n)
  {
    if |cs| == 0 then []
    else
      var rest := Marks(cs[1..], lookup);
      assert forall n :: n in rest ==> exists i :: 0 <= i < |cs| && RunCheck(cs[i], lookup(cs[i])) == Some(n) by {
        forall n | n in rest
          ensures exists i :: 0 <= i < |cs| && RunCheck(cs[i], lookup(cs[i])) == Some(n)
        {
          var i :| 0 <= i < |cs| - 1 && RunCheck(cs[1..][i], lookup(cs[1..][i])) == Some(n);
          assert cs[1..][i] == cs[i + 1];
        }
      }
      match RunCheck(cs[0], lookup(cs[0]))
      case None => rest
      case Some(n) => [n] + rest
  }

  lemma NameOfInjective(c: Check, d: Check)
    ensures NameOf(c) == NameOf(d) <==> c == d
  {
    TableNamesDistinct();
  }

  lemma {:induction false} MarksMember(cs: seq<Check>, lookup: Check -> Option<User>, c: Check)
    ensures NameOf(c) in Marks(cs, lookup) <==> c in cs && RunCheck(c, lookup(c)).Some?
  {
    if |cs| > 0 {
      MarksMember(cs[1..], lookup, c);
      NameOfInjective(c, cs[0]);
      assert c in cs <==> c == cs[0] || c in cs[1..];
    }
  }

  /** Each achievement is marked by `AchievementCheckAll` exactly when its
      own lookup succeeds and its own threshold holds: a failed lookup in
      one check keeps none of the others from running. */
  lemma CheckAllIndependent(lookup: Check -> Option<User>, c: Check)
    ensures NameOf(c) in CheckAll(lookup) <==> lookup(c).Some? && Earns(c, lookup(c).value)
  {
    MarksMember(AllChecks, lookup, c);
  }

  /** A user who earns "学习达人" (50 completed flags) also earns "坚持不懈"
      (the first completed flag). */
  lemma Learn50ImpliesFirstKeep(u: User)
    ensures Earns(Learn50, u) ==> Earns(FirstKeep, u)
  {
  }

  /** Adding a learning record of non-negative length never takes the
      focus achievement away. */
  lemma FocusMonotone(u: User, minutes: int)
    requires minutes >= 0
    ensures Earns(Focus, u) ==> Earns(Focus, u.(learnTimes := u.learnTimes + [minutes]))
  {
    SumAppend(u.learnTimes, [minutes]);
    assert Sum([minutes]) == minutes by {
      assert [minutes][..0] == [];
    }
  }
}

=== FILE: ai_plan.dfy ===
/** The learning-plan endpoint around the AI call: cleaning the model's
    reply, reading it as JSON, defaulting the difficulty, and the HTTP
    outcome of the handler. The AI call and the JSON decoder are inputs. */
module AiPlan {
  import opened Wrappers
  import opened Utf8
  import LearningGoal

  /** The bound request body; `flag` is required, so never empty. */
  datatype PlanRequest = PlanRequest(flag: seq<byte>, background: seq<byte>, difficulty: int)

  /** What `json.Unmarshal` fills in: absent fields stay zero. */
  datatype Decoded = Decoded(flag: seq<byte>, difficulty: int, plan: seq<byte>)

  /** A learning plan: the flag, the plan text and the difficulty score. */
  datatype Plan = Plan(flag: seq<byte>, plan: seq<byte>, difficulty: int)

  datatype PlanError =
    | CallFailed(reason: seq<byte>)  // the AI call's own error, passed on
    | EmptyPlan                      // the reply held no plan text at all

  datatype Status = BadRequest | InternalError | Success

  datatype Response = Response(status: Status, success: bool, flag: seq<byte>, count: int, plan: seq<byte>)

  const DefaultDifficulty: int := 150

  /** "```json" and "```" as bytes. */
  const JsonFence: seq<byte> := [0x60, 0x60, 0x60, 0x6A, 0x73, 0x6F, 0x6E]
  const Fence: seq<byte> := [0x60, 0x60, 0x60]

  /** `strings.TrimPrefix`. */
  function TrimPrefix(s: seq<byte>, p: seq<byte>): (t: seq<byte>)
    ensures |t| <= |s| && t == s[|s| - |t|..]
    ensures |t| == |s| <==> !(p <= s) || |p| == 0
  {
    if p <= s then s[|p|..] else s
  }

  /** `strings.TrimSuffix`. */
  function TrimSuffix(s: seq<byte>, p: seq<byte>): (t: seq<byte>)
    ensures |t| <= |s| && t == s[..|t|]
    ensures |t| == |s| <==> !(|p| <= |s| && s[|s| - |p|..] == p) || |p| == 0
  {
    if |p| <= |s| && s[|s| - |p|..] == p then s[..|s| - |p|] else s
  }

  lemma TrimPrefixOfPrefixed(p: seq<byte>, s: seq<byte>)
    ensures TrimPrefix(p + s, p) == s
  {
    assert p <= p + s;
  }

  lemma TrimSuffixOfSuffixed(s: seq<byte>, p: seq<byte>)
    ensures TrimSuffix(s + p, p) == s
  {
    assert (s + p)[|s|..] == p;
  }

  /** The cleaning in `parseAIResponse`: a leading "```json", then a leading
      "```", then a trailing "```" are cut off, then surrounding white
      space is trimmed. */
  function Clean(response: seq<byte>): (c: seq<byte>)
    ensures |c| <= |response|
    ensures |c| > 0 ==> !IsSpace(DecodeLastRune(c).rune)
  {
    TrimSpace(TrimSuffix(TrimPrefix(TrimPrefix(response, JsonFence), Fence), Fence))
  }

  /** `parseAIResponse`. It never fails: text that does not decode becomes
      the plan itself, and so does the cleaned text when the decoded plan
      is empty, though the decoded flag and difficulty are kept. */
  function ParseAIResponse(response: seq<byte>, decode: seq<byte> -> Option<Decoded>): (r: Plan)
    ensures decode(Clean(response)).None? ==> r == Plan([], Clean(response), 0)
    ensures decode(Clean(response)).Some? ==>
      var d := decode(Clean(response)).value;
      && r.flag == d.flag && r.difficulty == d.difficulty
      && r.plan == (if d.plan == [] then Clean(response) else d.plan)
  {
    var clean := Clean(response);
    match decode(clean)
    case None => Plan([], clean, 0)
    case Some(d) => if d.plan == [] then Plan(d.flag, clean, d.difficulty) else Plan(d.flag, d.plan, d.difficulty)
  }

  /** The parsed plan is empty only when the cleaned reply is empty and the
      decoder produced no plan text. */
  lemma ParsedPlanEmptyIff(response: seq<byte>, decode: seq<byte> -> Option<Decoded>)
    ensures ParseAIResponse(response, decode).plan == [] <==>
      Clean(response) == [] && (decode([]).None? || decode([]).value.plan == [])
  {
  }

  /** A reply fenced as a Markdown JSON block, "```json\n" + j + "\n```",
      is cleaned to exactly `j` when `j` is ASCII text that neither starts
      nor ends with white space. */
  lemma CleanFencedJson(j: seq<byte>)
    requires AllAscii(j) && |j| > 0
    requires !IsAsciiSpace(j[0]) && !IsAsciiSpace(j[|j| - 1])
    ensures Clean(JsonFence + [0x0A] + j + [0x0A] + Fence) == j
  {
    var inner := [0x0A] + j + [0x0A];
    var reply := JsonFence + [0x0A] + j + [0x0A] + Fence;
    assert reply == JsonFence + (inner + Fence);
    TrimPrefixOfPrefixed(JsonFence, inner + Fence);
    var a := TrimPrefix(reply, JsonFence);
    assert a == inner + Fence;
    assert a[0] == 0x0A;
    var b := TrimPrefix(a, Fence);
    assert b == a;
    TrimSuffixOfSuffixed(inner, Fence);
    var c := TrimSuffix(b, Fence);
    assert c == inner;
    FramedAscii(j);
  }

  /** A newline on each side of trimmed ASCII text is trimmed away. */
  lemma FramedAscii(j: seq<byte>)
    requires AllAscii(j) && |j| > 0
    requires !IsAsciiSpace(j[0]) && !IsAsciiSpace(j[|j| - 1])
    ensures TrimSpace([0x0A] + j + [0x0A]) == j
  {
    var tail := j + [0x0A];
    var inner := [0x0A] + tail;
    assert [0x0A] + j + [0x0A] == inner;
    FramedIsAscii(j);
    TrimSpaceAscii(inner);
    assert inner[1..] == tail;
    assert AsciiTrimLeft(tail) == tail by {
      assert tail[0] == j[0];
    }
    assert AsciiTrimLeft(inner) == tail;
    assert tail[..|tail| - 1] == j;
    assert AsciiTrimRight(j) == j;
    assert AsciiTrimRight(tail) == j;
  }

  lemma FramedIsAscii(j: seq<byte>)
    requires AllAscii(j)
    ensures AllAscii([0x0A] + (j + [0x0A]))
  {
    var inner := [0x0A] + (j + [0x0A]);
    forall k | 0 <= k < |inner|
      ensures inner[k] < RuneSelf
    {
      if 0 < k < |inner| - 1 {
        assert inner[k] == j[k - 1];
      }
    }
  }

  /** A bare JSON object reply, ASCII and without fences or surrounding
      white space, is left as it is. */
  lemma CleanBareJson(j: seq<byte>)
    requires AllAscii(j) && |j| > 0 && j[0] == '{' as int && j[|j| - 1] == '}' as int
    ensures Clean(j) == j
  {
    assert TrimPrefix(j, JsonFence) == j by {
      if |JsonFence| <= |j| { assert j[0] != JsonFence[0]; }
    }
    assert TrimPrefix(j, Fence) == j by {
      if |Fence| <= |j| { assert j[0] != Fence[0]; }
    }
    assert TrimSuffix(j, Fence) == j by {
      if |Fence| <= |j| { assert j[|j| - |Fence|..][2] == j[|j| - 1]; }
    }
    AsciiUntrimmed(j);
  }

  /** The zero-difficulty defaulting: the parsed score, else the requested
      one, else 150. */
  function DefaultScore(parsed: int, requested: int): (d: int)
    ensures d != 0
    ensures parsed != 0 ==> d == parsed
    ensures parsed == 0 && requested != 0 ==> d == requested
    ensures parsed == 0 && requested == 0 ==> d == DefaultDifficulty
  {
    if parsed != 0 then parsed else if requested != 0 then requested else DefaultDifficulty
  }

  /** `TaiFuLearningPlanner.GenerateLearningPlan` after the prompt is
      built: `call` is the outcome of the AI request. */
  function GenerateLearningPlan(req: PlanRequest, call: Result<seq<byte>, seq<byte>>,
                                decode: seq<byte> -> Option<Decoded>): (r: Result<Plan, PlanError>)
    ensures call.Err? ==> r == Err(CallFailed(call.error))
    ensures r.Ok? ==> r.value.plan != [] && r.value.difficulty != 0
  {
    match call
    case Err(e) => Err(CallFailed(e))
    case Ok(response) =>
      var p := ParseAIResponse(response, decode);
      if p.plan == [] then Err(EmptyPlan)
      else Ok(Plan(p.flag, p.plan, DefaultScore(p.difficulty, req.difficulty)))
  }

  /** A successful call yields a plan exactly when the parsed plan is not
      empty, and then flag and plan are the parsed ones while only a zero
      difficulty is replaced. */
  lemma GenerateFromReply(req: PlanRequest, response: seq<byte>, decode: seq<byte> -> Option<Decoded>)
    ensures var p := ParseAIResponse(response, decode);
      var r := GenerateLearningPlan(req, Ok(response), decode);
      && (r.Ok? <==> p.plan != [])
      && (r.Err? ==> r.error == EmptyPlan)
      && (r.Ok? ==> r.value.flag == p.flag && r.value.plan == p.plan)
      && (r.Ok? && p.difficulty != 0 ==> r.value.difficulty == p.difficulty)
      && (r.Ok? && p.difficulty == 0 && req.difficulty != 0 ==> r.value.difficulty == req.difficulty)
  {
  }

  /** A reply that does not decode becomes the plan with the requested
      difficulty, or 150. */
  lemma UndecodableReplyIsPlan(req: PlanRequest, response: seq<byte>, decode: seq<byte> -> Option<Decoded>)
    requires decode(Clean(response)).None? && Clean(response) != []
    ensures GenerateLearningPlan(req, Ok(response), decode)
      == Ok(Plan([], Clean(response), DefaultScore(0, req.difficulty)))
  {
  }

  /** The `GenerateLearningPlan` handler. `body` is the bound request, or
      `None` when binding fails; an empty flag fails the `required`
      binding too. */
  function HandleGenerate(body: Option<PlanRequest>, call: Result<seq<byte>, seq<byte>>,
                          decode: seq<byte> -> Option<Decoded>): (resp: Response)
    ensures body.None? ==> resp.status == BadRequest
    ensures resp.success <==> resp.status == Success
  {
    match body
    case None => Response(BadRequest, false, [], 0, [])
    case Some(req) =>
      if req.flag == [] || !LearningGoal.IsValidLearningGoal(req.flag) then Response(BadRequest, false, [], 0, [])
      else
        match GenerateLearningPlan(req, call, decode)
        case Err(_) => Response(InternalError, false, [], 0, [])
        case Ok(p) => Response(Success, true, p.flag, p.difficulty, p.plan)
  }

  /** A 200 answer only follows a valid learning goal and a successful
      generation, and always carries a plan and a non-zero difficulty; an
      invalid goal is refused whatever the AI would have answered. */
  lemma HandleGenerateOutcome(body: Option<PlanRequest>, call: Result<seq<byte>, seq<byte>>,
                              decode: seq<byte> -> Option<Decoded>)
    ensures var resp := HandleGenerate(body, call, decode);
      && (resp.status == Success <==>
            body.Some? && LearningGoal.IsValidLearningGoal(body.value.flag)
            && GenerateLearningPlan(body.value, call, decode).Ok?)
      && (resp.status == Success ==> resp.plan != [] && resp.count != 0)
      && (body.Some? && !LearningGoal.IsValidLearningGoal(body.value.flag) ==> resp.status == BadRequest)
      && (call.Err? ==> resp.status != Success)
  {
    if body.Some? && body.value.flag == [] {
      assert TrimSpace(body.value.flag) == [];
    }
  }
}

=== FILE: avatar.dfy ===
/** `ServeAvatar`: the avatar id from the URL is parsed and range-checked,
    names one of 32 image files, and the first of up to three candidate
    paths that exists is served. The executable's directory and the file
    system are inputs. */
module Avatar {
  import opened Wrappers
  import opened Decimal
  import Util
  import Chat

  /** The avatar files, in the order the front end numbers them from 1. */
  const AvatarFiles: seq<string> := [
    "screenshot_20251114_131601.png",
    "screenshot_20251114_131629.png",
    "screenshot_20251114_131937.png",
    "screenshot_20251114_131951.png",
    "screenshot_20251114_132014.png",
    "screenshot_20251114_133459.png",
    "微信图片_20251115203432_32_227.jpg",
    "微信图片_20251115203433_33_227.jpg",
    "微信图片_20251115203434_34_227.jpg",
    "微信图片_20251115203434_35_227.jpg",
    "微信图片_20251115203435_36_227.jpg",
    "微信图片_20251115203436_37_227.jpg",
    "微信图片_20251116131024_45_227.jpg",
    "微信图片_20251116131024_46_227.jpg",
    "微信图片_20251116131025_47_227.jpg",
    "微信图片_20251116131026_48_227.jpg",
    "微信图片_20251116131027_49_227.jpg",
    "微信图片_20251116131028_50_227.jpg",
    "微信图片_20251116131029_51_227.jpg",
    "微信图片_20251116131030_52_227.jpg",
    "微信图片_20251116131031_53_227.jpg",
    "微信图片_20251117235910_62_227.jpg",
    "微信图片_20251117235910_63_227.jpg",
    "微信图片_20251117235911_64_227.jpg",
    "微信图片_20251117235912_65_227.jpg",
    "微信图片_20251117235913_66_227.jpg",
    "微信图片_20251117235914_67_227.jpg",
    "微信图片_20251117235915_68_227.jpg",
    "微信图片_20251117235916_69_227.jpg",
    "微信图片_20251117235917_71_227.jpg",
    "微信图片_20251118000147_72_227.jpg",
    "微信图片_20251118000148_74_227.jpg"]

  datatype Reply = BadRequest | ServeFile(path: string) | NotFound

  /** The id in the URL when `strconv.Atoi` accepts it and it numbers one
      of the files. */
  function AvatarId(idStr: string): (id: Option<nat>)
    ensures id.Some? <==> Atoi(idStr).Some? && 1 <= Atoi(idStr).value <= |AvatarFiles|
    ensures id.Some? ==> id.value == Atoi(idStr).value
  {
    match Atoi(idStr)
    case None => None
    case Some(n) => if n < 1 || n > |AvatarFiles| then None else Some(n)
  }

  const FrontendHead: string := "../frontend/src/assets/head/"
  const LocalHead: string := "assets/head/"

  /** `filepath.Join(dir, "assets", "head", f)` for the clean directory
      `filepath.Dir` returns: the separator is not doubled after the root,
      and a current-directory `.` disappears. */
  function ExecHead(dir: string, filename: string): (path: string)
    ensures dir != "." ==> |path| >= |dir| && path[..|dir|] == dir
    ensures |path| >= |LocalHead| + |filename|
      && path[|path| - |filename| - |LocalHead|..] == LocalHead + filename
  {
    var prefix := if dir == "." then "" else if dir == "/" then dir else dir + "/";
    JoinedPath(prefix, filename);
    prefix + LocalHead + filename
  }

  lemma JoinedPath(prefix: string, filename: string)
    ensures var path := prefix + LocalHead + filename;
      && path[..|prefix|] == prefix
      && path[|path| - |filename| - |LocalHead|..] == LocalHead + filename
  {
    var path := prefix + LocalHead + filename;
    assert path == prefix + (LocalHead + filename);
  }

  /** The candidate paths, in the order they are tried: the front-end
      assets, `./assets`, and the executable's directory when
      `os.Executable` succeeds. */
  function Candidates(filename: string, execDir: Option<string>): (cs: seq<string>)
    ensures |cs| == (if execDir.Some? then 3 else 2)
    ensures cs[0] == FrontendHead + filename && cs[1] == LocalHead + filename
    ensures execDir.Some? ==> cs[2] == ExecHead(execDir.value, filename)
  {
    [FrontendHead + filename, LocalHead + filename]
      + (if execDir.Some? then [ExecHead(execDir.value, filename)] else [])
  }

  /** The first path of `cs` that exists. */
  function FirstExisting(cs: seq<string>, onDisk: string -> bool): (r: Option<nat>)
    ensures r.Some? ==> r.value < |cs| && onDisk(cs[r.value])
    ensures r.Some? ==> forall k :: 0 <= k < r.value ==> !onDisk(cs[k])
    ensures r.None? <==> forall k :: 0 <= k < |cs| ==> !onDisk(cs[k])
  {
    if |cs| == 0 then None
    else if onDisk(cs[0]) then Some(0)
    else
      match FirstExisting(cs[1..], onDisk)
      case None => None
      case Some(k) => Some(k + 1)
  }

  /** The handler. */
  function ServeAvatar(idStr: string, execDir: Option<string>, onDisk: string -> bool): (r: Reply)
    ensures r == BadRequest <==> AvatarId(idStr).None?
  {
    match AvatarId(idStr)
    case None => BadRequest
    case Some(id) =>
      var cs := Candidates(AvatarFiles[id - 1], execDir);
      match FirstExisting(cs, onDisk)
      case None => NotFound
      case Some(k) => ServeFile(cs[k])
  }

  /** A served file is the first existing candidate for the file the id
      numbers; "not found" means none of those candidates exists. */
  lemma ServeAvatarOutcome(idStr: string, execDir: Option<string>, onDisk: string -> bool)
    requires AvatarId(idStr).Some?
    ensures var cs := Candidates(AvatarFiles[AvatarId(idStr).value - 1], execDir);
      match ServeAvatar(idStr, execDir, onDisk)
      case BadRequest => false
      case NotFound => forall k :: 0 <= k < |cs| ==> !onDisk(cs[k])
      case ServeFile(p) =>
        exists k :: 0 <= k < |cs| && p == cs[k] && onDisk(p) && forall j :: 0 <= j < k ==> !onDisk(cs[j])
  {
  }

  /** The front-end copy wins whenever it exists; the local copy is served
      only when the front-end copy is missing. */
  lemma CandidateOrder(idStr: string, execDir: Option<string>, onDisk: string -> bool)
    requires AvatarId(idStr).Some?
    ensures var f := AvatarFiles[AvatarId(idStr).value - 1];
      && (onDisk(FrontendHead + f) ==> ServeAvatar(idStr, execDir, onDisk) == ServeFile(FrontendHead + f))
      && (!onDisk(FrontendHead + f) && onDisk(LocalHead + f) ==>
            ServeAvatar(idStr, execDir, onDisk) == ServeFile(LocalHead + f))
  {
  }

  /** The file names are pairwise different, so each id serves its own
      file. */
  lemma AvatarFilesDistinct()
    ensures forall i, j :: 0 <= i < j < |AvatarFiles| ==> AvatarFiles[i] != AvatarFiles[j]
  {
    ScreenshotsDistinct();
    PicturesDistinct();
    forall i, j | 0 <= i < 6 <= j < |AvatarFiles|
      ensures AvatarFiles[i] != AvatarFiles[j]
    {
      assert AvatarFiles[i][0] == 's' && AvatarFiles[j][0] == '微';
    }
  }

  lemma ScreenshotsDistinct()
    ensures forall i, j :: 0 <= i < j < 6 ==> AvatarFiles[i] != AvatarFiles[j]
  {
  }

  lemma PicturesDistinct()
    ensures forall i, j :: 6 <= i < j < |AvatarFiles| ==> AvatarFiles[i] != AvatarFiles[j]
  {
  }

  /** Every path `GetAvatarPath` hands out names an id that `ServeAvatar`
      accepts: 1 to 21 lie within 1 to 32. */
  lemma ProfileAvatarsServable(headShow: int)
    ensures var id := if 0 < headShow <= Util.MaxProfileAvatar then headShow else 1;
      && Util.GetAvatarPath(headShow) == Util.AvatarApiPrefix + FormatInt(id)
      && AvatarId(FormatInt(id)) == Some(id)
  {
    var id := if 0 < headShow <= Util.MaxProfileAvatar then headShow else 1;
    if id == 1 {
      FormatOne();
    }
    AtoiFormatInt(id);
    AvatarCount();
  }

  lemma FormatOne()
    ensures FormatInt(1) == "1"
  {
    assert Digits(1) == [DigitChar(1)];
  }

  lemma AvatarCount()
    ensures |AvatarFiles| == 32
  {
  }

  /** The six avatars chat messages point at are the first six files
      served here, under the same names. */
  lemma ChatAvatarsAreFirstSix(h: int)
    requires 1 <= h <= |Chat.ChatAvatarFiles|
    ensures Chat.ChatAvatarPath(h) == "/src/assets/images/" + AvatarFiles[h - 1]
  {
    var x := Chat.ChatAvatarFiles[h - 1];
    FirstSixFiles();
    assert AvatarFiles[h - 1] == ScreenshotPrefix + x + ".png";
    ImagesPath(x);
  }

  const ScreenshotPrefix: string := "screenshot_20251114_"

  lemma ImagesPath(x: string)
    ensures "/src/assets/images/screenshot_20251114_" + x + ".png" == "/src/assets/images/" + (ScreenshotPrefix + x + ".png")
  {
    assert "/src/assets/images/screenshot_20251114_" == "/src/assets/images/" + ScreenshotPrefix;
  }

  lemma FirstSixFiles()
    ensures forall h :: 0 <= h < 6 ==> AvatarFiles[h] == ScreenshotPrefix + Chat.ChatAvatarFiles[h] + ".png"
  {
  }
}

=== FILE: chat.dfy ===
/** The chat room manager: the room registry, the presence directory
    (`GlobalClients`) and every session's bounded send queue, with each
    event of the manager loop applied one at a time as a pure transition.

    A Go `*Client` is a heap object whose identity matters (two sessions of
    one user are different clients), so sessions live in a heap
    `sessions: map<SessionId, Session>` and both `GlobalClients` and a room's
    member map hold session ids, exactly as the Go maps hold pointers.
    Closing a closed channel and sending on a closed channel make Go panic;
    such a step yields `Panic`. Times are integers in nanoseconds. */
module Chat {
  import opened Wrappers
  import Decimal

  type UserId = nat
  type SessionId = nat
  type RoomId = string

  /** Capacity of a client's `Send` channel. */
  const SendCapacity: nat := 256
  /** `MaxUsers` of every room, default or created. */
  const RoomMaxUsers: int := 50
  /** Upper bound on the number of rooms, default rooms included. */
  const MaxRooms: nat := 10
  const Second: int := 1_000_000_000
  const Hour: int := 3600 * Second
  /** An empty non-default room idle for longer than this is swept. */
  const IdleRetention: int := 10 * Hour
  const DefaultHistoryLimit: int := 30
  const MaxHistoryLimit: int := 100

  datatype Message = Message(
    from: UserId,
    to: UserId,
    content: string,
    createdAt: int,
    roomId: RoomId,
    userName: string,
    userAvatar: string)

  /** A connected client: its identity, the room it asked for ("" for
      private chat only) and its send channel. */
  datatype Session = Session(
    user: UserId,
    roomId: RoomId,
    createdAt: int,
    queue: seq<Message>,
    closed: bool)

  datatype Room = Room(
    id: RoomId,
    name: string,
    creator: UserId,
    members: map<UserId, SessionId>,
    createdAt: int,
    lastActive: int,
    maxUsers: int)

  /** `Rooms`, `GlobalClients`, the client heap and the next fresh client. */
  datatype Manager = Manager(
    rooms: map<RoomId, Room>,
    clients: map<UserId, SessionId>,
    sessions: map<SessionId, Session>,
    nextSid: SessionId)

  datatype Fault = CloseOfClosedChannel | SendOnClosedChannel

  datatype ChatError =
    | Unauthorized
    | RoomNotFound
    | RoomFull
    | NameRequired
    | TooManyRooms
    | ProtectedRoom
    | NotCreator

  /** The outcome of one event: the next state, a refusal reported to the
      HTTP caller, or a Go runtime panic. */
  datatype Step = Next(m: Manager) | Refused(error: ChatError) | Panic(fault: Fault)

  predicate IsDefaultRoom(id: RoomId) {
    id == "room-1" || id == "room-2" || id == "room-3"
  }

  function NewRoom(id: RoomId, name: string, creator: UserId, now: int): Room {
    Room(id, name, creator, map[], now, now, RoomMaxUsers)
  }

  /** The package `init`: three default rooms created by the system (user 0)
      and no client. */
  function Boot(now: int): (m: Manager)
    ensures forall id :: id in m.rooms <==> IsDefaultRoom(id)
    ensures forall id :: id in m.rooms ==>
      m.rooms[id] == NewRoom(id, m.rooms[id].name, 0, now)
    ensures m.clients == map[] && m.sessions == map[]
  {
    Manager(
      map[
        "room-1" := NewRoom("room-1", "学习交流室", 0, now),
        "room-2" := NewRoom("room-2", "休闲娱乐室", 0, now),
        "room-3" := NewRoom("room-3", "技术讨论室", 0, now)],
      map[], map[], 0)
  }

  // ---------------------------------------------------------------------
  // Well-formedness: what every state reached from Boot satisfies.
  // ---------------------------------------------------------------------

  ghost predicate ClientOk(m: Manager, u: UserId)
    requires u in m.clients
  {
    m.clients[u] in m.sessions && m.sessions[m.clients[u]].user == u
  }

  ghost predicate MemberOk(m: Manager, id: RoomId, u: UserId)
    requires id in m.rooms && u in m.rooms[id].members
  {
    var sid := m.rooms[id].members[u];
    sid in m.sessions && m.sessions[sid].user == u && m.sessions[sid].roomId == id
  }

  /** Every client referenced by `GlobalClients` or by a room exists, is
      filed under its own user id, and sits in the room it asked for; the
      empty string is never a room id; fresh clients are fresh. */
  ghost predicate Wf(m: Manager) {
    && (forall sid :: sid in m.sessions ==> sid < m.nextSid)
    && "" !in m.rooms
    && (forall u :: u in m.clients ==> ClientOk(m, u))
    && (forall id, u :: id in m.rooms && u in m.rooms[id].members ==> MemberOk(m, id, u))
  }

  predicate IsClosed(m: Manager, sid: SessionId) {
    sid in m.sessions && m.sessions[sid].closed
  }

  predicate IsFull(m: Manager, sid: SessionId) {
    sid in m.sessions && |m.sessions[sid].queue| >= SendCapacity
  }

  // ---------------------------------------------------------------------
  // Register
  // ---------------------------------------------------------------------

  /** Whether a client asking for `roomId` is put into a room. */
  predicate Joins(m: Manager, roomId: RoomId) {
    roomId != "" && roomId in m.rooms
  }

  /** The `Register` case of the manager loop for a new client of `user`
      asking for `roomId`: the client becomes the user's entry in
      `GlobalClients`, replacing any earlier one, and joins the room (and
      refreshes its activity) only when that room exists. */
  function Register(m: Manager, user: UserId, roomId: RoomId, now: int): (r: Manager)
    ensures r.nextSid == m.nextSid + 1
    ensures m.nextSid in r.sessions && r.sessions[m.nextSid] == Session(user, roomId, now, [], false)
    ensures forall sid :: sid in m.sessions && sid != m.nextSid ==>
      sid in r.sessions && r.sessions[sid] == m.sessions[sid]
    ensures r.sessions.Keys == m.sessions.Keys + {m.nextSid}
    ensures r.clients.Keys == m.clients.Keys + {user} && r.clients[user] == m.nextSid
    ensures forall u :: u in m.clients && u != user ==> r.clients[u] == m.clients[u]
    ensures r.rooms.Keys == m.rooms.Keys
    ensures forall id :: id in m.rooms && id != roomId ==> r.rooms[id] == m.rooms[id]
    ensures Joins(m, roomId) ==>
      && r.rooms[roomId].members.Keys == m.rooms[roomId].members.Keys + {user}
      && r.rooms[roomId].members[user] == m.nextSid
      && (forall u :: u in m.rooms[roomId].members && u != user ==>
            r.rooms[roomId].members[u] == m.rooms[roomId].members[u])
      && r.rooms[roomId] == m.rooms[roomId].(members := r.rooms[roomId].members, lastActive := now)
    ensures !Joins(m, roomId) ==> r.rooms == m.rooms
  {
    var sid := m.nextSid;
    var rooms :=
      if Joins(m, roomId) then
        var room := m.rooms[roomId];
        m.rooms[roomId := room.(members := room.members[user := sid], lastActive := now)]
      else m.rooms;
    Manager(rooms, m.clients[user := sid], m.sessions[sid := Session(user, roomId, now, [], false)], sid + 1)
  }

  // ---------------------------------------------------------------------
  // Unregister
  // ---------------------------------------------------------------------

  /** Whether unregistering client `c` takes its user out of its room. */
  predicate Leaves(m: Manager, c: Session) {
    c.roomId != "" && c.roomId in m.rooms && c.user in m.rooms[c.roomId].members
  }

  /** The rooms once `c`'s user has left its room at time `now`. */
  function LeaveRoom(m: Manager, c: Session, now: int): map<RoomId, Room> {
    if Leaves(m, c) then
      var room := m.rooms[c.roomId];
      m.rooms[c.roomId := room.(members := room.members - {c.user}, lastActive := now)]
    else m.rooms
  }

  /** The `Unregister` case of the manager loop for client `sid`. The user
      id (not the client) is looked up: when it is in `GlobalClients` the
      entry is deleted and this client's channel is closed, which panics if
      the channel is already closed; the user leaves the client's room. */
  function Unregister(m: Manager, sid: SessionId, now: int): (r: Step)
    requires sid in m.sessions
    ensures r.Next? || r == Panic(CloseOfClosedChannel)
    ensures r.Panic? <==> m.sessions[sid].user in m.clients && m.sessions[sid].closed
    ensures r.Next? ==>
      var c := m.sessions[sid];
      && r.m.nextSid == m.nextSid
      && r.m.clients.Keys == m.clients.Keys - {c.user}
      && (forall u :: u in r.m.clients ==> r.m.clients[u] == m.clients[u])
      && r.m.sessions.Keys == m.sessions.Keys
      && (forall s :: s in m.sessions && s != sid ==> r.m.sessions[s] == m.sessions[s])
      && r.m.sessions[sid].queue == c.queue
      && r.m.sessions[sid].closed == (c.closed || c.user in m.clients)
      && r.m.sessions[sid] == c.(closed := r.m.sessions[sid].closed)
      && r.m.rooms.Keys == m.rooms.Keys
      && (forall id :: id in m.rooms && !(Leaves(m, c) && id == c.roomId) ==> r.m.rooms[id] == m.rooms[id])
      && (Leaves(m, c) ==>
            && r.m.rooms[c.roomId].members == m.rooms[c.roomId].members - {c.user}
            && r.m.rooms[c.roomId] == m.rooms[c.roomId].(members := r.m.rooms[c.roomId].members, lastActive := now))
  {
    var c := m.sessions[sid];
    if c.user in m.clients && c.closed then Panic(CloseOfClosedChannel)
    else
      var sessions := if c.user in m.clients then m.sessions[sid := c.(closed := true)] else m.sessions;
      Next(Manager(LeaveRoom(m, c, now), m.clients - {c.user}, sessions, m.nextSid))
  }

  // ---------------------------------------------------------------------
  // Routing
  // ---------------------------------------------------------------------

  /** `q` after offering `msg` `k` times without blocking: each offer that
      finds the queue full is dropped. */
  function Fill(q: seq<Message>, msg: Message, k: nat): (r: seq<Message>)
    ensures |q| <= |r| && r[..|q|] == q
    ensures |q| < SendCapacity ==> |r| <= SendCapacity
    ensures forall i :: |q| <= i < |r| ==> r[i] == msg
    decreases k
  {
    if k == 0 || |q| >= SendCapacity then q else Fill(q + [msg], msg, k - 1)
  }

  /** `select { case ch <- data: default: }` on client `sid`'s channel. */
  function Offer(m: Manager, sid: SessionId, msg: Message): (r: Step)
    ensures r.Panic? <==> IsClosed(m, sid)
    ensures r.Panic? ==> r.fault == SendOnClosedChannel
    ensures r.Next? ==>
      && r.m.rooms == m.rooms && r.m.clients == m.clients && r.m.nextSid == m.nextSid
      && r.m.sessions.Keys == m.sessions.Keys
      && (forall s :: s in m.sessions && s != sid ==> r.m.sessions[s] == m.sessions[s])
      && (sid in m.sessions ==>
            r.m.sessions[sid] == m.sessions[sid].(queue := Fill(m.sessions[sid].queue, msg, 1)))
  {
    if sid !in m.sessions then Next(m)
    else
      var c := m.sessions[sid];
      if c.closed then Panic(SendOnClosedChannel)
      else if |c.queue| < SendCapacity then Next(m.(sessions := m.sessions[sid := c.(queue := c.queue + [msg])]))
      else Next(m)
  }

  /** How many copies of a private message `msg` are offered to client
      `sid`: one if it is the recipient's client, one if it is the sender's. */
  function PrivateCopies(m: Manager, msg: Message, sid: SessionId): nat {
    (if msg.to in m.clients && m.clients[msg.to] == sid then 1 else 0)
    + (if msg.from in m.clients && m.clients[msg.from] == sid then 1 else 0)
  }

  /** The private branch (`ToID > 0`): the recipient's client, if online,
      then the sender's client, if online, are each offered the message. */
  function RoutePrivate(m: Manager, msg: Message): (r: Step)
    ensures r.Panic? <==>
      (msg.to in m.clients && IsClosed(m, m.clients[msg.to]))
      || (msg.from in m.clients && IsClosed(m, m.clients[msg.from]))
    ensures r.Panic? ==> r.fault == SendOnClosedChannel
    ensures r.Next? ==>
      && r.m.rooms == m.rooms && r.m.clients == m.clients && r.m.nextSid == m.nextSid
      && r.m.sessions.Keys == m.sessions.Keys
      && (forall s :: s in m.sessions ==>
            r.m.sessions[s] == m.sessions[s].(queue := Fill(m.sessions[s].queue, msg, PrivateCopies(m, msg, s))))
  {
    var first := if msg.to in m.clients then Offer(m, m.clients[msg.to], msg) else Next(m);
    if !first.Next? then first
    else if msg.from in first.m.clients then Offer(first.m, first.m.clients[msg.from], msg)
    else first
  }

  /** Delivery of one broadcast copy to a member's client: enqueued when
      there is room, otherwise the channel is closed. */
  function Deliver(c: Session, msg: Message): Session {
    if |c.queue| < SendCapacity then c.(queue := c.queue + [msg]) else c.(closed := true)
  }

  /** The members of room `id` whose client's queue is full. */
  function SlowMembers(m: Manager, id: RoomId): set<UserId>
    requires id in m.rooms
  {
    set u | u in m.rooms[id].members && IsFull(m, m.rooms[id].members[u])
  }

  /** The room branch (`ToID == 0`, room exists): the room's activity is
      refreshed and every member's client is offered one copy, the sender's
      included; a member whose queue is full has its channel closed and is
      deleted from the room, but stays in `GlobalClients`. A member whose
      channel is already closed makes the send panic. */
  function Broadcast(m: Manager, id: RoomId, msg: Message, now: int): (r: Step)
    requires id in m.rooms
    ensures r.Panic? <==> exists u :: u in m.rooms[id].members && IsClosed(m, m.rooms[id].members[u])
    ensures r.Panic? ==> r.fault == SendOnClosedChannel
    ensures r.Next? ==>
      var room := m.rooms[id];
      && r.m.clients == m.clients && r.m.nextSid == m.nextSid
      && r.m.rooms.Keys == m.rooms.Keys
      && (forall other :: other in m.rooms && other != id ==> r.m.rooms[other] == m.rooms[other])
      && r.m.rooms[id] == room.(members := room.members - SlowMembers(m, id), lastActive := now)
      && r.m.sessions.Keys == m.sessions.Keys
      && (forall s :: s in m.sessions && s !in room.members.Values ==> r.m.sessions[s] == m.sessions[s])
      && (forall u :: u in room.members && room.members[u] in m.sessions ==>
            r.m.sessions[room.members[u]] == Deliver(m.sessions[room.members[u]], msg))
  {
    var room := m.rooms[id];
    if exists u :: u in room.members && IsClosed(m, room.members[u]) then Panic(SendOnClosedChannel)
    else
      var targets := room.members.Values;
      var sessions := map s | s in m.sessions :: if s in targets then Deliver(m.sessions[s], msg) else m.sessions[s];
      var rooms := m.rooms[id := room.(members := room.members - SlowMembers(m, id), lastActive := now)];
      Next(m.(rooms := rooms, sessions := sessions))
  }

  /** The `Broadcast` case of the manager loop: a message with `ToID > 0` is
      private even when it names a room; otherwise it goes to its room when
      that exists; otherwise nothing happens. */
  function Route(m: Manager, msg: Message, now: int): (r: Step)
    ensures r.Next? || r == Panic(SendOnClosedChannel)
    ensures msg.to > 0 ==> r == RoutePrivate(m, msg)
    ensures msg.to == 0 && Joins(m, msg.roomId) ==> r == Broadcast(m, msg.roomId, msg, now)
    ensures msg.to == 0 && !Joins(m, msg.roomId) ==> r == Next(m)
  {
    if msg.to > 0 then RoutePrivate(m, msg)
    else if Joins(m, msg.roomId) then Broadcast(m, msg.roomId, msg, now)
    else Next(m)
  }

  /** One receive of the write pump on client `sid`'s channel. */
  datatype Received = Got(msg: Message, m: Manager) | Drained | Waiting

  /** `range client.Send`: the oldest queued message comes out first; a
      closed, empty channel ends the pump; an open, empty one blocks. */
  function Receive(m: Manager, sid: SessionId): (r: Received)
    requires sid in m.sessions
    ensures r.Got? <==> |m.sessions[sid].queue| > 0
    ensures r.Drained? <==> |m.sessions[sid].queue| == 0 && m.sessions[sid].closed
    ensures r.Got? ==>
      && sid in r.m.sessions
      && [r.msg] + r.m.sessions[sid].queue == m.sessions[sid].queue
      && r.m == m.(sessions := m.sessions[sid := m.sessions[sid].(queue := r.m.sessions[sid].queue)])
  {
    var c := m.sessions[sid];
    if |c.queue| > 0 then Got(c.queue[0], m.(sessions := m.sessions[sid := c.(queue := c.queue[1..])]))
    else if c.closed then Drained
    else Waiting
  }

  // ---------------------------------------------------------------------
  // Idle-room sweep
  // ---------------------------------------------------------------------

  /** A room the sweeper deletes at time `now`. */
  predicate Expired(id: RoomId, room: Room, now: int) {
    !IsDefaultRoom(id) && |room.members| == 0 && now - room.lastActive > IdleRetention
  }

  /** One tick of `CleanupEmptyRooms`: every expired room is deleted, every
      other room is left exactly as it was. */
  function Sweep(m: Manager, now: int): (r: Manager)
    ensures r.clients == m.clients && r.sessions == m.sessions && r.nextSid == m.nextSid
    ensures forall id :: id in r.rooms <==> id in m.rooms && !Expired(id, m.rooms[id], now)
    ensures forall id :: id in r.rooms ==> r.rooms[id] == m.rooms[id]
  {
    m.(rooms := map id | id in m.rooms && !Expired(id, m.rooms[id], now) :: m.rooms[id])
  }

  // ---------------------------------------------------------------------
  // Room management calls
  // ---------------------------------------------------------------------

  /** `CreateChatRoom` with `stamp` the creation time formatted as
      `20060102150405`: an empty name is a bad request; ten or more rooms,
      default rooms included, refuse; otherwise the room `"room-" + stamp`
      is stored (replacing a room created in the same second) with the
      caller as creator, 50 places, no member and both times `now`. */
  function CreateRoom(m: Manager, stamp: string, name: string, creator: UserId, now: int): (r: Step)
    requires |stamp| == 14 && Decimal.AllDigits(stamp)
    ensures name == "" ==> r == Refused(NameRequired)
    ensures name != "" && |m.rooms| >= MaxRooms ==> r == Refused(TooManyRooms)
    ensures name != "" && |m.rooms| < MaxRooms ==>
      var id := "room-" + stamp;
      && r.Next?
      && r.m.clients == m.clients && r.m.sessions == m.sessions && r.m.nextSid == m.nextSid
      && r.m.rooms.Keys == m.rooms.Keys + {id}
      && r.m.rooms[id] == Room(id, name, creator, map[], now, now, RoomMaxUsers)
      && (forall other :: other in m.rooms && other != id ==> r.m.rooms[other] == m.rooms[other])
  {
    if name == "" then Refused(NameRequired)
    else if |m.rooms| >= MaxRooms then Refused(TooManyRooms)
    else
      var id := "room-" + stamp;
      Next(m.(rooms := m.rooms[id := NewRoom(id, name, creator, now)]))
  }

  /** `DeleteChatRoom` by `requester`: a default room is refused before any
      lookup, then a missing room, then a requester who is not the creator;
      otherwise every member's channel is closed (panicking on one already
      closed) and the room is deleted, while `GlobalClients` is untouched. */
  function DeleteRoom(m: Manager, id: RoomId, requester: UserId): (r: Step)
    ensures IsDefaultRoom(id) ==> r == Refused(ProtectedRoom)
    ensures !IsDefaultRoom(id) && id !in m.rooms ==> r == Refused(RoomNotFound)
    ensures !IsDefaultRoom(id) && id in m.rooms && m.rooms[id].creator != requester ==> r == Refused(NotCreator)
    ensures r.Next? <==>
      && !IsDefaultRoom(id) && id in m.rooms && m.rooms[id].creator == requester
      && !exists u :: u in m.rooms[id].members && IsClosed(m, m.rooms[id].members[u])
    ensures r.Panic? ==> r.fault == CloseOfClosedChannel
    ensures r.Next? ==>
      var members := m.rooms[id].members.Values;
      && r.m.clients == m.clients && r.m.nextSid == m.nextSid
      && r.m.rooms == m.rooms - {id}
      && r.m.sessions.Keys == m.sessions.Keys
      && (forall s :: s in m.sessions ==>
            r.m.sessions[s] == m.sessions[s].(closed := m.sessions[s].closed || s in members))
  {
    if IsDefaultRoom(id) then Refused(ProtectedRoom)
    else if id !in m.rooms then Refused(RoomNotFound)
    else
      var room := m.rooms[id];
      if room.creator != requester then Refused(NotCreator)
      else if exists u :: u in room.members && IsClosed(m, room.members[u]) then Panic(CloseOfClosedChannel)
      else
        var members := room.members.Values;
        var sessions := map s | s in m.sessions :: if s in members then m.sessions[s].(closed := true) else m.sessions[s];
        Next(m.(rooms := m.rooms - {id}, sessions := sessions))
  }

  // ---------------------------------------------------------------------
  // Admission, listing, stamping and the history limit
  // ---------------------------------------------------------------------

  datatype Admission = Admitted | Denied(error: ChatError)

  /** The checks of `WsHandler` before the upgrade: the caller must be
      authenticated with a non-zero id; a non-empty room id must name an
      existing room that is not full; an empty one is not checked. */
  function Admit(m: Manager, caller: Option<UserId>, roomId: RoomId): (r: Admission)
    ensures r == Admitted <==>
      && caller.Some? && caller.value != 0
      && (roomId == "" || (roomId in m.rooms && |m.rooms[roomId].members| < m.rooms[roomId].maxUsers))
    ensures (caller.None? || caller.value == 0) ==> r == Denied(Unauthorized)
    ensures caller.Some? && caller.value != 0 && roomId != "" && roomId !in m.rooms ==> r == Denied(RoomNotFound)
    ensures r.Denied? && r.error == RoomFull ==> roomId in m.rooms && |m.rooms[roomId].members| >= m.rooms[roomId].maxUsers
  {
    if caller.None? || caller.value == 0 then Denied(Unauthorized)
    else if roomId == "" then Admitted
    else if roomId !in m.rooms then Denied(RoomNotFound)
    else if |m.rooms[roomId].members| >= m.rooms[roomId].maxUsers then Denied(RoomFull)
    else Admitted
  }

  /** One entry of the `GetChatRooms` answer. */
  datatype RoomInfo = RoomInfo(id: RoomId, name: string, userCount: nat, maxUsers: int, createdAt: int, creator: UserId)

  function Info(room: Room): RoomInfo {
    RoomInfo(room.id, room.name, |room.members|, room.maxUsers, room.createdAt, room.creator)
  }

  /** `GetChatRooms`: one entry per room, in the (unspecified) order in
      which the map is ranged over, returned as `order`. */
  method ListRooms(m: Manager) returns (order: seq<RoomId>, infos: seq<RoomInfo>)
    ensures |order| == |infos| == |m.rooms|
    ensures forall i, j :: 0 <= i < j < |order| ==> order[i] != order[j]
    ensures forall id :: id in m.rooms <==> id in order
    ensures forall i :: 0 <= i < |order| ==> order[i] in m.rooms && infos[i] == Info(m.rooms[order[i]])
  {
    order, infos := [], [];
    var left := m.rooms.Keys;
    while left != {}
      invariant left <= m.rooms.Keys
      invariant |order| == |infos|
      invariant |order| + |left| == |m.rooms|
      invariant forall i, j :: 0 <= i < j < |order| ==> order[i] != order[j]
      invariant forall id :: id in m.rooms ==> (id in order <==> id !in left)
      invariant forall i :: 0 <= i < |order| ==> order[i] in m.rooms && infos[i] == Info(m.rooms[order[i]])
      decreases |left|
    {
      var id :| id in left;
      order, infos := order + [id], infos + [Info(m.rooms[id])];
      left := left - {id};
    }
  }

  /** What the profile lookup of `ReadPump` returns for the sender. */
  datatype Profile = Profile(name: string, headShow: int)

  /** The six avatar files `ReadPump` knows. */
  const ChatAvatarFiles: seq<string> := ["131601", "131629", "131937", "131951", "132014", "133459"]

  function ChatAvatarPath(headShow: int): string
    requires 1 <= headShow <= |ChatAvatarFiles|
  {
    "/src/assets/images/screenshot_20251114_" + ChatAvatarFiles[headShow - 1] + ".png"
  }

  /** `ReadPump` on a decoded frame from client `c`: the sender and room are
      always the client's own and the time is the server's; the name and
      avatar come from the profile when the lookup succeeds (the avatar only
      for head-shows 1..6), and otherwise stay as the frame claimed them. */
  function Stamp(frame: Message, c: Session, now: int, profile: Option<Profile>): (r: Message)
    ensures r.from == c.user && r.roomId == c.roomId && r.createdAt == now
    ensures r.to == frame.to && r.content == frame.content
    ensures r.userName == (if profile.Some? then profile.value.name else frame.userName)
    ensures profile.Some? && 1 <= profile.value.headShow <= 6 ==>
      r.userAvatar == ChatAvatarPath(profile.value.headShow)
    ensures !(profile.Some? && 1 <= profile.value.headShow <= 6) ==> r.userAvatar == frame.userAvatar
  {
    var stamped := frame.(from := c.user, roomId := c.roomId, createdAt := now);
    match profile
    case None => stamped
    case Some(p) =>
      if 0 < p.headShow <= 6 then stamped.(userName := p.name, userAvatar := ChatAvatarPath(p.headShow))
      else stamped.(userName := p.name)
  }

  /** The `limit` query parameter of the history calls: 30 unless it reads
      as a number in 1..100. */
  function HistoryLimit(param: string): (r: int)
    ensures 1 <= r <= MaxHistoryLimit
    ensures r != DefaultHistoryLimit ==> param != "" && Decimal.ScanInt(param) == Some(r)
    ensures param != "" && Decimal.ScanInt(param).Some? && 0 < Decimal.ScanInt(param).value <= MaxHistoryLimit ==>
      r == Decimal.ScanInt(param).value
  {
    if param == "" then DefaultHistoryLimit
    else match Decimal.ScanInt(param)
      case Some(l) => if 0 < l <= MaxHistoryLimit then l else DefaultHistoryLimit
      case None => DefaultHistoryLimit
  }
}

=== FILE: chat_lemmas.dfy ===
/** Properties of the chat manager's transitions: well-formedness is kept by
    every event, unregistering is idempotent, the sweeper spares default and
    occupied rooms, admission keeps rooms within capacity, and stamped
    messages only ever reach the sender's own room. */
module ChatLemmas {
  import opened Wrappers
  import opened Chat
  import Decimal

  // ---------------------------------------------------------------------
  // Well-formedness is an invariant of the manager
  // ---------------------------------------------------------------------

  lemma BootWf(now: int)
    ensures Wf(Boot(now))
  {
  }

  lemma RegisterWf(m: Manager, user: UserId, roomId: RoomId, now: int)
    requires Wf(m)
    ensures Wf(Register(m, user, roomId, now))
  {
    var r := Register(m, user, roomId, now);
    forall id, u | id in r.rooms && u in r.rooms[id].members
      ensures MemberOk(r, id, u)
    {
      if id == roomId && Joins(m, roomId) && u == user {
      } else {
        assert MemberOk(m, id, u);
      }
    }
    forall u | u in r.clients
      ensures ClientOk(r, u)
    {
      if u != user {
        assert ClientOk(m, u);
      }
    }
  }

  lemma UnregisterWf(m: Manager, sid: SessionId, now: int)
    requires Wf(m) && sid in m.sessions
    requires Unregister(m, sid, now).Next?
    ensures Wf(Unregister(m, sid, now).m)
  {
    var r := Unregister(m, sid, now).m;
    forall id, u | id in r.rooms && u in r.rooms[id].members
      ensures MemberOk(r, id, u)
    {
      assert MemberOk(m, id, u);
    }
    forall u | u in r.clients
      ensures ClientOk(r, u)
    {
      assert ClientOk(m, u);
    }
  }

  lemma RouteWf(m: Manager, msg: Message, now: int)
    requires Wf(m)
    requires Route(m, msg, now).Next?
    ensures Wf(Route(m, msg, now).m)
  {
    var r := Route(m, msg, now).m;
    forall id, u | id in r.rooms && u in r.rooms[id].members
      ensures MemberOk(r, id, u)
    {
      assert MemberOk(m, id, u);
    }
    forall u | u in r.clients
      ensures ClientOk(r, u)
    {
      assert ClientOk(m, u);
    }
  }

  lemma SweepWf(m: Manager, now: int)
    requires Wf(m)
    ensures Wf(Sweep(m, now))
  {
    var r := Sweep(m, now);
    forall id, u | id in r.rooms && u in r.rooms[id].members
      ensures MemberOk(r, id, u)
    {
      assert MemberOk(m, id, u);
    }
  }

  lemma CreateRoomWf(m: Manager, stamp: string, name: string, creator: UserId, now: int)
    requires |stamp| == 14 && Decimal.AllDigits(stamp)
    requires Wf(m)
    requires CreateRoom(m, stamp, name, creator, now).Next?
    ensures Wf(CreateRoom(m, stamp, name, creator, now).m)
  {
    var r := CreateRoom(m, stamp, name, creator, now).m;
    forall id, u | id in r.rooms && u in r.rooms[id].members
      ensures MemberOk(r, id, u)
    {
      assert MemberOk(m, id, u);
    }
  }

  lemma DeleteRoomWf(m: Manager, id: RoomId, requester: UserId)
    requires Wf(m)
    requires DeleteRoom(m, id, requester).Next?
    ensures Wf(DeleteRoom(m, id, requester).m)
  {
    var r := DeleteRoom(m, id, requester).m;
    forall rid, u | rid in r.rooms && u in r.rooms[rid].members
      ensures MemberOk(r, rid, u)
    {
      assert MemberOk(m, rid, u);
    }
    forall u | u in r.clients
      ensures ClientOk(r, u)
    {
      assert ClientOk(m, u);
    }
  }

  // ---------------------------------------------------------------------
  // Register and Unregister
  // ---------------------------------------------------------------------

  /** After `Register`, the new client is the user's presence entry and, when
      it asked for an existing room, that room's member for the user. */
  lemma RegisterIsReachable(m: Manager, user: UserId, roomId: RoomId, now: int)
    ensures var r := Register(m, user, roomId, now);
      && r.clients[user] == m.nextSid
      && (roomId != "" && roomId in m.rooms ==> user in r.rooms[roomId].members && r.rooms[roomId].members[user] == m.nextSid)
  {
  }

  /** A second `Unregister` of the same client changes nothing. */
  lemma UnregisterIdempotent(m: Manager, sid: SessionId, now: int, later: int)
    requires sid in m.sessions
    requires Unregister(m, sid, now).Next?
    ensures var m1 := Unregister(m, sid, now).m;
      sid in m1.sessions && Unregister(m1, sid, later) == Next(m1)
  {
    var c := m.sessions[sid];
    var m1 := Unregister(m, sid, now).m;
    var c1 := m1.sessions[sid];
    assert c1.user == c.user && c1.roomId == c.roomId;
    assert c.user !in m1.clients;
    assert !Leaves(m1, c1);
    assert m1.rooms == LeaveRoom(m1, c1, later);
    assert m1.clients - {c1.user} == m1.clients;
  }

  /** In a well-formed state where the user is offline and not in the room,
      registering a client and unregistering it gives back the same presence
      directory and the same room membership. */
  lemma RegisterUnregisterRoundTrip(m: Manager, user: UserId, roomId: RoomId, now: int, later: int)
    requires Wf(m)
    requires user !in m.clients
    requires roomId in m.rooms ==> user !in m.rooms[roomId].members
    ensures var m1 := Register(m, user, roomId, now);
      && m.nextSid in m1.sessions
      && Unregister(m1, m.nextSid, later).Next?
      && var m2 := Unregister(m1, m.nextSid, later).m;
      && m2.clients == m.clients
      && m2.rooms.Keys == m.rooms.Keys
      && (forall id :: id in m.rooms ==> m2.rooms[id].members == m.rooms[id].members)
      && m2.sessions[m.nextSid].closed
  {
    var m1 := Register(m, user, roomId, now);
    var sid := m.nextSid;
    var m2 := Unregister(m1, sid, later).m;
    assert m1.clients - {user} == m.clients;
    if Joins(m, roomId) {
      assert Leaves(m1, m1.sessions[sid]);
      assert m1.rooms[roomId].members - {user} == m.rooms[roomId].members;
    }
  }

  // ---------------------------------------------------------------------
  // Routing
  // ---------------------------------------------------------------------

  /** A private message between two online users whose clients are open and
      not full puts exactly one copy on the recipient's queue and one echo on
      the sender's, and touches no other queue. */
  lemma PrivateEcho(m: Manager, msg: Message)
    requires Wf(m)
    requires msg.to > 0 && msg.from != msg.to
    requires msg.to in m.clients && msg.from in m.clients
    requires !IsClosed(m, m.clients[msg.to]) && !IsClosed(m, m.clients[msg.from])
    requires !IsFull(m, m.clients[msg.to]) && !IsFull(m, m.clients[msg.from])
    ensures var r := Route(m, msg, 0);
      && r.Next?
      && r.m.sessions[m.clients[msg.to]].queue == m.sessions[m.clients[msg.to]].queue + [msg]
      && r.m.sessions[m.clients[msg.from]].queue == m.sessions[m.clients[msg.from]].queue + [msg]
      && (forall s :: s in m.sessions && s != m.clients[msg.to] && s != m.clients[msg.from] ==>
            r.m.sessions[s] == m.sessions[s])
  {
    assert ClientOk(m, msg.to) && ClientOk(m, msg.from);
    var t, f := m.clients[msg.to], m.clients[msg.from];
    assert t != f;
    assert PrivateCopies(m, msg, t) == 1 && PrivateCopies(m, msg, f) == 1;
    forall s | s in m.sessions && s != t && s != f
      ensures PrivateCopies(m, msg, s) == 0
    {
    }
  }

  /** A private message to an offline user is echoed once to an online
      sender and raises nothing. */
  lemma PrivateToOffline(m: Manager, msg: Message)
    requires Wf(m)
    requires msg.to > 0 && msg.to !in m.clients
    requires msg.from in m.clients
    requires !IsClosed(m, m.clients[msg.from]) && !IsFull(m, m.clients[msg.from])
    ensures var r := Route(m, msg, 0);
      && r.Next?
      && r.m.sessions[m.clients[msg.from]].queue == m.sessions[m.clients[msg.from]].queue + [msg]
  {
    var f := m.clients[msg.from];
    assert ClientOk(m, msg.from);
    assert PrivateCopies(m, msg, f) == 1;
  }

  /** Broadcast completeness: in a room whose members' clients are all open
      and not full, each member receives exactly one copy, every member
      stays, and the room's activity is the send time. */
  lemma BroadcastReachesEveryMember(m: Manager, msg: Message, now: int)
    requires Wf(m)
    requires msg.to == 0 && Joins(m, msg.roomId)
    requires forall u :: u in m.rooms[msg.roomId].members ==>
      !IsClosed(m, m.rooms[msg.roomId].members[u]) && !IsFull(m, m.rooms[msg.roomId].members[u])
    ensures var r := Route(m, msg, now);
      && r.Next?
      && r.m.rooms[msg.roomId].members == m.rooms[msg.roomId].members
      && r.m.rooms[msg.roomId].lastActive == now
      && (forall u :: u in m.rooms[msg.roomId].members ==>
            r.m.sessions[m.rooms[msg.roomId].members[u]].queue
              == m.sessions[m.rooms[msg.roomId].members[u]].queue + [msg])
  {
    var id := msg.roomId;
    assert SlowMembers(m, id) == {};
    assert m.rooms[id].members - SlowMembers(m, id) == m.rooms[id].members;
    forall u | u in m.rooms[id].members
      ensures m.rooms[id].members[u] in m.sessions
    {
      assert MemberOk(m, id, u);
    }
  }

  /** A message stamped by `ReadPump` for client `c` can only change the
      room the client itself is in: every other room is left as it was. */
  lemma StampedMessageStaysInOwnRoom(m: Manager, frame: Message, c: Session, now: int, profile: Option<Profile>)
    requires Route(m, Stamp(frame, c, now, profile), now).Next?
    ensures var r := Route(m, Stamp(frame, c, now, profile), now).m;
      forall id :: id in m.rooms && id != c.roomId ==> id in r.rooms && r.rooms[id] == m.rooms[id]
  {
  }

  // ---------------------------------------------------------------------
  // Sweeper
  // ---------------------------------------------------------------------

  /** Default rooms and rooms with members are never swept, however old. */
  lemma SweepSpares(m: Manager, now: int)
    ensures forall id :: id in m.rooms && (IsDefaultRoom(id) || |m.rooms[id].members| > 0) ==>
      id in Sweep(m, now).rooms
  {
  }

  /** A second sweep at the same instant deletes nothing more. */
  lemma SweepIdempotent(m: Manager, now: int)
    ensures Sweep(Sweep(m, now), now) == Sweep(m, now)
  {
    var r := Sweep(m, now);
    assert Sweep(r, now).rooms == r.rooms;
  }

  // ---------------------------------------------------------------------
  // Room management and admission
  // ---------------------------------------------------------------------

  lemma MapUpdateSize<K, V>(m: map<K, V>, k: K, v: V)
    ensures |m[k := v]| <= |m| + 1
    ensures k in m ==> |m[k := v]| == |m|
  {
    assert m[k := v].Keys == m.Keys + {k};
    if k in m {
      assert m.Keys + {k} == m.Keys;
    }
  }

  /** Creating rooms never takes the room count above ten. */
  lemma CreateRoomBounded(m: Manager, stamp: string, name: string, creator: UserId, now: int)
    requires |stamp| == 14 && Decimal.AllDigits(stamp)
    requires |m.rooms| <= MaxRooms
    ensures var r := CreateRoom(m, stamp, name, creator, now);
      r.Next? ==> |r.m.rooms| <= MaxRooms
  {
    var r := CreateRoom(m, stamp, name, creator, now);
    if r.Next? {
      var id := "room-" + stamp;
      MapUpdateSize(m.rooms, id, NewRoom(id, name, creator, now));
    }
  }

  /** A created room never replaces a default room, because its id is
      `"room-"` followed by fourteen digits. */
  lemma CreateRoomSparesDefaults(m: Manager, stamp: string, name: string, creator: UserId, now: int)
    requires |stamp| == 14 && Decimal.AllDigits(stamp)
    requires CreateRoom(m, stamp, name, creator, now).Next?
    ensures forall id :: IsDefaultRoom(id) && id in m.rooms ==>
      CreateRoom(m, stamp, name, creator, now).m.rooms[id] == m.rooms[id]
  {
    assert |"room-" + stamp| == 19;
  }

  /** A client admitted to a room and registered right away keeps the room
      within its capacity. */
  lemma AdmitThenRegisterWithinCapacity(m: Manager, user: UserId, roomId: RoomId, now: int)
    requires Admit(m, Some(user), roomId) == Admitted
    requires roomId != ""
    ensures var r := Register(m, user, roomId, now);
      |r.rooms[roomId].members| <= r.rooms[roomId].maxUsers
  {
    MapUpdateSize(m.rooms[roomId].members, user, m.nextSid);
  }

  /** The history limit reads back any number from 1 to 100 written in
      decimal, and falls back to 30 for larger numbers. */
  lemma HistoryLimitOfDigits(n: nat)
    ensures 1 <= n <= MaxHistoryLimit ==> HistoryLimit(Decimal.Digits(n)) == n
    ensures n > MaxHistoryLimit ==> HistoryLimit(Decimal.Digits(n)) == DefaultHistoryLimit
  {
    Decimal.ScanIntDigits(n, "");
    assert Decimal.Digits(n) + "" == Decimal.Digits(n);
  }

  /** The scan reads the leading run of digits and leaves the rest unread,
      so a limit followed by any non-digit, such as a digit separator, is
      still used. */
  lemma HistoryLimitStopsAtNonDigit(n: nat, rest: string)
    requires 1 <= n <= MaxHistoryLimit
    requires |rest| == 0 || !Decimal.IsDigit(rest[0])
    ensures HistoryLimit(Decimal.Digits(n) + rest) == n
  {
    Decimal.ScanIntDigits(n, rest);
  }

  /** White space before the limit is skipped as `fmt` scanning skips it. */
  lemma HistoryLimitSkipsSpace(c: char, param: string)
    requires Decimal.IsScanSpace(c)
    ensures HistoryLimit([c] + param) == HistoryLimit(param)
  {
    Decimal.ScanIntSkipsSpace(c, param);
    if param == "" {
      assert Decimal.SkipSpace("") == "";
      assert Decimal.ScanInt([c] + param).None?;
    }
  }

  /** A newline before the limit makes the scan fail, leaving 30. */
  lemma HistoryLimitNewline(param: string)
    ensures HistoryLimit("\n" + param) == DefaultHistoryLimit
  {
    Decimal.ScanIntNewline(param);
  }
}

=== FILE: chat_safety.dfy ===
/** Channel safety of the chat manager.

    `Safe` says that no client reachable from `GlobalClients` or from a room
    has a closed channel. The slow-consumer branch of the broadcast and
    `DeleteChatRoom` both close a channel and leave the client in
    `GlobalClients`, so the client's own later `Unregister` closes the
    channel a second time and a private message to its user sends on the
    closed channel: both are Go panics, exhibited below on concrete states.

    The corrected manager deletes every reference to a client whose channel
    it closes (comparing clients, not only user ids) and closes a channel at
    most once; every run of it from a safe state never panics and stays
    safe. */
module ChatSafety {
  import opened Wrappers
  import opened Chat
  import ChatLemmas
  import Decimal

  ghost predicate Safe(m: Manager) {
    && (forall u :: u in m.clients ==> !IsClosed(m, m.clients[u]))
    && (forall id, u :: id in m.rooms && u in m.rooms[id].members ==> !IsClosed(m, m.rooms[id].members[u]))
  }

  ghost predicate Inv(m: Manager) {
    Wf(m) && Safe(m)
  }

  // ---------------------------------------------------------------------
  // The manager as written breaks safety
  // ---------------------------------------------------------------------

  const DemoStamp: string := "20251114131601"
  const DemoRoom: RoomId := "room-20251114131601"
  const Hello: Message := Message(9, 5, "hi", 3, "", "", "")

  /** The default rooms and user 7's empty room. */
  function Created(): Manager {
    Manager(Boot(0).rooms[DemoRoom := NewRoom(DemoRoom, "study", 7, 1)], map[], map[], 0)
  }

  /** A created room with one member: user 5's client 0, creator 7. */
  function Occupied(): Manager {
    Manager(
      Boot(0).rooms[DemoRoom := Room(DemoRoom, "study", 7, map[5 := 0], 1, 2, RoomMaxUsers)],
      map[5 := 0], map[0 := Session(5, DemoRoom, 2, [], false)], 1)
  }

  /** User 7 creates the room and user 5 connects to it. */
  lemma OccupiedIsReachable()
    ensures CreateRoom(Boot(0), DemoStamp, "study", 7, 1) == Next(Created())
    ensures Register(Created(), 5, DemoRoom, 2) == Occupied()
    ensures Inv(Occupied())
  {
    assert Decimal.AllDigits(DemoStamp);
    assert DemoRoom == "room-" + DemoStamp;
    OccupiedIsRegistered();
    OccupiedInv();
  }

  lemma OccupiedIsRegistered()
    ensures Register(Created(), 5, DemoRoom, 2) == Occupied()
  {
    var m := Created();
    assert Joins(m, DemoRoom);
    var r := Register(m, 5, DemoRoom, 2);
    assert r.rooms[DemoRoom] == Occupied().rooms[DemoRoom];
    assert r.rooms == Occupied().rooms;
  }

  lemma OccupiedInv()
    ensures Inv(Occupied())
  {
    var m := Occupied();
    assert MemberOk(m, DemoRoom, 5);
    assert ClientOk(m, 5);
  }

  lemma SingletonValues(k: UserId, v: SessionId)
    ensures map[k := v].Values == {v}
  {
    assert map[k := v][k] == v;
  }

  /** Occupied() once its room is deleted: client 0 is closed but still
      user 5's entry in `GlobalClients`. */
  function Orphaned(): Manager {
    Manager(Boot(0).rooms, map[5 := 0], map[0 := Session(5, DemoRoom, 2, [], true)], 1)
  }

  /** Deleting the occupied room closes client 0 but leaves it in
      `GlobalClients`, so the state is no longer safe. */
  lemma DeleteRoomBreaksSafety()
    ensures DeleteRoom(Occupied(), DemoRoom, 7) == Next(Orphaned())
    ensures !Safe(Orphaned())
  {
    var m := Occupied();
    assert !IsDefaultRoom(DemoRoom);
    SingletonValues(5, 0);
    assert m.rooms - {DemoRoom} == Boot(0).rooms;
  }

  /** In the orphaned state the client's own `Unregister` closes its
      channel a second time, and a private message to user 5 is sent on the
      closed channel: both panic. */
  lemma OrphanedPanics()
    ensures Unregister(Orphaned(), 0, 3) == Panic(CloseOfClosedChannel)
    ensures Route(Orphaned(), Hello, 3) == Panic(SendOnClosedChannel)
  {
    assert IsClosed(Orphaned(), 0);
  }

  /** User 5's client 0 sits in room-1 with a full queue. */
  function Backlogged(): Manager {
    Manager(
      Boot(0).rooms["room-1" := Room("room-1", "学习交流室", 0, map[5 := 0], 0, 0, RoomMaxUsers)],
      map[5 := 0], map[0 := Session(5, "room-1", 0, seq(SendCapacity, i => Hello), false)], 1)
  }

  /** Backlogged() after the slow-consumer branch of a broadcast: client 0
      is closed and out of room-1 but still in `GlobalClients`. */
  function Evicted(): Manager {
    Manager(
      Boot(0).rooms["room-1" := Room("room-1", "学习交流室", 0, map[], 0, 1, RoomMaxUsers)],
      map[5 := 0], map[0 := Session(5, "room-1", 0, seq(SendCapacity, i => Hello), true)], 1)
  }

  /** A broadcast into room-1 finds client 0 full, closes it and removes it
      from the room but not from `GlobalClients`: a safe state becomes an
      unsafe one, and the client's `Unregister` then panics. */
  lemma SlowConsumerBreaksSafety()
    ensures Inv(Backlogged())
    ensures Route(Backlogged(), Message(5, 0, "hi", 1, "room-1", "", ""), 1) == Next(Evicted())
    ensures !Safe(Evicted())
    ensures Unregister(Evicted(), 0, 2) == Panic(CloseOfClosedChannel)
  {
    var m := Backlogged();
    var msg := Message(5, 0, "hi", 1, "room-1", "", "");
    assert Joins(m, "room-1");
    SingletonValues(5, 0);
    assert SlowMembers(m, "room-1") == {5};
    var b := Broadcast(m, "room-1", msg, 1);
    assert b.Next?;
    assert b.m.sessions == Evicted().sessions;
    assert b.m.rooms == Evicted().rooms;
    assert IsClosed(Evicted(), 0);
  }

  // ---------------------------------------------------------------------
  // The corrected manager
  // ---------------------------------------------------------------------

  /** `clients` without each user of `gone` whose entry is still the same
      client as in `members`. */
  function Unlist(clients: map<UserId, SessionId>, members: map<UserId, SessionId>, gone: set<UserId>)
    : (r: map<UserId, SessionId>)
    ensures forall u :: u in r <==> u in clients && !(u in gone && u in members && clients[u] == members[u])
    ensures forall u :: u in r ==> r[u] == clients[u]
  {
    map u | u in clients && !(u in gone && u in members && clients[u] == members[u]) :: clients[u]
  }

  /** `Unregister` with the fix: the presence entry and the room entry are
      deleted only when they are this very client, and the channel is closed
      unless it already is. */
  function SafeUnregister(m: Manager, sid: SessionId, now: int): (r: Manager)
    requires sid in m.sessions
    ensures r.sessions.Keys == m.sessions.Keys && r.nextSid == m.nextSid
    ensures r.sessions[sid] == m.sessions[sid].(closed := true)
    ensures forall s :: s in m.sessions && s != sid ==> r.sessions[s] == m.sessions[s]
    ensures forall u :: u in r.clients <==> u in m.clients && !(u == m.sessions[sid].user && m.clients[u] == sid)
    ensures forall u :: u in r.clients ==> r.clients[u] == m.clients[u]
  {
    var c := m.sessions[sid];
    var clients := if c.user in m.clients && m.clients[c.user] == sid then m.clients - {c.user} else m.clients;
    var rooms := if Leaves(m, c) && m.rooms[c.roomId].members[c.user] == sid then LeaveRoom(m, c, now) else m.rooms;
    Manager(rooms, clients, m.sessions[sid := c.(closed := true)], m.nextSid)
  }

  /** The broadcast with the fix: a slow member is also taken out of
      `GlobalClients` when its entry there is the same client. */
  function SafeBroadcast(m: Manager, id: RoomId, msg: Message, now: int): (r: Step)
    requires id in m.rooms
    ensures r.Panic? <==> Broadcast(m, id, msg, now).Panic?
    ensures r.Next? ==>
      && r.m.rooms == Broadcast(m, id, msg, now).m.rooms
      && r.m.sessions == Broadcast(m, id, msg, now).m.sessions
      && r.m.clients == Unlist(m.clients, m.rooms[id].members, SlowMembers(m, id))
  {
    var b := Broadcast(m, id, msg, now);
    if b.Next? then Next(Manager(b.m.rooms, Unlist(m.clients, m.rooms[id].members, SlowMembers(m, id)), b.m.sessions, b.m.nextSid))
    else b
  }

  function SafeRoute(m: Manager, msg: Message, now: int): (r: Step)
    ensures msg.to > 0 ==> r == RoutePrivate(m, msg)
    ensures msg.to == 0 && Joins(m, msg.roomId) ==> r == SafeBroadcast(m, msg.roomId, msg, now)
    ensures msg.to == 0 && !Joins(m, msg.roomId) ==> r == Next(m)
  {
    if msg.to > 0 then RoutePrivate(m, msg)
    else if Joins(m, msg.roomId) then SafeBroadcast(m, msg.roomId, msg, now)
    else Next(m)
  }

  /** `DeleteChatRoom` with the fix: the closed members are also taken out
      of `GlobalClients` when their entry there is the same client. */
  function SafeDeleteRoom(m: Manager, id: RoomId, requester: UserId): (r: Step)
    ensures r.Next? <==> DeleteRoom(m, id, requester).Next?
    ensures !r.Next? ==> r == DeleteRoom(m, id, requester)
    ensures r.Next? ==>
      && r.m.rooms == DeleteRoom(m, id, requester).m.rooms
      && r.m.sessions == DeleteRoom(m, id, requester).m.sessions
      && r.m.clients == Unlist(m.clients, m.rooms[id].members, m.rooms[id].members.Keys)
  {
    var d := DeleteRoom(m, id, requester);
    if d.Next? then
      var members := m.rooms[id].members;
      Next(Manager(d.m.rooms, Unlist(m.clients, members, members.Keys), d.m.sessions, d.m.nextSid))
    else d
  }

  // ---------------------------------------------------------------------
  // Every step of the corrected manager keeps Inv and never panics
  // ---------------------------------------------------------------------

  lemma BootInv(now: int)
    ensures Inv(Boot(now))
  {
    ChatLemmas.BootWf(now);
  }

  lemma RegisterInv(m: Manager, user: UserId, roomId: RoomId, now: int)
    requires Inv(m)
    ensures Inv(Register(m, user, roomId, now))
  {
    ChatLemmas.RegisterWf(m, user, roomId, now);
    var r := Register(m, user, roomId, now);
    forall u | u in r.clients
      ensures !IsClosed(r, r.clients[u])
    {
      if u != user {
        assert ClientOk(m, u);
      }
    }
    forall id, u | id in r.rooms && u in r.rooms[id].members
      ensures !IsClosed(r, r.rooms[id].members[u])
    {
      if !(id == roomId && Joins(m, roomId) && u == user) {
        assert MemberOk(m, id, u);
      }
    }
  }

  /** The corrected `Unregister` keeps Inv, and afterwards the client is
      closed and referenced by neither `GlobalClients` nor any room. */
  lemma SafeUnregisterInv(m: Manager, sid: SessionId, now: int)
    requires Inv(m) && sid in m.sessions
    ensures var r := SafeUnregister(m, sid, now);
      && Inv(r)
      && IsClosed(r, sid)
      && (forall u :: u in r.clients ==> r.clients[u] != sid)
      && (forall id, u :: id in r.rooms && u in r.rooms[id].members ==> r.rooms[id].members[u] != sid)
  {
    var c := m.sessions[sid];
    var r := SafeUnregister(m, sid, now);
    forall u | u in r.clients
      ensures ClientOk(r, u) && r.clients[u] != sid && !IsClosed(r, r.clients[u])
    {
      assert ClientOk(m, u);
    }
    forall id, u | id in r.rooms && u in r.rooms[id].members
      ensures MemberOk(r, id, u) && r.rooms[id].members[u] != sid && !IsClosed(r, r.rooms[id].members[u])
    {
      assert u in m.rooms[id].members && r.rooms[id].members[u] == m.rooms[id].members[u];
      assert MemberOk(m, id, u);
      if m.rooms[id].members[u] == sid {
        assert Leaves(m, c) && id == c.roomId && u == c.user;
        assert false;
      }
    }
  }

  lemma RoutePrivateInv(m: Manager, msg: Message)
    requires Inv(m)
    ensures RoutePrivate(m, msg).Next?
    ensures Inv(RoutePrivate(m, msg).m)
  {
    var r := RoutePrivate(m, msg).m;
    forall u | u in r.clients
      ensures ClientOk(r, u) && !IsClosed(r, r.clients[u])
    {
      assert ClientOk(m, u);
    }
    forall id, u | id in r.rooms && u in r.rooms[id].members
      ensures MemberOk(r, id, u) && !IsClosed(r, r.rooms[id].members[u])
    {
      assert MemberOk(m, id, u);
    }
  }

  lemma SafeBroadcastInv(m: Manager, id: RoomId, msg: Message, now: int)
    requires Inv(m) && id in m.rooms
    ensures SafeBroadcast(m, id, msg, now).Next?
    ensures Inv(SafeBroadcast(m, id, msg, now).m)
  {
    var room := m.rooms[id];
    var slow := SlowMembers(m, id);
    var r := SafeBroadcast(m, id, msg, now).m;
    forall u | u in r.clients
      ensures ClientOk(r, u) && !IsClosed(r, r.clients[u])
    {
      assert ClientOk(m, u);
      var sid := m.clients[u];
      if sid in room.members.Values {
        var v :| v in room.members && room.members[v] == sid;
        assert MemberOk(m, id, v);
        assert v == u;
        assert u !in slow;
      }
    }
    forall rid, u | rid in r.rooms && u in r.rooms[rid].members
      ensures MemberOk(r, rid, u) && !IsClosed(r, r.rooms[rid].members[u])
    {
      assert MemberOk(m, rid, u);
    }
  }

  lemma SafeRouteInv(m: Manager, msg: Message, now: int)
    requires Inv(m)
    ensures SafeRoute(m, msg, now).Next?
    ensures Inv(SafeRoute(m, msg, now).m)
  {
    if msg.to > 0 {
      RoutePrivateInv(m, msg);
    } else if Joins(m, msg.roomId) {
      SafeBroadcastInv(m, msg.roomId, msg, now);
    }
  }

  lemma SafeDeleteRoomInv(m: Manager, id: RoomId, requester: UserId)
    requires Inv(m)
    ensures !SafeDeleteRoom(m, id, requester).Panic?
    ensures SafeDeleteRoom(m, id, requester).Next? ==> Inv(SafeDeleteRoom(m, id, requester).m)
  {
    var d := SafeDeleteRoom(m, id, requester);
    if d.Next? {
      var members := m.rooms[id].members;
      var r := d.m;
      forall u | u in r.clients
        ensures ClientOk(r, u) && !IsClosed(r, r.clients[u])
      {
        assert ClientOk(m, u);
      }
      forall rid, u | rid in r.rooms && u in r.rooms[rid].members
        ensures MemberOk(r, rid, u) && !IsClosed(r, r.rooms[rid].members[u])
      {
        assert MemberOk(m, rid, u);
      }
    }
  }

  lemma SweepInv(m: Manager, now: int)
    requires Inv(m)
    ensures Inv(Sweep(m, now))
  {
    ChatLemmas.SweepWf(m, now);
  }

  lemma CreateRoomInv(m: Manager, stamp: string, name: string, creator: UserId, now: int)
    requires |stamp| == 14 && Decimal.AllDigits(stamp)
    requires Inv(m)
    ensures var r := CreateRoom(m, stamp, name, creator, now);
      r.Next? ==> Inv(r.m)
  {
    if CreateRoom(m, stamp, name, creator, now).Next? {
      ChatLemmas.CreateRoomWf(m, stamp, name, creator, now);
    }
  }

  lemma ReceiveInv(m: Manager, sid: SessionId)
    requires Inv(m) && sid in m.sessions
    ensures var r := Receive(m, sid);
      r.Got? ==> Inv(r.m)
  {
    var r := Receive(m, sid);
    if r.Got? {
      forall u | u in r.m.clients
        ensures ClientOk(r.m, u)
      {
        assert ClientOk(m, u);
      }
      forall id, u | id in r.m.rooms && u in r.m.rooms[id].members
        ensures MemberOk(r.m, id, u)
      {
        assert MemberOk(m, id, u);
      }
    }
  }

  // ---------------------------------------------------------------------
  // Runs of the corrected manager
  // ---------------------------------------------------------------------

  /** The events the manager and its HTTP callers apply, in the order the
      manager lock serialises them. */
  datatype Event =
    | Connect(user: UserId, roomId: RoomId)
    | Frame(sid: SessionId, frame: Message, profile: Option<Profile>)
    | Disconnect(sid: SessionId)
    | Pump(sid: SessionId)
    | Tick
    | Create(stamp: string, name: string, creator: UserId)
    | Delete(roomId: RoomId, requester: UserId)

  /** One event of the corrected manager at time `now`. */
  function Apply(m: Manager, e: Event, now: int): Step {
    match e
    case Connect(user, roomId) => Next(Register(m, user, roomId, now))
    case Frame(sid, frame, profile) =>
      if sid in m.sessions then SafeRoute(m, Stamp(frame, m.sessions[sid], now, profile), now) else Next(m)
    case Disconnect(sid) => if sid in m.sessions then Next(SafeUnregister(m, sid, now)) else Next(m)
    case Pump(sid) =>
      if sid in m.sessions && Receive(m, sid).Got? then Next(Receive(m, sid).m) else Next(m)
    case Tick => Next(Sweep(m, now))
    case Create(stamp, name, creator) =>
      if |stamp| == 14 && Decimal.AllDigits(stamp) then CreateRoom(m, stamp, name, creator, now) else Next(m)
    case Delete(roomId, requester) => SafeDeleteRoom(m, roomId, requester)
  }

  lemma ApplyInv(m: Manager, e: Event, now: int)
    requires Inv(m)
    ensures !Apply(m, e, now).Panic?
    ensures Apply(m, e, now).Next? ==> Inv(Apply(m, e, now).m)
  {
    match e
    case Connect(user, roomId) => RegisterInv(m, user, roomId, now);
    case Frame(sid, frame, profile) =>
      if sid in m.sessions {
        SafeRouteInv(m, Stamp(frame, m.sessions[sid], now, profile), now);
      }
    case Disconnect(sid) =>
      if sid in m.sessions {
        SafeUnregisterInv(m, sid, now);
      }
    case Pump(sid) =>
      if sid in m.sessions {
        ReceiveInv(m, sid);
      }
    case Tick => SweepInv(m, now);
    case Create(stamp, name, creator) =>
      if |stamp| == 14 && Decimal.AllDigits(stamp) {
        CreateRoomInv(m, stamp, name, creator, now);
      }
    case Delete(roomId, requester) => SafeDeleteRoomInv(m, roomId, requester);
  }

  /** A timed sequence of events; a refused call leaves the state as it was. */
  function Run(m: Manager, events: seq<(Event, int)>): Step
    decreases |events|
  {
    if |events| == 0 then Next(m)
    else match Apply(m, events[0].0, events[0].1)
      case Next(m1) => Run(m1, events[1..])
      case Refused(_) => Run(m, events[1..])
      case Panic(f) => Panic(f)
  }

  /** No run of the corrected manager from a safe state panics, and it ends
      in a safe state. */
  lemma {:induction false} RunNeverPanics(m: Manager, events: seq<(Event, int)>)
    requires Inv(m)
    ensures Run(m, events).Next?
    ensures Inv(Run(m, events).m)
    decreases |events|
  {
    if |events| > 0 {
      ApplyInv(m, events[0].0, events[0].1);
      match Apply(m, events[0].0, events[0].1)
      case Next(m1) => RunNeverPanics(m1, events[1..]);
      case Refused(_) => RunNeverPanics(m, events[1..]);
    }
  }

  /** In particular every run from the boot state is panic-free. */
  lemma BootRunNeverPanics(now: int, events: seq<(Event, int)>)
    ensures Run(Boot(now), events).Next?
  {
    BootInv(now);
    RunNeverPanics(Boot(now), events);
  }
}

=== FILE: decimal.dfy ===
/** Decimal text: Go's `%d` / `%06d` formatting, `strconv.Atoi` and the `%d`
    verb of `fmt.Sscanf`, over strings of characters. */
module Decimal {
  import opened Wrappers

  const MinInt64: int := -0x8000_0000_0000_0000
  const MaxInt64: int := 0x7FFF_FFFF_FFFF_FFFF

  /** Go's `int` on a 64-bit platform. */
  type int64 = x: int | MinInt64 <= x <= MaxInt64

  predicate IsDigit(c: char) {
    '0' <= c <= '9'
  }

  predicate AllDigits(s: string) {
    forall i :: 0 <= i < |s| ==> IsDigit(s[i])
  }

  function DigitChar(d: nat): (c: char)
    requires d < 10
    ensures IsDigit(c)
  {
    ['0', '1', '2', '3', '4', '5', '6', '7', '8', '9'][d]
  }

  function DigitValue(c: char): (d: nat)
    requires IsDigit(c)
    ensures d < 10
  {
    (c as int - '0' as int) as nat
  }

  lemma DigitRoundTrip(d: nat)
    requires d < 10
    ensures DigitValue(DigitChar(d)) == d
  {
  }

  /** The value of a string of decimal digits, most significant first. */
  function ValueOf(s: string): nat
    requires AllDigits(s)
  {
    if |s| == 0 then 0 else ValueOf(s[..|s| - 1]) * 10 + DigitValue(s[|s| - 1])
  }

  /** `fmt.Sprintf("%d", n)` for a natural number: no leading zeros. */
  function Digits(n: nat): (s: string)
    ensures |s| >= 1 && AllDigits(s)
  {
    if n < 10 then [DigitChar(n)] else Digits(n / 10) + [DigitChar(n % 10)]
  }

  /** `fmt.Sprintf("%d", i)` for any integer: a minus sign before the digits
      of a negative number. */
  function FormatInt(i: int): (s: string)
    ensures |s| >= 1
    ensures i >= 0 ==> s == Digits(i)
    ensures i < 0 ==> s == "-" + Digits(-i)
  {
    if i < 0 then "-" + Digits(-i) else Digits(i)
  }

  lemma {:induction false} DigitsValue(n: nat)
    ensures ValueOf(Digits(n)) == n
  {
    if n >= 10 {
      DigitsValue(n / 10);
      var s := Digits(n);
      assert s[..|s| - 1] == Digits(n / 10);
      DigitRoundTrip(n % 10);
    } else {
      DigitRoundTrip(n);
    }
  }

  lemma {:induction false} DigitsLength(n: nat, k: nat)
    requires n < Pow10(k)
    requires k >= 1
    ensures |Digits(n)| <= k
  {
    if n >= 10 {
      assert Pow10(1) == 10;
      assert k >= 2;
      DigitsLength(n / 10, k - 1);
    }
  }

  function Pow10(k: nat): (p: nat)
    ensures p >= 1
  {
    if k == 0 then 1 else 10 * Pow10(k - 1)
  }

  function Zeros(k: nat): (s: string)
    ensures |s| == k && AllDigits(s)
    ensures forall i :: 0 <= i < k ==> s[i] == '0'
  {
    if k == 0 then "" else "0" + Zeros(k - 1)
  }

  lemma {:induction false} LeadingZeroValue(s: string)
    requires AllDigits(s)
    ensures AllDigits("0" + s)
    ensures ValueOf("0" + s) == ValueOf(s)
  {
    if |s| > 0 {
      var t := "0" + s;
      assert t[..|t| - 1] == "0" + s[..|s| - 1];
      LeadingZeroValue(s[..|s| - 1]);
    }
  }

  lemma {:induction false} LeadingZerosValue(k: nat, s: string)
    requires AllDigits(s)
    ensures AllDigits(Zeros(k) + s)
    ensures ValueOf(Zeros(k) + s) == ValueOf(s)
  {
    if k > 0 {
      var t := Zeros(k - 1) + s;
      LeadingZerosValue(k - 1, s);
      LeadingZeroValue(t);
      assert Zeros(k) == "0" + Zeros(k - 1);
      assert Zeros(k) + s == "0" + t;
      assert ValueOf(Zeros(k) + s) == ValueOf("0" + t);
    } else {
      assert Zeros(k) + s == s;
    }
  }

  /** `fmt.Sprintf("%06d", n)` for `0 <= n < 1000000`: the digits of `n`
      left-padded with zeros to width six. */
  function ZeroPad6(n: nat): (s: string)
    requires n < 1_000_000
    ensures |s| == 6 && AllDigits(s)
    ensures ValueOf(s) == n
  {
    DigitsLength(n, 6);
    DigitsValue(n);
    LeadingZerosValue(6 - |Digits(n)|, Digits(n));
    Zeros(6 - |Digits(n)|) + Digits(n)
  }

  predicate IsSign(c: char) {
    c == '+' || c == '-'
  }

  /** `strconv.Atoi`: an optional sign and at least one digit making up the
      whole string, with a value that fits a 64-bit int. */
  function Atoi(s: string): (r: Option<int>)
    ensures r.Some? ==> |s| >= 1 && MinInt64 <= r.value <= MaxInt64
    ensures r.Some? && !IsSign(s[0]) ==> AllDigits(s) && r.value == ValueOf(s)
    ensures |s| == 0 ==> r.None?
  {
    if |s| == 0 then None
    else
      var body := if IsSign(s[0]) then s[1..] else s;
      if |body| == 0 || !AllDigits(body) then None
      else
        var n: int := if s[0] == '-' then -(ValueOf(body) as int) else ValueOf(body);
        if MinInt64 <= n <= MaxInt64 then Some(n) else None
  }

  lemma AtoiFormatInt(i: int)
    requires MinInt64 <= i <= MaxInt64
    ensures Atoi(FormatInt(i)) == Some(i)
  {
    if i < 0 {
      DigitsValue(-i);
      AtoiNegative(Digits(-i));
    } else {
      DigitsValue(i);
      AtoiUnsigned(Digits(i));
    }
  }

  lemma AtoiUnsigned(d: string)
    requires |d| >= 1 && AllDigits(d) && ValueOf(d) <= MaxInt64
    ensures Atoi(d) == Some(ValueOf(d) as int)
  {
    assert IsDigit(d[0]);
  }

  lemma AtoiNegative(d: string)
    requires |d| >= 1 && AllDigits(d) && ValueOf(d) <= -MinInt64
    ensures Atoi("-" + d) == Some(-(ValueOf(d) as int))
  {
    assert ("-" + d)[1..] == d;
  }

  /** The longest run of digits at the front of `s`. */
  function LeadingDigits(s: string): (d: string)
    ensures AllDigits(d) && |d| <= |s| && d == s[..|d|]
    ensures |d| < |s| ==> !IsDigit(s[|d|])
  {
    if |s| == 0 || !IsDigit(s[0]) then "" else [s[0]] + LeadingDigits(s[1..])
  }

  /** The white space `fmt` scanning skips before a number: the ASCII
      controls tab to carriage return, the blank, U+0085, U+00A0, U+1680,
      U+2000 to U+200A, U+2028, U+2029, U+202F, U+205F and U+3000 — but not
      the newline, which `Sscanf` reports as unexpected. */
  predicate IsScanSpace(c: char) {
    || ('\t' <= c <= '\r' && c != '\n')
    || c == ' ' || c == '\U{0085}' || c == '\U{00A0}' || c == '\U{1680}'
    || ('\U{2000}' <= c <= '\U{200A}')
    || c == '\U{2028}' || c == '\U{2029}' || c == '\U{202F}' || c == '\U{205F}' || c == '\U{3000}'
  }

  function SkipSpace(s: string): (t: string)
    ensures |t| <= |s| && t == s[|s| - |t|..]
    ensures forall k :: 0 <= k < |s| - |t| ==> IsScanSpace(s[k])
    ensures |t| > 0 ==> !IsScanSpace(t[0])
  {
    if |s| > 0 && IsScanSpace(s[0]) then SkipSpace(s[1..]) else s
  }

  /** The `%d` verb of `fmt.Sscanf`: white space is skipped, then an
      optional sign and the longest run of decimal digits are read (digit
      separators are accepted only by `%v`); whatever follows is left
      unread, and a value that does not fit 64 bits is an error. */
  function ScanInt(s: string): (r: Option<int>)
    ensures r.Some? ==> MinInt64 <= r.value <= MaxInt64
    ensures |SkipSpace(s)| == 0 ==> r.None?
  {
    ScanSigned(SkipSpace(s))
  }

  /** The number at the very front of `t`: an optional sign, then digits. */
  function ScanSigned(t: string): (r: Option<int>)
    ensures r.Some? ==> MinInt64 <= r.value <= MaxInt64
    ensures |t| == 0 ==> r.None?
  {
    var body := if |t| > 0 && IsSign(t[0]) then t[1..] else t;
    var digits := LeadingDigits(body);
    if |digits| == 0 then None
    else
      var n: int := if |t| > 0 && t[0] == '-' then -(ValueOf(digits) as int) else ValueOf(digits);
      if MinInt64 <= n <= MaxInt64 then Some(n) else None
  }

  /** Leading white space does not change what is read. */
  lemma ScanIntSkipsSpace(c: char, s: string)
    requires IsScanSpace(c)
    ensures ScanInt([c] + s) == ScanInt(s)
  {
    assert ([c] + s)[1..] == s;
    assert SkipSpace([c] + s) == SkipSpace(s);
  }

  /** A newline before the number makes the scan fail. */
  lemma ScanIntNewline(s: string)
    ensures ScanInt("\n" + s).None?
  {
    var t := "\n" + s;
    assert t[0] == '\n' && !IsScanSpace(t[0]);
    assert SkipSpace(t) == t;
    assert !IsSign(t[0]) && !IsDigit(t[0]);
    assert LeadingDigits(t) == "";
  }

  lemma {:induction false} LeadingDigitsOfAllDigits(s: string, rest: string)
    requires AllDigits(s)
    requires |rest| == 0 || !IsDigit(rest[0])
    ensures LeadingDigits(s + rest) == s
  {
    if |s| > 0 {
      assert (s + rest)[1..] == s[1..] + rest;
      LeadingDigitsOfAllDigits(s[1..], rest);
    } else {
      assert s + rest == rest;
    }
  }

  /** Reading back the decimal rendering of a natural number, followed by
      anything that does not start with a digit, gives the number. */
  lemma ScanIntDigits(n: nat, rest: string)
    requires |rest| == 0 || !IsDigit(rest[0])
    ensures ScanInt(Digits(n) + rest) == if n <= MaxInt64 then Some(n) else None
  {
    var d := Digits(n);
    var s := d + rest;
    assert s[0] == d[0] && IsDigit(d[0]);
    assert SkipSpace(s) == s;
    assert !IsSign(s[0]);
    LeadingDigitsOfAllDigits(d, rest);
    assert LeadingDigits(s) == d;
    DigitsValue(n);
  }

  /** The value of `k` digits is below `10^k`. */
  lemma {:induction false} ValueBound(s: string)
    requires AllDigits(s)
    ensures ValueOf(s) < Pow10(|s|)
  {
    if |s| > 0 {
      ValueBound(s[..|s| - 1]);
    }
  }

  /** Two digit strings of one length with one value are the same string:
      a width-`k` decimal rendering is unique. */
  lemma {:induction false} ValueInjective(s: string, t: string)
    requires AllDigits(s) && AllDigits(t) && |s| == |t|
    requires ValueOf(s) == ValueOf(t)
    ensures s == t
  {
    if |s| > 0 {
      var n := |s| - 1;
      var a, b := ValueOf(s[..n]), ValueOf(t[..n]);
      var x, y := DigitValue(s[n]), DigitValue(t[n]);
      assert a * 10 + x == b * 10 + y;
      assert x == y && a == b by {
        assert (a - b) * 10 == y - x;
      }
      ValueInjective(s[..n], t[..n]);
      assert s[n] == t[n];
      assert s == s[..n] + [s[n]] && t == t[..n] + [t[n]];
    }
  }
}

=== FILE: email.dfy ===
/** The e-mail code handlers: verifying an address, logging in with a
    one-time code, and resetting a password. Each is a fixed sequence of
    checks; the repository reads, the token signature, the password hash
    and the repository writes are inputs. Times are Unix seconds. */
module Email {
  import opened Wrappers
  import opened Utf8
  import Util

  /** The stored code for an address and the instant it expires. */
  datatype StoredCode = StoredCode(code: string, expires: int)

  /** The fields of a user the handlers read; a failed lookup leaves a
      zero user, whose id is 0. */
  datatype Account = Account(id: nat, name: string, email: string)

  datatype Reason =
    | InvalidInput
    | CodeLookupFailed
    | WrongCode
    | CodeExpired
    | UserLookupFailed
    | UserMissing
    | TokenFailed
    | PasswordTooShort
    | HashFailed
    | UpdateFailed
    | Done

  /** A handler's answer: the HTTP status, why, the token handed out, and
      the two writes the handlers can issue — marking the address verified
      and storing a new password hash. */
  datatype Reply = Reply(status: int, reason: Reason, token: Option<string>,
                         markedVerified: bool, storedHash: Option<string>)

  function Refuse(status: int, reason: Reason): Reply {
    Reply(status, reason, None, false, None)
  }

  /** `Expires.Before(now)`: strictly earlier. */
  predicate Expired(c: StoredCode, now: int) {
    c.expires < now
  }

  datatype CodeRequest = CodeRequest(email: string, code: string)

  /** `VerifyEmail`. The address is marked verified as soon as the code
      checks pass, before the user is read back. */
  function VerifyEmail(body: Option<CodeRequest>, stored: Result<StoredCode, string>, now: int,
                       user: Result<Account, string>, sign: Util.Claims -> Result<string, string>): (r: Reply)
    ensures body.None? ==> r == Refuse(400, InvalidInput)
    ensures r.storedHash.None?
  {
    match body
    case None => Refuse(400, InvalidInput)
    case Some(req) =>
      match stored
      case Err(_) => Refuse(500, CodeLookupFailed)
      case Ok(c) =>
        if c.code != req.code then Refuse(400, WrongCode)
        else if Expired(c, now) then Refuse(400, CodeExpired)
        else
          match user
          case Err(_) => Reply(500, UserLookupFailed, None, true, None)
          case Ok(u) =>
            match Util.GenerateToken(u.id, u.name, u.email, now, sign)
            case Err(_) => Reply(500, TokenFailed, None, true, None)
            case Ok(t) => Reply(200, Done, Some(t), true, None)
  }

  /** `LoginWithOTP`. The address is marked verified only once a token
      has been signed. */
  function LoginWithOTP(body: Option<CodeRequest>, stored: Result<StoredCode, string>, now: int,
                        user: Result<Account, string>, sign: Util.Claims -> Result<string, string>): (r: Reply)
    ensures body.None? ==> r == Refuse(400, InvalidInput)
    ensures r.storedHash.None?
    ensures r.markedVerified <==> r.token.Some?
  {
    match body
    case None => Refuse(400, InvalidInput)
    case Some(req) =>
      match stored
      case Err(_) => Refuse(500, CodeLookupFailed)
      case Ok(c) =>
        if c.code != req.code then Refuse(400, WrongCode)
        else if Expired(c, now) then Refuse(400, CodeExpired)
        else if user.Err? || user.value.id == 0 then Refuse(404, UserMissing)
        else
          var u := user.value;
          match Util.GenerateToken(u.id, u.name, u.email, now, sign)
          case Err(_) => Refuse(500, TokenFailed)
          case Ok(t) => Reply(200, Done, Some(t), true, None)
  }

  const MinPasswordBytes: nat := 6

  datatype ResetRequest = ResetRequest(email: string, code: string, newPassword: seq<byte>)

  /** `ForgetPassword`. The user read's error is ignored: a failed read
      leaves a zero user, which is refused as missing. */
  function ForgetPassword(body: Option<ResetRequest>, user: Result<Account, string>,
                          stored: Result<StoredCode, string>, now: int,
                          hash: seq<byte> -> Result<string, string>, updateOk: bool): (r: Reply)
    ensures body.None? ==> r == Refuse(400, InvalidInput)
    ensures r.token.None? && !r.markedVerified
  {
    match body
    case None => Refuse(400, InvalidInput)
    case Some(req) =>
      if |req.newPassword| < MinPasswordBytes then Refuse(400, PasswordTooShort)
      else if user.Err? || user.value.id == 0 then Refuse(404, UserMissing)
      else
        match stored
        case Err(_) => Refuse(400, CodeLookupFailed)
        case Ok(c) =>
          if c.code != req.code then Refuse(400, WrongCode)
          else if Expired(c, now) then Refuse(400, CodeExpired)
          else
            match hash(req.newPassword)
            case Err(_) => Refuse(500, HashFailed)
            case Ok(h) => if updateOk then Reply(200, Done, None, false, Some(h)) else Refuse(500, UpdateFailed)
  }

  /** The code checks pass: the stored code was read, matches, and has not
      expired. */
  predicate CodeAccepted(req: CodeRequest, stored: Result<StoredCode, string>, now: int) {
    stored.Ok? && stored.value.code == req.code && !Expired(stored.value, now)
  }

  /** A wrong code is reported as wrong, whether or not it has expired:
      the match is checked before the expiry, in all three handlers. */
  lemma WrongCodeBeforeExpiry(req: CodeRequest, c: StoredCode, now: int, user: Result<Account, string>,
                              sign: Util.Claims -> Result<string, string>, password: seq<byte>,
                              hash: seq<byte> -> Result<string, string>, updateOk: bool)
    requires c.code != req.code
    requires |password| >= MinPasswordBytes && user.Ok? && user.value.id != 0
    ensures VerifyEmail(Some(req), Ok(c), now, user, sign).reason == WrongCode
    ensures LoginWithOTP(Some(req), Ok(c), now, user, sign).reason == WrongCode
    ensures ForgetPassword(Some(ResetRequest(req.email, req.code, password)), user, Ok(c), now, hash, updateOk).reason
      == WrongCode
  {
  }

  /** Expiry is strict: a matching code whose expiry is exactly now still
      passes, and one second later it does not. */
  lemma ExpiryIsStrict(req: CodeRequest, t: int)
    ensures CodeAccepted(req, Ok(StoredCode(req.code, t)), t)
    ensures !CodeAccepted(req, Ok(StoredCode(req.code, t)), t + 1)
  {
  }

  /** `VerifyEmail` marks the address verified exactly when the request
      binds and its code is accepted, whatever happens after. */
  lemma VerifyMarksIff(body: Option<CodeRequest>, stored: Result<StoredCode, string>, now: int,
                       user: Result<Account, string>, sign: Util.Claims -> Result<string, string>)
    ensures VerifyEmail(body, stored, now, user, sign).markedVerified
      <==> body.Some? && CodeAccepted(body.value, stored, now)
  {
  }

  /** `VerifyEmail` hands out a token exactly when the code is accepted, the
      user is read back and signing succeeds; the token is the signed claims
      of that user, and the reply is 200 exactly then. Past the code checks,
      a failed read is a 500 before signing is tried, and a failed signing
      is a 500 after it; both still mark the address verified. */
  lemma VerifyTokenIff(body: Option<CodeRequest>, stored: Result<StoredCode, string>, now: int,
                       user: Result<Account, string>, sign: Util.Claims -> Result<string, string>)
    ensures var r := VerifyEmail(body, stored, now, user, sign);
      r.token.Some? <==>
        && body.Some? && CodeAccepted(body.value, stored, now)
        && user.Ok?
        && sign(Util.NewClaims(user.value.id, user.value.name, user.value.email, now)).Ok?
    ensures var r := VerifyEmail(body, stored, now, user, sign);
      r.token.Some? ==>
        Ok(r.token.value) == sign(Util.NewClaims(user.value.id, user.value.name, user.value.email, now))
    ensures var r := VerifyEmail(body, stored, now, user, sign);
      r.status == 200 <==> r.token.Some?
    ensures body.Some? && CodeAccepted(body.value, stored, now) && user.Err? ==>
      VerifyEmail(body, stored, now, user, sign) == Reply(500, UserLookupFailed, None, true, None)
    ensures
      (&& body.Some? && CodeAccepted(body.value, stored, now) && user.Ok?
       && sign(Util.NewClaims(user.value.id, user.value.name, user.value.email, now)).Err?) ==>
      VerifyEmail(body, stored, now, user, sign) == Reply(500, TokenFailed, None, true, None)
  {
  }

  /** `LoginWithOTP` hands out a token exactly when the code is accepted,
      the user exists with a non-zero id and signing succeeds; the token
      carries that user's identity. */
  lemma LoginTokenIff(body: Option<CodeRequest>, stored: Result<StoredCode, string>, now: int,
                      user: Result<Account, string>, sign: Util.Claims -> Result<string, string>)
    ensures var r := LoginWithOTP(body, stored, now, user, sign);
      r.token.Some? <==>
        && body.Some? && CodeAccepted(body.value, stored, now)
        && user.Ok? && user.value.id != 0
        && sign(Util.NewClaims(user.value.id, user.value.name, user.value.email, now)).Ok?
    ensures var r := LoginWithOTP(body, stored, now, user, sign);
      r.token.Some? ==>
        && r.status == 200
        && Ok(r.token.value) == sign(Util.NewClaims(user.value.id, user.value.name, user.value.email, now))
  {
  }

  /** A short password is refused before anything is read, and an unknown
      user before the code is looked at. */
  lemma ForgetPasswordOrder(req: ResetRequest, user: Result<Account, string>,
                            stored: Result<StoredCode, string>, now: int,
                            hash: seq<byte> -> Result<string, string>, updateOk: bool)
    ensures |req.newPassword| < MinPasswordBytes ==>
      ForgetPassword(Some(req), user, stored, now, hash, updateOk) == Refuse(400, PasswordTooShort)
    ensures |req.newPassword| >= MinPasswordBytes && (user.Err? || user.value.id == 0) ==>
      ForgetPassword(Some(req), user, stored, now, hash, updateOk) == Refuse(404, UserMissing)
  {
  }

  /** A new password hash is stored exactly when every check passes, the
      hash is computed and the write succeeds; then it is the hash of the
      requested password. */
  lemma ForgetPasswordWritesIff(body: Option<ResetRequest>, user: Result<Account, string>,
                                stored: Result<StoredCode, string>, now: int,
                                hash: seq<byte> -> Result<string, string>, updateOk: bool)
    ensures var r := ForgetPassword(body, user, stored, now, hash, updateOk);
      r.storedHash.Some? <==>
        && body.Some? && |body.value.newPassword| >= MinPasswordBytes
        && user.Ok? && user.value.id != 0
        && CodeAccepted(CodeRequest(body.value.email, body.value.code), stored, now)
        && hash(body.value.newPassword).Ok? && updateOk
    ensures var r := ForgetPassword(body, user, stored, now, hash, updateOk);
      r.storedHash.Some? ==>
        && r.status == 200
        && Ok(r.storedHash.value) == hash(body.value.newPassword)
  {
  }
}

=== FILE: hooks.dfy ===
/** The GORM hooks of the `model` package: a flag's stored `is_hiden`
    column and its computed `IsPublic` field are kept as each other's
    negation, and a post loaded with its author gets the author's name and
    avatar path. */
module Hooks {
  import opened Wrappers
  import opened Decimal

  /** A flag as the model holds it (`tag` is the Go `Label` field);
      comments and times are left out. */
  datatype Flag = Flag(
    id: nat,
    title: string,
    detail: string,
    tag: string,
    priority: int,
    userId: nat,
    isHidden: bool,
    isPublic: bool,
    completed: bool,
    count: int,
    total: int,
    points: int,
    likes: int)

  /** `Flag.AfterFind`: the public flag is computed from the stored hidden
      flag; nothing else changes. */
  function AfterFind(f: Flag): (r: Flag)
    ensures r.isPublic == !f.isHidden
    ensures r.(isPublic := f.isPublic) == f
  {
    f.(isPublic := !f.isHidden)
  }

  /** `Flag.BeforeSave`: the stored hidden flag is computed from the public
      flag; nothing else changes. */
  function BeforeSave(f: Flag): (r: Flag)
    ensures r.isHidden == !f.isPublic
    ensures r.(isHidden := f.isHidden) == f
  {
    f.(isHidden := !f.isPublic)
  }

  /** Visibility is consistent after either hook: exactly one of hidden
      and public holds. */
  predicate Consistent(f: Flag) {
    f.isHidden != f.isPublic
  }

  /** Saving then loading keeps what the client set as public, and loading
      then saving keeps what the database stored as hidden; both leave the
      flag consistent. */
  lemma VisibilityRoundTrips(f: Flag)
    ensures AfterFind(BeforeSave(f)).isPublic == f.isPublic
    ensures BeforeSave(AfterFind(f)).isHidden == f.isHidden
    ensures Consistent(AfterFind(f)) && Consistent(BeforeSave(f))
    ensures Consistent(f) ==> AfterFind(f) == f && BeforeSave(f) == f
  {
  }

  /** The author fields a post reads. */
  datatype Author = Author(name: string, headShow: int64)

  /** A post as the model holds it; comments and times are left out. */
  datatype Post = Post(
    id: nat,
    title: string,
    content: string,
    like: int,
    userId: nat,
    user: Option<Author>,
    userName: string,
    userAvatar: string)

  const DefaultAvatar: string := "/default-avatar.png"
  const AvatarDir: string := "/avatars/"
  const AvatarExt: string := ".png"

  /** The avatar path of an author: a numbered image for a positive head
      show, the default image otherwise. */
  function PostAvatar(headShow: int64): (path: string)
    ensures headShow > 0 ==> path == AvatarDir + FormatInt(headShow) + AvatarExt
    ensures headShow <= 0 ==> path == DefaultAvatar
  {
    if headShow > 0 then AvatarDir + FormatInt(headShow) + AvatarExt else DefaultAvatar
  }

  /** `Post.AfterFind`: with no author loaded nothing changes; otherwise
      the name and avatar are filled in and nothing else changes. */
  function PostAfterFind(p: Post): (r: Post)
    ensures p.user.None? ==> r == p
    ensures p.user.Some? ==>
      && r.userName == p.user.value.name
      && r.userAvatar == PostAvatar(p.user.value.headShow)
      && r.(userName := p.userName, userAvatar := p.userAvatar) == p
  {
    match p.user
    case None => p
    case Some(u) => p.(userName := u.name, userAvatar := PostAvatar(u.headShow))
  }

  /** The head show can be read back from a numbered avatar path, and no
      numbered path is the default one, so two authors share an avatar path
      exactly when both have the default or both have the same number. */
  lemma PostAvatarReadsBack(headShow: int64)
    requires headShow > 0
    ensures var path := PostAvatar(headShow);
      && path[..|AvatarDir|] == AvatarDir
      && ScanInt(path[|AvatarDir|..]) == Some(headShow as int)
      && path != DefaultAvatar
  {
    var n: nat := headShow as nat;
    var tail := Digits(n) + AvatarExt;
    NumberedAvatar(n);
    ScanIntDigits(n, AvatarExt);
    var path := AvatarDir + tail;
    assert path[..|AvatarDir|] == AvatarDir;
    assert path[|AvatarDir|..] == tail;
    NumberedIsNotDefault(path, tail);
  }

  lemma NumberedIsNotDefault(path: string, tail: string)
    requires path == AvatarDir + tail
    ensures path != DefaultAvatar
  {
    assert path[1] == AvatarDir[1] == 'a';
    assert DefaultAvatar[1] == 'd';
  }

  lemma NumberedAvatar(n: nat)
    requires 0 < n <= MaxInt64
    ensures PostAvatar(n) == AvatarDir + (Digits(n) + AvatarExt)
  {
    assert AvatarDir + Digits(n) + AvatarExt == AvatarDir + (Digits(n) + AvatarExt);
  }

  lemma PostAvatarInjective(a: int64, b: int64)
    ensures PostAvatar(a) == PostAvatar(b) <==> (a <= 0 && b <= 0) || a == b
  {
    if a > 0 {
      PostAvatarReadsBack(a);
    }
    if b > 0 {
      PostAvatarReadsBack(b);
    }
  }

  /** Loading a post twice is the same as loading it once. */
  lemma PostAfterFindIdempotent(p: Post)
    ensures PostAfterFind(PostAfterFind(p)) == PostAfterFind(p)
  {
  }
}

=== FILE: learning_goal.dfy ===
/** The learning-goal validator `isValidLearningGoal` and its helper
    `isRepeatingChars`. The goal is a Go string, so a byte sequence: the
    length and repetition checks count bytes, the content check walks
    runes. */
module LearningGoal {
  import opened Utf8

  const MinGoalBytes: nat := 2
  const MaxGoalBytes: nat := 200
  const MinRepeatBytes: nat := 3

  /** A rune that makes a goal meaningful: a CJK ideograph U+4E00–U+9FA5,
      an ASCII letter or an ASCII digit. */
  predicate IsContentRune(r: int) {
    || 0x4E00 <= r <= 0x9FA5
    || 'a' as int <= r <= 'z' as int
    || 'A' as int <= r <= 'Z' as int
    || '0' as int <= r <= '9' as int
  }

  /** The content loop: walk the runes of `s` until one is content. */
  function HasValidContent(s: seq<byte>): (found: bool)
    ensures found ==> |s| > 0
    ensures |s| > 0 && IsContentRune(DecodeRune(s).rune) ==> found
    decreases |s|
  {
    if |s| == 0 then false
    else
      var d := DecodeRune(s);
      IsContentRune(d.rune) || HasValidContent(s[d.size..])
  }

  /** Some rune of `rs` is content. */
  predicate AnyContent(rs: seq<int>) {
    exists i :: 0 <= i < |rs| && IsContentRune(rs[i])
  }

  lemma AnyContentCons(r: int, rs: seq<int>)
    ensures AnyContent([r] + rs) <==> IsContentRune(r) || AnyContent(rs)
  {
    var xs := [r] + rs;
    assert xs[0] == r;
    if AnyContent(rs) {
      var j :| 0 <= j < |rs| && IsContentRune(rs[j]);
      assert xs[j + 1] == rs[j];
    }
    if AnyContent(xs) {
      var i :| 0 <= i < |xs| && IsContentRune(xs[i]);
      if i > 0 {
        assert rs[i - 1] == xs[i];
      }
    }
  }

  /** The content loop finds content exactly when some rune visited by a
      `range` loop is content. */
  lemma {:induction false} HasValidContentIff(s: seq<byte>)
    ensures HasValidContent(s) <==> AnyContent(Runes(s))
    decreases |s|
  {
    if |s| > 0 {
      var d := DecodeRune(s);
      HasValidContentIff(s[d.size..]);
      AnyContentCons(d.rune, Runes(s[d.size..]));
    }
  }

  /** The loop of `isRepeatingChars` from byte `i` on: every byte from `i`
      equals the first. */
  function SameAsFirstFrom(s: seq<byte>, i: nat): (r: bool)
    requires 1 <= i <= |s|
    ensures r <==> forall k :: i <= k < |s| ==> s[k] == s[0]
    decreases |s| - i
  {
    if i == |s| then true else s[i] == s[0] && SameAsFirstFrom(s, i + 1)
  }

  /** `isRepeatingChars`: at least three bytes, all equal. */
  function IsRepeatingChars(s: seq<byte>): (r: bool)
    ensures r <==> |s| >= MinRepeatBytes && forall k :: 0 <= k < |s| ==> s[k] == s[0]
  {
    |s| >= MinRepeatBytes && SameAsFirstFrom(s, 1)
  }

  /** The nine junk patterns, all lower-case ASCII. */
  const JunkPatterns: seq<seq<byte>> := [
    Bytes("!!!!!"), Bytes("?????"), Bytes("....."), Bytes("-----"), Bytes("*****"),
    Bytes("asdfg"), Bytes("qwert"), Bytes("12345"), Bytes("abcde")]

  predicate IsAsciiUpper(b: byte) {
    'A' as int <= b <= 'Z' as int
  }

  predicate IsAsciiLetter(b: byte) {
    IsAsciiUpper(b) || 'a' as int <= b <= 'z' as int
  }

  /** `strings.ToLower` as far as the junk patterns can tell: no ASCII
      capital is left, and the only bytes that change are capitals, each
      moved to its lower-case letter 32 places on; in particular every byte
      of a multi-byte rune is kept. */
  function ToLower(s: seq<byte>): (t: seq<byte>)
    ensures |t| == |s|
    ensures forall i :: 0 <= i < |t| ==> !IsAsciiUpper(t[i])
    ensures forall i :: 0 <= i < |s| && t[i] != s[i] ==> IsAsciiUpper(s[i]) && t[i] == s[i] + 32
  {
    seq(|s|, i requires 0 <= i < |s| => if IsAsciiUpper(s[i]) then s[i] + 32 else s[i])
  }

  /** Lower-casing twice is lower-casing once. */
  lemma ToLowerIdempotent(s: seq<byte>)
    ensures ToLower(ToLower(s)) == ToLower(s)
  {
    var t := ToLower(s);
    var u := ToLower(t);
    forall i | 0 <= i < |t|
      ensures u[i] == t[i]
    {
      assert !IsAsciiUpper(t[i]);
    }
  }

  /** Two texts that differ only in the case of ASCII letters. */
  predicate SameUpToCase(s: seq<byte>, u: seq<byte>) {
    && |s| == |u|
    && forall i :: 0 <= i < |s| ==>
      || s[i] == u[i]
      || (IsAsciiLetter(s[i]) && IsAsciiLetter(u[i]) && (s[i] == u[i] + 32 || u[i] == s[i] + 32))
  }

  /** Texts that differ only in ASCII letter case lower-case alike, so the
      junk check gives them the same answer. */
  lemma JunkIgnoresCase(s: seq<byte>, u: seq<byte>)
    requires SameUpToCase(s, u)
    ensures ToLower(s) == ToLower(u)
    ensures HasJunk(ToLower(s)) == HasJunk(ToLower(u))
  {
    var ls, lu := ToLower(s), ToLower(u);
    forall i | 0 <= i < |s|
      ensures ls[i] == lu[i]
    {
      SameLetterLowersAlike(s[i], u[i], ls[i], lu[i]);
    }
  }

  /** One byte of each text: both lower to the same byte. */
  lemma SameLetterLowersAlike(a: byte, b: byte, la: byte, lb: byte)
    requires a == b || (IsAsciiLetter(a) && IsAsciiLetter(b) && (a == b + 32 || b == a + 32))
    requires !IsAsciiUpper(la) && (la != a ==> IsAsciiUpper(a) && la == a + 32)
    requires !IsAsciiUpper(lb) && (lb != b ==> IsAsciiUpper(b) && lb == b + 32)
    ensures la == lb
  {
  }

  /** `strings.Contains(s, p)`: `p` occurs in `s` at some offset. */
  function Contains(s: seq<byte>, p: seq<byte>): (r: bool)
    ensures r <==> exists i :: 0 <= i <= |s| - |p| && p <= s[i..]
    decreases |s|
  {
    if p <= s then
      assert p <= s[0..];
      true
    else if |s| == 0 then false
    else
      var r := Contains(s[1..], p);
      assert forall i :: 1 <= i <= |s| ==> s[i..] == s[1..][i - 1..];
      r
  }

  /** Some junk pattern occurs in `s`. */
  predicate HasJunk(s: seq<byte>) {
    exists i :: 0 <= i < |JunkPatterns| && Contains(s, JunkPatterns[i])
  }

  /** `isValidLearningGoal`: the trimmed goal is rejected when it is shorter
      than 2 or longer than 200 bytes, when no rune of it is content, when
      it repeats one byte, and when its lower-cased form contains a junk
      pattern, in that order. */
  function IsValidLearningGoal(input: seq<byte>): (valid: bool)
    ensures valid ==> MinGoalBytes <= |TrimSpace(input)| <= MaxGoalBytes && |input| >= MinGoalBytes
    ensures valid ==> !IsRepeatingChars(TrimSpace(input))
  {
    var t := TrimSpace(input);
    if |t| < MinGoalBytes || |t| > MaxGoalBytes then false
    else if !HasValidContent(t) then false
    else if IsRepeatingChars(t) then false
    else !HasJunk(ToLower(t))
  }

  /** A goal is valid exactly when its trimmed form has 2 to 200 bytes, some
      rune of it is content, not all of its bytes repeat the first, and no
      junk pattern occurs in it once lower-cased. */
  lemma ValidGoalIff(input: seq<byte>)
    ensures var t := TrimSpace(input);
      IsValidLearningGoal(input) <==>
        && MinGoalBytes <= |t| <= MaxGoalBytes
        && AnyContent(Runes(t))
        && !(|t| >= MinRepeatBytes && forall k :: 0 <= k < |t| ==> t[k] == t[0])
        && (forall i :: 0 <= i < |JunkPatterns| ==> !Contains(ToLower(t), JunkPatterns[i]))
  {
    var t := TrimSpace(input);
    HasValidContentIff(t);
    assert IsValidLearningGoal(input) ==
      (MinGoalBytes <= |t| <= MaxGoalBytes && HasValidContent(t) && !IsRepeatingChars(t) && !HasJunk(ToLower(t)));
  }

  /** Any ASCII letter or digit in a goal is content, wherever it sits
      between multi-byte runes. */
  lemma AsciiAlnumIsContent(s: seq<byte>, i: nat)
    requires i < |s| && s[i] < RuneSelf && IsContentRune(s[i])
    ensures HasValidContent(s)
  {
    HasValidContentIff(s);
    AsciiByteIsRune(s, i);
    var rs := Runes(s);
    var j :| 0 <= j < |rs| && rs[j] == s[i];
    assert IsContentRune(rs[j]);
  }

  /** A goal that starts with a CJK ideograph has content. */
  lemma IdeographIsContent(r: int, rest: seq<byte>)
    requires 0x4E00 <= r <= 0x9FA5
    ensures HasValidContent(Encode(r) + rest)
  {
    DecodeEncode(r, rest);
  }

  /** No junk pattern occurs in text without ASCII bytes. */
  lemma NoAsciiNoJunk(t: seq<byte>)
    requires forall i :: 0 <= i < |t| ==> t[i] >= RuneSelf
    ensures !HasJunk(t)
  {
    JunkIsAscii();
    forall i | 0 <= i < |JunkPatterns|
      ensures !Contains(t, JunkPatterns[i])
    {
      var p := JunkPatterns[i];
      forall k | 0 <= k <= |t| - |p|
        ensures !(p <= t[k..])
      {
        assert t[k..][0] == t[k];
      }
    }
  }

  /** Every junk pattern is five ASCII bytes. */
  lemma JunkIsAscii()
    ensures forall i :: 0 <= i < |JunkPatterns| ==> |JunkPatterns[i]| == 5 && AllAscii(JunkPatterns[i])
  {
  }

  /** "学习" (learning): two ideographs, six bytes. */
  const Study: seq<byte> := [0xE5, 0xAD, 0xA6, 0xE4, 0xB9, 0xA0]

  lemma StudyTrimmed()
    ensures Study == Encode(0x5B66) + Encode(0x4E60)
    ensures TrimSpace(Study) == Study
  {
    var s := Encode(0x5B66) + Encode(0x4E60);
    assert Encode(0x5B66) == [0xE5, 0xAD, 0xA6];
    assert Encode(0x4E60) == [0xE4, 0xB9, 0xA0];
    DecodeEncode(0x5B66, Encode(0x4E60));
    assert TrimLeft(s) == s;
    DecodeLastEncode(Encode(0x5B66), 0x4E60);
    assert TrimRight(s) == s;
  }

  /** "学习" is a valid goal. */
  lemma StudyIsValid()
    ensures IsValidLearningGoal(Encode(0x5B66) + Encode(0x4E60))
  {
    StudyTrimmed();
    IdeographIsContent(0x5B66, Encode(0x4E60));
    StudyPassesChecks();
  }

  lemma StudyPassesChecks()
    ensures !IsRepeatingChars(Study) && !HasJunk(ToLower(Study))
  {
    assert Study[1] != Study[0];
    assert forall i :: 0 <= i < |Study| ==> Study[i] >= RuneSelf;
    NonAsciiLower(Study);
    NoAsciiNoJunk(Study);
  }

  /** Lower-casing leaves text without ASCII bytes as it is. */
  lemma NonAsciiLower(t: seq<byte>)
    requires forall i :: 0 <= i < |t| ==> t[i] >= RuneSelf
    ensures ToLower(t) == t
  {
  }

  /** A goal padded in front with a white-space rune of any width, such as
      the ideographic space U+3000, is judged as the goal without it. */
  lemma ValidGoalIgnoresLeadingSpace(r: int, input: seq<byte>)
    requires IsSpace(r) && IsBmp(r)
    ensures IsValidLearningGoal(Encode(r) + input) == IsValidLearningGoal(input)
  {
    TrimSpaceDropsEncodedSpace(r, input);
    assert TrimSpace(Encode(r) + input) == TrimSpace(input);
  }

  /** "learn 12345": the letters of "learn", a space, the digits 1 to 5. */
  const LearnCounting: seq<byte> := [0x6C, 0x65, 0x61, 0x72, 0x6E, 0x20, 0x31, 0x32, 0x33, 0x34, 0x35]

  lemma CountingHasJunk()
    ensures Contains(ToLower(LearnCounting), JunkPatterns[7])
  {
    var t := ToLower(LearnCounting);
    assert t[6..] == [0x31, 0x32, 0x33, 0x34, 0x35];
    assert JunkPatterns[7] <= t[6..];
  }

  /** "learn 12345" is rejected for its junk pattern, although it passes
      the length, content and repetition checks. */
  lemma CountingIsJunk()
    ensures var t := TrimSpace(LearnCounting);
      && MinGoalBytes <= |t| <= MaxGoalBytes
      && HasValidContent(t)
      && !IsRepeatingChars(t)
      && !IsValidLearningGoal(LearnCounting)
  {
    var s := LearnCounting;
    AsciiUntrimmed(s);
    AsciiAlnumIsContent(s, 0);
    assert s[1] != s[0];
    CountingHasJunk();
  }
}

=== FILE: reminders.dfy ===
/** The scheduled jobs of `init_service.go`: a daily and a monthly job per
    user, and a reminder e-mail at the time the user chose, whose entry id
    is kept in the `userReminderJobs` map so that it can be replaced. The
    scheduler is abstracted as its table of entries and the id counter;
    whether it accepts a schedule string is an input. */
module Reminders {
  import opened Wrappers
  import opened Decimal

  /** The pieces of `s` between occurrences of `sep`: the fields of a
      schedule line, used to state what a reminder line holds. */
  function Split(s: string, sep: char): (fields: seq<string>)
    ensures |fields| >= 1
    ensures forall i :: 0 <= i < |fields| ==> sep !in fields[i]
    decreases |s|
  {
    if |s| == 0 then [""]
    else
      var rest := Split(s[1..], sep);
      if s[0] == sep then [""] + rest
      else [[s[0]] + rest[0]] + rest[1..]
  }

  /** The fields glued back together with `sep` between them. */
  function Join(fields: seq<string>, sep: char): string
    requires |fields| >= 1
  {
    if |fields| == 1 then fields[0] else fields[0] + [sep] + Join(fields[1..], sep)
  }

  /** A piece without the separator is glued to the first field of what
      follows it. */
  lemma {:induction false} SplitPrefix(a: string, t: string, sep: char)
    requires sep !in a
    ensures Split(a + t, sep) == [a + Split(t, sep)[0]] + Split(t, sep)[1..]
    decreases |a|
  {
    if |a| > 0 {
      assert (a + t)[1..] == a[1..] + t;
      SplitPrefix(a[1..], t, sep);
      assert [a[0]] + (a[1..] + Split(t, sep)[0]) == a + Split(t, sep)[0];
    } else {
      var f := Split(t, sep);
      assert a + t == t;
      assert a + f[0] == f[0];
      assert [f[0]] + f[1..] == f;
    }
  }

  /** Splitting undoes joining when no field holds the separator. */
  lemma {:induction false} SplitJoin(fields: seq<string>, sep: char)
    requires |fields| >= 1
    requires forall i :: 0 <= i < |fields| ==> sep !in fields[i]
    ensures Split(Join(fields, sep), sep) == fields
    decreases |fields|
  {
    if |fields| == 1 {
      SplitPrefix(fields[0], "", sep);
      assert fields[0] + "" == fields[0];
    } else {
      var tail := Join(fields[1..], sep);
      SplitJoin(fields[1..], sep);
      assert fields[0] + [sep] + tail == fields[0] + ([sep] + tail);
      SplitPrefix(fields[0], [sep] + tail, sep);
      assert ([sep] + tail)[1..] == tail;
      assert Split([sep] + tail, sep) == [""] + fields[1..];
      assert fields[0] + "" == fields[0];
      assert [fields[0]] + fields[1..] == fields;
    }
  }

  /** A formatted integer holds no blank. */
  lemma NoBlankInNumber(i: int)
    ensures ' ' !in FormatInt(i)
  {
    var s := FormatInt(i);
    if i >= 0 {
      assert AllDigits(s);
    } else {
      assert AllDigits(Digits(-i));
      assert forall k :: 1 <= k < |s| ==> s[k] == Digits(-i)[k - 1];
    }
  }

  /** The reminder schedule of a user who chose `hour:minute`: a six-field
      cron line with a seconds field, minute before hour. */
  function ReminderSpec(hour: int, minute: int): (spec: string)
    ensures |spec| >= 10 && spec[..2] == "0 " && spec[|spec| - 6..] == " * * *"
  {
    "0 " + FormatInt(minute) + " " + FormatInt(hour) + " * * *"
  }

  /** The six fields of a reminder schedule: second 0, the minute, the
      hour, and every day of every month; the minute and the hour read back
      as the numbers they came from, so different times give different
      schedules. */
  lemma ReminderSpecFields(hour: int, minute: int)
    ensures Split(ReminderSpec(hour, minute), ' ')
      == ["0", FormatInt(minute), FormatInt(hour), "*", "*", "*"]
    ensures MinInt64 <= hour <= MaxInt64 && MinInt64 <= minute <= MaxInt64 ==>
      && Atoi(Split(ReminderSpec(hour, minute), ' ')[1]) == Some(minute)
      && Atoi(Split(ReminderSpec(hour, minute), ' ')[2]) == Some(hour)
  {
    var fields := ["0", FormatInt(minute), FormatInt(hour), "*", "*", "*"];
    NoBlankInNumber(minute);
    NoBlankInNumber(hour);
    ReminderFieldsJoin(FormatInt(minute), FormatInt(hour));
    SplitJoin(fields, ' ');
    if MinInt64 <= hour <= MaxInt64 && MinInt64 <= minute <= MaxInt64 {
      AtoiFormatInt(minute);
      AtoiFormatInt(hour);
    }
  }

  /** Joining with a blank puts the blank between the first field and the
      join of the rest. */
  lemma JoinCons(f: string, rest: seq<string>, sep: char)
    requires |rest| >= 1
    ensures Join([f] + rest, sep) == f + [sep] + Join(rest, sep)
  {
    assert ([f] + rest)[1..] == rest;
  }

  lemma ReminderFieldsJoin(a: string, b: string)
    ensures Join(["0", a, b, "*", "*", "*"], ' ') == "0 " + a + " " + b + " * * *"
  {
    var stars := ["*", "*", "*"];
    assert Join(stars, ' ') == "* * *" by {
      JoinCons("*", ["*", "*"], ' ');
      JoinCons("*", ["*"], ' ');
      assert ["*", "*", "*"] == ["*"] + ["*", "*"];
      assert ["*", "*"] == ["*"] + ["*"];
    }
    JoinCons(b, stars, ' ');
    assert [b] + stars == [b, "*", "*", "*"];
    JoinCons(a, [b] + stars, ' ');
    assert [a] + ([b] + stars) == [a, b, "*", "*", "*"];
    JoinCons("0", [a] + ([b] + stars), ' ');
    assert ["0"] + ([a] + ([b] + stars)) == ["0", a, b, "*", "*", "*"];
    assert "0" + " " + (a + " " + (b + " " + "* * *")) == "0 " + a + " " + b + " * * *";
  }

  /** Two reminder schedules are equal exactly when the times are. */
  lemma ReminderSpecInjective(h1: int64, m1: int64, h2: int64, m2: int64)
    ensures ReminderSpec(h1, m1) == ReminderSpec(h2, m2) <==> h1 == h2 && m1 == m2
  {
    ReminderSpecFields(h1, m1);
    ReminderSpecFields(h2, m2);
  }

  const DailySpec: string := "@daily"
  const MonthlySpec: string := "@monthly"

  /** A scheduled job, by the user it serves. */
  datatype Job = Daily(user: nat) | Monthly(user: nat) | Remind(user: nat, spec: string)

  function SpecOf(job: Job): string {
    match job
    case Daily(_) => DailySpec
    case Monthly(_) => MonthlySpec
    case Remind(_, spec) => spec
  }

  /** The scheduler: its entries by id, the last id handed out (ids count
      from 1), and whether it has been started. */
  datatype Cron = Cron(entries: map<nat, Job>, lastId: nat, running: bool)

  const NewCron: Cron := Cron(map[], 0, false)

  /** Every entry id has been handed out already. */
  predicate WellNumbered(c: Cron) {
    forall id :: id in c.entries ==> 1 <= id <= c.lastId
  }

  /** `AddFunc`: when the schedule parses, the job gets the next id;
      otherwise nothing changes. */
  function AddFunc(c: Cron, job: Job, accepts: string -> bool): (r: (Cron, Option<nat>))
    ensures r.1.Some? <==> accepts(SpecOf(job))
    ensures r.1.None? ==> r.0 == c
    ensures r.1.Some? ==> r.0.entries == c.entries[r.1.value := job] && r.0.running == c.running
    ensures WellNumbered(c) ==> WellNumbered(r.0) && (r.1.Some? ==> r.1.value !in c.entries)
  {
    if accepts(SpecOf(job)) then
      var id := c.lastId + 1;
      (c.(entries := c.entries[id := job], lastId := id), Some(id))
    else (c, None)
  }

  /** `Remove`: an unknown id is ignored. */
  function RemoveEntry(c: Cron, id: nat): (r: Cron)
    ensures id !in r.entries
    ensures forall k :: k in r.entries <==> k in c.entries && k != id
    ensures forall k :: k in r.entries ==> r.entries[k] == c.entries[k]
    ensures WellNumbered(c) ==> WellNumbered(r)
  {
    c.(entries := c.entries - {id})
  }

  /** The user fields the jobs are built from. */
  datatype Member = Member(id: nat, isRemind: bool, remindHour: int, remindMin: int)

  /** The process state: the scheduler once `Init` has created one, and
      `userReminderJobs`. */
  datatype State = State(cron: Option<Cron>, tracked: map<nat, nat>)

  /** A user has a reminder entry. */
  predicate HasReminder(c: Cron, user: nat) {
    exists id :: id in c.entries && c.entries[id].Remind? && c.entries[id].user == user
  }

  /** Every reminder entry is the one tracked for its user, so replacing
      the tracked entry replaces the user's only reminder. */
  predicate RemindersTracked(st: State) {
    st.cron.Some? ==>
      forall id :: id in st.cron.value.entries && st.cron.value.entries[id].Remind? ==>
        st.cron.value.entries[id].user in st.tracked
        && st.tracked[st.cron.value.entries[id].user] == id
  }

  /** The loop of `Init` over the users, from the front. */
  function ScheduleAll(c: Cron, tracked: map<nat, nat>, users: seq<Member>, accepts: string -> bool)
    : (r: (Cron, map<nat, nat>))
    ensures WellNumbered(c) ==> WellNumbered(r.0)
    ensures r.0.running == c.running
    decreases |users|
  {
    if |users| == 0 then (c, tracked)
    else
      var u := users[0];
      var c1 := AddFunc(c, Daily(u.id), accepts).0;
      var c2 := AddFunc(c1, Monthly(u.id), accepts).0;
      if u.isRemind then
        var added := AddFunc(c2, Remind(u.id, ReminderSpec(u.remindHour, u.remindMin)), accepts);
        var t := if added.1.Some? then tracked[u.id := added.1.value] else tracked;
        ScheduleAll(added.0, t, users[1..], accepts)
      else ScheduleAll(c2, tracked, users[1..], accepts)
  }

  /** `Init`: a new scheduler replaces the old one; when the users cannot
      be read it stays empty and is not started. The reminder map is not
      cleared. */
  function Init(st: State, users: Result<seq<Member>, string>, accepts: string -> bool): (r: State)
    ensures r.cron.Some? && WellNumbered(r.cron.value)
    ensures users.Err? ==> r == State(Some(NewCron), st.tracked)
    ensures users.Ok? ==> r.cron.value.running
  {
    match users
    case Err(_) => State(Some(NewCron), st.tracked)
    case Ok(us) =>
      var (c, t) := ScheduleAll(NewCron, st.tracked, us, accepts);
      State(Some(c.(running := true)), t)
  }

  /** The users `Init` can newly track: those who want a reminder and whose
      schedule parses. */
  predicate Trackable(u: Member, accepts: string -> bool) {
    u.isRemind && accepts(ReminderSpec(u.remindHour, u.remindMin))
  }

  /** Some user of `users` with id `v` can be tracked. */
  predicate Wanted(users: seq<Member>, v: nat, accepts: string -> bool) {
    exists i :: 0 <= i < |users| && users[i].id == v && Trackable(users[i], accepts)
  }

  lemma {:induction false} ScheduleAllTracking(c: Cron, tracked: map<nat, nat>, users: seq<Member>,
                                               accepts: string -> bool)
    ensures forall v :: v in ScheduleAll(c, tracked, users, accepts).1 <==>
      v in tracked || Wanted(users, v, accepts)
    decreases |users|
  {
    if |users| > 0 {
      var u := users[0];
      var c1 := AddFunc(c, Daily(u.id), accepts).0;
      var c2 := AddFunc(c1, Monthly(u.id), accepts).0;
      if u.isRemind {
        var added := AddFunc(c2, Remind(u.id, ReminderSpec(u.remindHour, u.remindMin)), accepts);
        var t := if added.1.Some? then tracked[u.id := added.1.value] else tracked;
        ScheduleAllTracking(added.0, t, users[1..], accepts);
      } else {
        ScheduleAllTracking(c2, tracked, users[1..], accepts);
      }
      forall v
        ensures Wanted(users, v, accepts) <==>
          (u.id == v && Trackable(u, accepts)) || Wanted(users[1..], v, accepts)
      {
        if Wanted(users, v, accepts) {
          var i :| 0 <= i < |users| && users[i].id == v && Trackable(users[i], accepts);
          if i > 0 {
            assert users[1..][i - 1] == users[i];
          }
        }
        if Wanted(users[1..], v, accepts) {
          var i :| 0 <= i < |users[1..]| && users[1..][i].id == v && Trackable(users[1..][i], accepts);
          assert users[i + 1] == users[1..][i];
        }
      }
    }
  }

  /** `Init` tracks a user exactly when the user was tracked before or
      wants a reminder whose schedule parses; a failed user read tracks
      nobody new. */
  lemma InitTracksIff(st: State, users: Result<seq<Member>, string>, accepts: string -> bool, v: nat)
    ensures v in Init(st, users, accepts).tracked <==>
      v in st.tracked
      || (users.Ok? && Wanted(users.value, v, accepts))
  {
    if users.Ok? {
      ScheduleAllTracking(NewCron, st.tracked, users.value, accepts);
    }
  }

  /** No user among `users` has a reminder entry. */
  predicate NoReminderFor(c: Cron, users: seq<Member>) {
    forall i :: 0 <= i < |users| ==> !HasReminder(c, users[i].id)
  }

  predicate DistinctIds(users: seq<Member>) {
    forall i, j :: 0 <= i < j < |users| ==> users[i].id != users[j].id
  }

  lemma {:induction false} ScheduleAllKeepsTracked(c: Cron, tracked: map<nat, nat>, users: seq<Member>,
                                                   accepts: string -> bool)
    requires WellNumbered(c)
    requires RemindersTracked(State(Some(c), tracked))
    requires DistinctIds(users) && NoReminderFor(c, users)
    ensures var r := ScheduleAll(c, tracked, users, accepts);
      RemindersTracked(State(Some(r.0), r.1))
    decreases |users|
  {
    if |users| > 0 {
      var u := users[0];
      var c1 := AddFunc(c, Daily(u.id), accepts).0;
      var c2 := AddFunc(c1, Monthly(u.id), accepts).0;
      assert WellNumbered(c2);
      assert forall id :: id in c2.entries && c2.entries[id].Remind? ==> id in c.entries && c2.entries[id] == c.entries[id];
      assert RemindersTracked(State(Some(c2), tracked));
      assert !HasReminder(c, u.id);
      forall i | 0 <= i < |users[1..]|
        ensures !HasReminder(c2, users[1..][i].id) && users[1..][i].id != u.id
      {
        assert users[1..][i] == users[i + 1];
      }
      if u.isRemind {
        var job := Remind(u.id, ReminderSpec(u.remindHour, u.remindMin));
        var added := AddFunc(c2, job, accepts);
        var t := if added.1.Some? then tracked[u.id := added.1.value] else tracked;
        if added.1.Some? {
          var n := added.1.value;
          forall id | id in added.0.entries && added.0.entries[id].Remind?
            ensures added.0.entries[id].user in t && t[added.0.entries[id].user] == id
          {
            if id != n {
              assert id in c2.entries && c2.entries[id].user != u.id;
            }
          }
          forall i | 0 <= i < |users[1..]|
            ensures !HasReminder(added.0, users[1..][i].id)
          {
          }
        }
        ScheduleAllKeepsTracked(added.0, t, users[1..], accepts);
      } else {
        ScheduleAllKeepsTracked(c2, tracked, users[1..], accepts);
      }
    }
  }

  /** After `Init` with users of distinct ids, every reminder entry is
      tracked for its user. */
  lemma InitTracksEveryReminder(st: State, users: Result<seq<Member>, string>, accepts: string -> bool)
    requires users.Ok? ==> DistinctIds(users.value)
    ensures RemindersTracked(Init(st, users, accepts))
  {
    if users.Ok? {
      ScheduleAllKeepsTracked(NewCron, st.tracked, users.value, accepts);
    }
  }

  /** `AddUserCronJob` as written: without a scheduler nothing happens;
      otherwise the daily, monthly and, for a user who wants one, the
      reminder job are added, and the reminder map is left alone. */
  function AddUserCronJob(st: State, u: Member, accepts: string -> bool): (r: State)
    ensures r.tracked == st.tracked
    ensures st.cron.None? ==> r == st
    ensures st.cron.Some? && Trackable(u, accepts) ==> r.cron.Some? && HasReminder(r.cron.value, u.id)
    ensures st.cron.Some? && WellNumbered(st.cron.value) ==> r.cron.Some? && WellNumbered(r.cron.value)
  {
    match st.cron
    case None => st
    case Some(c) =>
      var c1 := AddFunc(c, Daily(u.id), accepts).0;
      var c2 := AddFunc(c1, Monthly(u.id), accepts).0;
      if u.isRemind then
        var added := AddFunc(c2, Remind(u.id, ReminderSpec(u.remindHour, u.remindMin)), accepts);
        assert added.1.Some? ==> added.0.entries[added.1.value].user == u.id;
        State(Some(added.0), st.tracked)
      else State(Some(c2), st.tracked)
  }

  /** `UpdateUserReminderJob`: `found` says whether the user lookup
      succeeded. The tracked entry is removed and untracked first; a new
      reminder is added and tracked only when one is wanted, the user is
      found and the schedule parses. */
  function UpdateUserReminderJob(st: State, userId: nat, hour: int, minute: int, isRemind: bool,
                                 found: bool, accepts: string -> bool): (r: State)
    ensures st.cron.None? ==> r == st
    ensures st.cron.Some? ==> r.cron.Some?
    ensures st.cron.Some? && WellNumbered(st.cron.value) ==> WellNumbered(r.cron.value)
  {
    match st.cron
    case None => st
    case Some(c) =>
      var (c1, t1) :=
        if userId in st.tracked then (RemoveEntry(c, st.tracked[userId]), st.tracked - {userId})
        else (c, st.tracked);
      if !isRemind || !found then State(Some(c1), t1)
      else
        var added := AddFunc(c1, Remind(userId, ReminderSpec(hour, minute)), accepts);
        match added.1
        case None => State(Some(added.0), t1)
        case Some(id) => State(Some(added.0), t1[userId := id])
  }

  /** The user ends up tracked exactly when a reminder is wanted, the user
      is found and the schedule parses; the tracked entry is then the new
      reminder. The entry tracked before is gone unless its id was reused
      for that reminder. */
  lemma UpdateTracksIff(st: State, userId: nat, hour: int, minute: int, isRemind: bool,
                        found: bool, accepts: string -> bool)
    requires st.cron.Some?
    ensures var r := UpdateUserReminderJob(st, userId, hour, minute, isRemind, found, accepts);
      && (userId in r.tracked <==> isRemind && found && accepts(ReminderSpec(hour, minute)))
      && (userId in r.tracked ==>
            r.tracked[userId] in r.cron.value.entries
            && r.cron.value.entries[r.tracked[userId]] == Remind(userId, ReminderSpec(hour, minute)))
      && (userId in st.tracked && st.tracked[userId] in r.cron.value.entries ==>
            userId in r.tracked && r.tracked[userId] == st.tracked[userId])
  {
  }

  /** With a well-numbered scheduler the entry tracked before never
      survives, even when a new reminder is tracked. */
  lemma UpdateRemovesOld(st: State, userId: nat, hour: int, minute: int, isRemind: bool,
                         found: bool, accepts: string -> bool)
    requires st.cron.Some? && WellNumbered(st.cron.value)
    requires userId in st.tracked && st.tracked[userId] in st.cron.value.entries
    ensures st.tracked[userId] !in UpdateUserReminderJob(st, userId, hour, minute, isRemind, found, accepts).cron.value.entries
  {
  }

  /** Other users' tracking is untouched. */
  lemma UpdateKeepsOthers(st: State, userId: nat, hour: int, minute: int, isRemind: bool,
                          found: bool, accepts: string -> bool, v: nat)
    requires v != userId
    ensures var r := UpdateUserReminderJob(st, userId, hour, minute, isRemind, found, accepts);
      && (v in r.tracked <==> v in st.tracked)
      && (v in st.tracked ==> r.tracked[v] == st.tracked[v])
  {
  }

  /** When every reminder is tracked, the update keeps it so, and turning
      reminders off leaves the user none. */
  lemma UpdateKeepsTracked(st: State, userId: nat, hour: int, minute: int, isRemind: bool,
                           found: bool, accepts: string -> bool)
    requires st.cron.Some? && WellNumbered(st.cron.value) && RemindersTracked(st)
    ensures var r := UpdateUserReminderJob(st, userId, hour, minute, isRemind, found, accepts);
      && RemindersTracked(r)
      && (!isRemind ==> !HasReminder(r.cron.value, userId))
  {
    var c := st.cron.value;
    var r := UpdateUserReminderJob(st, userId, hour, minute, isRemind, found, accepts);
    var c1 := if userId in st.tracked then RemoveEntry(c, st.tracked[userId]) else c;
    var t1 := if userId in st.tracked then st.tracked - {userId} else st.tracked;
    assert RemindersTracked(State(Some(c1), t1)) && !HasReminder(c1, userId) by {
      forall id | id in c1.entries && c1.entries[id].Remind?
        ensures c1.entries[id].user in t1 && t1[c1.entries[id].user] == id
      {
        assert c1.entries[id] == c.entries[id];
      }
    }
    if isRemind && found {
      var added := AddFunc(c1, Remind(userId, ReminderSpec(hour, minute)), accepts);
      if added.1.Some? {
        var n := added.1.value;
        forall id | id in added.0.entries && added.0.entries[id].Remind?
          ensures added.0.entries[id].user in r.tracked && r.tracked[added.0.entries[id].user] == id
        {
          if id != n {
            assert c1.entries[id].user != userId;
          }
        }
      }
    }
  }

  /** The as-written `AddUserCronJob` schedules a reminder it does not
      track: a new user who wants reminders and later turns them off still
      has one. */
  lemma AddedReminderOutlivesUpdate(st: State, u: Member, accepts: string -> bool,
                                    hour: int, minute: int, found: bool)
    requires st.cron.Some? && u.id !in st.tracked
    requires Trackable(u, accepts)
    ensures var added := AddUserCronJob(st, u, accepts);
      var off := UpdateUserReminderJob(added, u.id, hour, minute, false, found, accepts);
      HasReminder(off.cron.value, u.id)
  {
  }

  /** So the as-written job breaks the invariant from the very start. */
  lemma AddUserCronJobLeaks()
    ensures var st := Init(State(None, map[]), Ok([]), s => true);
      && RemindersTracked(st)
      && !RemindersTracked(AddUserCronJob(st, Member(7, true, 12, 0), s => true))
  {
    var accepts: string -> bool := s => true;
    var st := Init(State(None, map[]), Ok([]), accepts);
    assert st.cron.value.entries == map[];
    var r := AddUserCronJob(st, Member(7, true, 12, 0), accepts);
    assert r.cron.value.entries[3] == Remind(7, ReminderSpec(12, 0));
    assert 7 !in r.tracked;
  }

  /** `AddUserCronJob` as intended: the reminder replaces any tracked one
      and is tracked, as `Init` and `UpdateUserReminderJob` do. */
  function TrackedAddUserCronJob(st: State, u: Member, accepts: string -> bool): (r: State)
    ensures st.cron.None? ==> r == st
    ensures st.cron.Some? ==> r.cron.Some?
    ensures st.cron.Some? ==> (u.id in r.tracked <==> Trackable(u, accepts))
    ensures forall v :: v != u.id ==> (v in r.tracked <==> v in st.tracked)
  {
    match st.cron
    case None => st
    case Some(c) =>
      var c1 := AddFunc(c, Daily(u.id), accepts).0;
      var c2 := AddFunc(c1, Monthly(u.id), accepts).0;
      UpdateUserReminderJob(State(Some(c2), st.tracked), u.id, u.remindHour, u.remindMin, u.isRemind, true, accepts)
  }

  /** The intended job keeps every reminder tracked, so a later update
      that turns reminders off leaves the user none. */
  lemma TrackedAddKeepsTracked(st: State, u: Member, accepts: string -> bool,
                               hour: int, minute: int, found: bool)
    requires st.cron.Some? && WellNumbered(st.cron.value) && RemindersTracked(st)
    ensures var added := TrackedAddUserCronJob(st, u, accepts);
      && RemindersTracked(added)
      && (Trackable(u, accepts) ==> HasReminder(added.cron.value, u.id))
      && !HasReminder(UpdateUserReminderJob(added, u.id, hour, minute, false, found, accepts).cron.value, u.id)
  {
    var c := st.cron.value;
    var c1 := AddFunc(c, Daily(u.id), accepts).0;
    var c2 := AddFunc(c1, Monthly(u.id), accepts).0;
    var mid := State(Some(c2), st.tracked);
    assert RemindersTracked(mid) by {
      assert forall id :: id in c2.entries && c2.entries[id].Remind? ==> id in c.entries && c2.entries[id] == c.entries[id];
    }
    UpdateKeepsTracked(mid, u.id, u.remindHour, u.remindMin, u.isRemind, true, accepts);
    UpdateTracksIff(mid, u.id, u.remindHour, u.remindMin, u.isRemind, true, accepts);
    var added := TrackedAddUserCronJob(st, u, accepts);
    UpdateKeepsTracked(added, u.id, hour, minute, false, found, accepts);
  }
}

=== FILE: utf8.dfy ===
/** Go strings as byte sequences: UTF-8 decoding as Go's `utf8.DecodeRune`,
    `utf8.DecodeLastRune` and `range` loops perform it, and
    `strings.TrimSpace`, which trims Unicode white space rune by rune. */
module Utf8 {

  type byte = b: int | 0 <= b < 0x100

  const RuneError: int := 0xFFFD
  const RuneSelf: int := 0x80
  const UtfMax: nat := 4

  /** The bytes of a string literal whose characters are all ASCII. */
  function Bytes(s: string): (b: seq<byte>)
    requires forall i :: 0 <= i < |s| ==> s[i] < 128 as char
    ensures |b| == |s| && forall i :: 0 <= i < |s| ==> b[i] == s[i] as int
  {
    seq(|s|, i requires 0 <= i < |s| => s[i] as int)
  }

  predicate IsContinuation(b: byte) {
    0x80 <= b <= 0xBF
  }

  /** Go's `utf8.RuneStart`: a byte that is not a continuation byte. */
  predicate RuneStart(b: byte) {
    !IsContinuation(b)
  }

  datatype DecodedRune = DecodedRune(rune: int, size: nat)

  /** The accepted range of the second byte after lead byte `b0`, from Go's
      `acceptRanges`: it rules out overlong forms, surrogates and runes above
      U+10FFFF. */
  function SecondLo(b0: byte): byte {
    if b0 == 0xE0 then 0xA0 else if b0 == 0xF0 then 0x90 else 0x80
  }

  function SecondHi(b0: byte): byte {
    if b0 == 0xED then 0x9F else if b0 == 0xF4 then 0x8F else 0xBF
  }

  /** The value bits of byte `b` below its marker bits `marker`. */
  function Payload(b: byte, marker: byte): int {
    b as int - marker as int
  }

  /** `utf8.DecodeRune`: the first rune of `s` and its width; an invalid or
      truncated sequence is `RuneError` of width 1, and an empty `s` is
      `RuneError` of width 0. */
  function DecodeRune(s: seq<byte>): (d: DecodedRune)
    ensures |s| == 0 ==> d == DecodedRune(RuneError, 0)
    ensures |s| > 0 ==> 1 <= d.size <= |s| && d.size <= UtfMax
    ensures |s| > 0 && s[0] < RuneSelf ==> d == DecodedRune(s[0], 1)
    ensures forall i :: 1 <= i < d.size ==> IsContinuation(s[i])
    ensures d.size > 1 ==> RuneSelf <= d.rune
  {
    if |s| == 0 then DecodedRune(RuneError, 0)
    else
      var b0 := s[0];
      if b0 < RuneSelf then DecodedRune(b0, 1)
      else if b0 < 0xC2 || 0xF4 < b0 then DecodedRune(RuneError, 1)
      else
        var size := if b0 < 0xE0 then 2 else if b0 < 0xF0 then 3 else 4;
        if |s| < size || s[1] < SecondLo(b0) || SecondHi(b0) < s[1] then DecodedRune(RuneError, 1)
        else if size == 2 then DecodedRune(Payload(b0, 0xC0) * 64 + Payload(s[1], 0x80), 2)
        else if !IsContinuation(s[2]) then DecodedRune(RuneError, 1)
        else if size == 3 then
          DecodedRune(Payload(b0, 0xE0) * 4096 + Payload(s[1], 0x80) * 64 + Payload(s[2], 0x80), 3)
        else if !IsContinuation(s[3]) then DecodedRune(RuneError, 1)
        else
          DecodedRune(Payload(b0, 0xF0) * 262144 + Payload(s[1], 0x80) * 4096
            + Payload(s[2], 0x80) * 64 + Payload(s[3], 0x80), 4)
  }

  /** The backward scan of `utf8.DecodeLastRune`: from `start` down to `lim`,
      the first rune-start byte, or `lim - 1` when there is none. */
  function ScanBack(p: seq<byte>, start: int, lim: nat): (k: int)
    requires lim - 1 <= start < |p|
    ensures lim - 1 <= k <= start
    ensures k >= lim ==> RuneStart(p[k])
    ensures forall i :: k < i <= start ==> IsContinuation(p[i])
    decreases start
  {
    if start < lim then start
    else if RuneStart(p[start]) then start
    else ScanBack(p, start - 1, lim)
  }

  /** `utf8.DecodeLastRune`: the last rune of `p` and its width. The last
      rune is decoded from the nearest rune-start byte among the last four
      bytes; if it does not end exactly at the end of `p` the result is
      `RuneError` of width 1. */
  function DecodeLastRune(p: seq<byte>): (d: DecodedRune)
    ensures |p| == 0 ==> d == DecodedRune(RuneError, 0)
    ensures |p| > 0 ==> 1 <= d.size <= |p|
    ensures |p| > 0 && p[|p| - 1] < RuneSelf ==> d == DecodedRune(p[|p| - 1], 1)
  {
    var end := |p|;
    if end == 0 then DecodedRune(RuneError, 0)
    else if p[end - 1] < RuneSelf then DecodedRune(p[end - 1], 1)
    else
      var lim: nat := if end < UtfMax then 0 else end - UtfMax;
      var found := ScanBack(p, end - 2, lim);
      var start := if found < 0 then 0 else found;
      var d := DecodeRune(p[start..end]);
      if start + d.size != end then DecodedRune(RuneError, 1) else d
  }

  /** The runes a Go `for _, r := range s` loop visits, in order. */
  function Runes(s: seq<byte>): (rs: seq<int>)
    ensures |rs| <= |s|
    decreases |s|
  {
    if |s| == 0 then [] else var d := DecodeRune(s); [d.rune] + Runes(s[d.size..])
  }

  /** A rune of the Basic Multilingual Plane that is not a surrogate. */
  predicate IsBmp(r: int) {
    0 <= r < 0x10000 && !(0xD800 <= r <= 0xDFFF)
  }

  /** The UTF-8 encoding of a BMP rune. */
  function Encode(r: int): (e: seq<byte>)
    requires IsBmp(r)
    ensures 1 <= |e| <= 3
    ensures |e| == 1 <==> r < RuneSelf
    ensures RuneStart(e[0])
    ensures forall i :: 1 <= i < |e| ==> IsContinuation(e[i])
  {
    if r < 0x80 then [r]
    else if r < 0x800 then [0xC0 + r / 64, 0x80 + r % 64]
    else [0xE0 + r / 4096, 0x80 + (r / 64) % 64, 0x80 + r % 64]
  }

  lemma ThreeDigits64(r: int)
    requires 0 <= r
    ensures r == (r / 4096) * 4096 + ((r / 64) % 64) * 64 + r % 64
  {
    var q := r / 64;
    assert r == q * 64 + r % 64;
    assert q == (q / 64) * 64 + q % 64;
    assert q / 64 == r / 4096;
  }

  /** Decoding the encoding of a BMP rune gives the rune back, whatever
      follows it. */
  lemma DecodeEncode(r: int, rest: seq<byte>)
    requires IsBmp(r)
    ensures DecodeRune(Encode(r) + rest) == DecodedRune(r, |Encode(r)|)
  {
    var e := Encode(r);
    var s := e + rest;
    assert s[..|e|] == e;
    if r >= 0x800 {
      ThreeDigits64(r);
      assert s[0] == 0xE0 + r / 4096 && s[1] == 0x80 + (r / 64) % 64 && s[2] == 0x80 + r % 64;
      if r / 4096 == 0 {
        assert (r / 64) % 64 >= 0x20;
      }
      if r / 4096 == 13 {
        assert (r / 64) % 64 < 0x20;
      }
    } else if r >= 0x80 {
      assert r == (r / 64) * 64 + r % 64;
      assert s[0] == 0xC0 + r / 64 && s[1] == 0x80 + r % 64;
    }
  }

  /** Decoding the last rune of a string that ends with the encoding of a
      BMP rune gives that rune, whatever precedes it. */
  lemma DecodeLastEncode(p: seq<byte>, r: int)
    requires IsBmp(r)
    ensures DecodeLastRune(p + Encode(r)) == DecodedRune(r, |Encode(r)|)
  {
    var e := Encode(r);
    var q := p + e;
    var end := |q|;
    assert q[end - |e|..] == e;
    assert q[end - 1] == e[|e| - 1];
    if |e| > 1 {
      ScanBackToLead(p, e);
      DecodeEncode(r, []);
      assert e + [] == e;
    }
  }

  /** The backward scan from the second-to-last byte stops at the lead byte
      of a two- or three-byte sequence at the end. */
  lemma ScanBackToLead(p: seq<byte>, e: seq<byte>)
    requires 2 <= |e| <= 3 && RuneStart(e[0])
    requires forall i :: 1 <= i < |e| ==> IsContinuation(e[i])
    ensures var end := |p + e|;
      ScanBack(p + e, end - 2, if end < UtfMax then 0 else end - UtfMax) == end - |e|
  {
    var q := p + e;
    var end := |q|;
    var lim: nat := if end < UtfMax then 0 else end - UtfMax;
    assert q[end - |e|] == e[0];
    if |e| == 3 {
      assert q[end - 2] == e[1];
      assert ScanBack(q, end - 2, lim) == ScanBack(q, end - 3, lim);
    }
  }

  /** Go's `unicode.IsSpace`: the Latin-1 spaces (tab, newline, vertical
      tab, form feed, carriage return, space, U+0085, U+00A0) and the other
      runes with the Unicode White_Space property. */
  predicate IsSpace(r: int) {
    || 0x09 <= r <= 0x0D || r == 0x20 || r == 0x85 || r == 0xA0
    || r == 0x1680 || 0x2000 <= r <= 0x200A || r == 0x2028 || r == 0x2029
    || r == 0x202F || r == 0x205F || r == 0x3000
  }

  /** The six ASCII white-space bytes of Go's `asciiSpace` table. */
  predicate IsAsciiSpace(b: byte) {
    b == 0x09 || b == 0x0A || b == 0x0B || b == 0x0C || b == 0x0D || b == 0x20
  }

  lemma AsciiSpaceRunes(b: byte)
    requires b < RuneSelf
    ensures IsSpace(b) <==> IsAsciiSpace(b)
  {
  }

  /** `strings.TrimLeftFunc(s, unicode.IsSpace)`: leading space runes are
      dropped, decoding forward. */
  function TrimLeft(s: seq<byte>): (t: seq<byte>)
    ensures |t| <= |s| && t == s[|s| - |t|..]
    ensures |t| > 0 ==> !IsSpace(DecodeRune(t).rune)
    decreases |s|
  {
    if |s| > 0 && IsSpace(DecodeRune(s).rune) then TrimLeft(s[DecodeRune(s).size..]) else s
  }

  /** `strings.TrimRightFunc(s, unicode.IsSpace)`: trailing space runes are
      dropped, decoding backward. */
  function TrimRight(s: seq<byte>): (t: seq<byte>)
    ensures |t| <= |s| && t == s[..|t|]
    ensures |t| > 0 ==> !IsSpace(DecodeLastRune(t).rune)
    decreases |s|
  {
    if |s| > 0 && IsSpace(DecodeLastRune(s).rune) then TrimRight(s[..|s| - DecodeLastRune(s).size]) else s
  }

  /** `strings.TrimSpace`: its ASCII fast path and its Unicode fallback both
      amount to trimming space runes from the left, then from the right. The
      result is one contiguous piece of the input (a prefix of one of its
      suffixes) that neither starts nor ends with a white-space rune. */
  function TrimSpace(s: seq<byte>): (t: seq<byte>)
    ensures |t| <= |s|
    ensures exists i :: 0 <= i <= |s| && t <= s[i..]
    ensures |t| > 0 ==> !IsSpace(DecodeRune(t).rune) && !IsSpace(DecodeLastRune(t).rune)
    ensures |s| > 0 && !IsSpace(DecodeRune(s).rune) && !IsSpace(DecodeLastRune(s).rune) ==> t == s
  {
    TrimBothEnds(s);
    TrimRight(TrimLeft(s))
  }

  /** Padding a piece of text that neither starts nor ends with white space
      by one white-space rune on each side, of any width, and trimming gives
      the piece back: only white space is removed. */
  lemma TrimSpaceRoundTrip(a: int, t: seq<byte>, b: int)
    requires IsSpace(a) && IsBmp(a) && IsSpace(b) && IsBmp(b)
    requires |t| > 0 && !IsSpace(DecodeRune(t + Encode(b)).rune) && !IsSpace(DecodeLastRune(t).rune)
    ensures TrimSpace(Encode(a) + t + Encode(b)) == t
  {
    assert Encode(a) + t + Encode(b) == Encode(a) + (t + Encode(b));
    TrimSpaceDropsEncodedSpace(a, t + Encode(b));
    TrimSpaceDropsEncodedSpace(b, t);
  }

  lemma TrimBothEnds(s: seq<byte>)
    ensures var t := TrimRight(TrimLeft(s));
      && (exists i :: 0 <= i <= |s| && t <= s[i..])
      && (|t| > 0 ==> !IsSpace(DecodeRune(t).rune))
  {
    var l := TrimLeft(s);
    var t := TrimRight(l);
    assert s[|s| - |l|..] == l;
    assert t <= l;
    if |t| > 0 {
      PrefixStartsLikeWhole(l, t);
    }
  }

  /** A non-empty prefix of a string that does not start with a white-space
      rune does not start with one either. */
  lemma PrefixStartsLikeWhole(l: seq<byte>, t: seq<byte>)
    requires 0 < |t| <= |l| && t == l[..|t|]
    requires !IsSpace(DecodeRune(l).rune)
    ensures !IsSpace(DecodeRune(t).rune)
  {
    DecodePrefix(l, |t|);
    var r := DecodeRune(t).rune;
    assert r == DecodeRune(l).rune || r == RuneError;
  }

  /** A prefix of `s` decodes to the same first rune as `s`, or, when the
      prefix cuts that rune short, to the error rune. */
  lemma DecodePrefix(s: seq<byte>, k: nat)
    requires 0 < k <= |s|
    ensures DecodeRune(s[..k]).rune == DecodeRune(s).rune || DecodeRune(s[..k]).rune == RuneError
  {
    var p := s[..k];
    assert p[0] == s[0];
    if k >= 2 {
      assert p[1] == s[1];
    }
    if k >= 3 {
      assert p[2] == s[2];
    }
    if k >= 4 {
      assert p[3] == s[3];
    }
  }

  predicate AllAscii(s: seq<byte>) {
    forall i :: 0 <= i < |s| ==> s[i] < RuneSelf
  }

  lemma SuffixAscii(s: seq<byte>, i: nat)
    requires AllAscii(s) && i <= |s|
    ensures AllAscii(s[i..])
  {
    forall k | 0 <= k < |s| - i
      ensures s[i..][k] < RuneSelf
    {
      assert s[i..][k] == s[i + k];
    }
  }

  lemma PrefixAscii(s: seq<byte>, i: nat)
    requires AllAscii(s) && i <= |s|
    ensures AllAscii(s[..i])
  {
    forall k | 0 <= k < i
      ensures s[..i][k] < RuneSelf
    {
      assert s[..i][k] == s[k];
    }
  }

  /** The first loop of Go's ASCII fast path: skip leading ASCII white
      space bytes. */
  function AsciiTrimLeft(s: seq<byte>): (t: seq<byte>)
    ensures |t| <= |s| && t == s[|s| - |t|..]
    ensures |t| > 0 ==> !IsAsciiSpace(t[0])
  {
    if |s| > 0 && IsAsciiSpace(s[0]) then AsciiTrimLeft(s[1..]) else s
  }

  /** The second loop of Go's ASCII fast path: drop trailing ASCII white
      space bytes. */
  function AsciiTrimRight(s: seq<byte>): (t: seq<byte>)
    ensures |t| <= |s| && t == s[..|t|]
    ensures |t| > 0 ==> !IsAsciiSpace(t[|t| - 1])
  {
    if |s| > 0 && IsAsciiSpace(s[|s| - 1]) then AsciiTrimRight(s[..|s| - 1]) else s
  }

  lemma {:induction false} TrimLeftAscii(s: seq<byte>)
    requires AllAscii(s)
    ensures TrimLeft(s) == AsciiTrimLeft(s)
    decreases |s|
  {
    if |s| > 0 {
      AsciiSpaceRunes(s[0]);
      if IsAsciiSpace(s[0]) {
        SuffixAscii(s, 1);
        TrimLeftAscii(s[1..]);
      }
    }
  }

  lemma {:induction false} TrimRightAscii(s: seq<byte>)
    requires AllAscii(s)
    ensures TrimRight(s) == AsciiTrimRight(s)
    decreases |s|
  {
    if |s| > 0 {
      AsciiSpaceRunes(s[|s| - 1]);
      if IsAsciiSpace(s[|s| - 1]) {
        PrefixAscii(s, |s| - 1);
        TrimRightAscii(s[..|s| - 1]);
      }
    }
  }

  /** On ASCII text `TrimSpace` agrees with Go's ASCII fast path: the slice
      between the first and the last byte that is not ASCII white space. */
  lemma TrimSpaceAscii(s: seq<byte>)
    requires AllAscii(s)
    ensures TrimSpace(s) == AsciiTrimRight(AsciiTrimLeft(s))
  {
    TrimLeftAscii(s);
    var l := AsciiTrimLeft(s);
    SuffixAscii(s, |s| - |l|);
    TrimRightAscii(l);
  }

  /** ASCII text that neither starts nor ends with white space is its own
      trimmed form. */
  lemma AsciiUntrimmed(s: seq<byte>)
    requires AllAscii(s) && |s| > 0
    requires !IsAsciiSpace(s[0]) && !IsAsciiSpace(s[|s| - 1])
    ensures TrimSpace(s) == s
  {
    TrimSpaceAscii(s);
    assert AsciiTrimLeft(s) == s;
    assert AsciiTrimRight(s) == s;
  }

  lemma {:induction false} AsciiTrimLeftSkipsSpaces(s: seq<byte>)
    ensures forall k :: 0 <= k < |s| - |AsciiTrimLeft(s)| ==> IsAsciiSpace(s[k])
    decreases |s|
  {
    if |s| > 0 && IsAsciiSpace(s[0]) {
      AsciiTrimLeftSkipsSpaces(s[1..]);
      forall k | 1 <= k < |s| - |AsciiTrimLeft(s)|
        ensures IsAsciiSpace(s[k])
      {
        assert s[k] == s[1..][k - 1];
      }
    }
  }

  lemma {:induction false} AsciiTrimRightSkipsSpaces(s: seq<byte>)
    ensures forall k :: |AsciiTrimRight(s)| <= k < |s| ==> IsAsciiSpace(s[k])
    decreases |s|
  {
    if |s| > 0 && IsAsciiSpace(s[|s| - 1]) {
      AsciiTrimRightSkipsSpaces(s[..|s| - 1]);
      forall k | |AsciiTrimRight(s)| <= k < |s| - 1
        ensures IsAsciiSpace(s[k])
      {
        assert s[k] == s[..|s| - 1][k];
      }
    }
  }

  /** A space rune spelled out in UTF-8 at either end of a string is
      trimmed. */
  lemma TrimSpaceDropsEncodedSpace(r: int, s: seq<byte>)
    requires IsSpace(r) && IsBmp(r)
    ensures TrimLeft(Encode(r) + s) == TrimLeft(s)
    ensures TrimRight(s + Encode(r)) == TrimRight(s)
  {
    DecodeEncode(r, s);
    assert (Encode(r) + s)[|Encode(r)|..] == s;
    DecodeLastEncode(s, r);
    assert (s + Encode(r))[..|s|] == s;
  }

  /** Every ASCII byte of `s` is visited as a rune of its own by a `range`
      loop: multi-byte sequences consume only continuation bytes, and an
      invalid byte is consumed alone. */
  lemma {:induction false} AsciiByteIsRune(s: seq<byte>, i: nat)
    requires i < |s| && s[i] < RuneSelf
    ensures s[i] in Runes(s)
    decreases |s|
  {
    var d := DecodeRune(s);
    if i == 0 {
      assert Runes(s)[0] == s[0];
    } else {
      assert d.size <= i;
      AsciiByteIsRune(s[d.size..], i - d.size);
      assert Runes(s) == [d.rune] + Runes(s[d.size..]);
    }
  }
}

=== FILE: util.dfy ===
/** The small helpers of the `utils` package: the six-digit e-mail code,
    the avatar path of a profile, and the claims of an access token. The
    random source, the signing key and the token signature are inputs. */
module Util {
  import opened Wrappers
  import opened Decimal

  /** The range of the `uint32` read from the random source. */
  type uint32 = x: int | 0 <= x < 0x1_0000_0000

  const CodeModulus: nat := 1_000_000

  /** `GenerateCode`, given the random number it reads: the number modulo
      one million, zero-padded to six digits. */
  function GenerateCode(num: uint32): (code: string)
    ensures |code| == 6 && AllDigits(code)
    ensures ValueOf(code) == num % CodeModulus
  {
    ZeroPad6(num % CodeModulus)
  }

  /** `strconv.Atoi` reads a code back as the number it was made from. */
  lemma CodeRoundTrip(num: uint32)
    ensures Atoi(GenerateCode(num)) == Some(num % CodeModulus)
  {
    var code := GenerateCode(num);
    assert !IsSign(code[0]);
  }

  /** Every six-digit string is the code of some random number, so each of
      the million codes can be drawn. */
  lemma EveryCodeDrawn(code: string)
    requires |code| == 6 && AllDigits(code)
    ensures ValueOf(code) < CodeModulus
    ensures GenerateCode(ValueOf(code)) == code
  {
    var v := CodeValueBound(code);
    SmallRemainder(v);
    var drawn := GenerateCode(v);
    assert |drawn| == 6 && AllDigits(drawn) && ValueOf(drawn) == v;
    ValueInjective(drawn, code);
  }

  lemma CodeValueBound(code: string) returns (v: nat)
    requires |code| == 6 && AllDigits(code)
    ensures v == ValueOf(code) && v < CodeModulus
  {
    ValueBound(code);
    MillionIsPow10();
    v := ValueOf(code);
  }

  lemma SmallRemainder(v: nat)
    requires v < CodeModulus
    ensures v % CodeModulus == v
  {
  }

  lemma MillionIsPow10()
    ensures Pow10(6) == CodeModulus
  {
    assert Pow10(2) == 100;
    assert Pow10(4) == 10_000;
  }

  const AvatarApiPrefix: string := "/api/avatar/"
  const MaxProfileAvatar: int := 21

  /** `GetAvatarPath`: the API path of avatar `headShow` when it is one of
      1 to 21, and of avatar 1 otherwise. */
  function GetAvatarPath(headShow: int): (path: string)
    ensures |path| > |AvatarApiPrefix| && path[..|AvatarApiPrefix|] == AvatarApiPrefix
    ensures AllDigits(path[|AvatarApiPrefix|..])
  {
    if 0 < headShow <= MaxProfileAvatar then AvatarApiPrefix + FormatInt(headShow)
    else AvatarApiPrefix + "1"
  }

  /** The id at the end of an avatar path, read back with the `%d` verb,
      is the avatar number when it is in range and 1 otherwise. */
  lemma AvatarPathRoundTrip(headShow: int)
    ensures ScanInt(GetAvatarPath(headShow)[|AvatarApiPrefix|..])
      == Some(if 0 < headShow <= MaxProfileAvatar then headShow else 1)
  {
    var path := GetAvatarPath(headShow);
    var n := if 0 < headShow <= MaxProfileAvatar then headShow else 1;
    assert path == AvatarApiPrefix + Digits(n);
    assert path[|AvatarApiPrefix|..] == Digits(n) + "";
    ScanIntDigits(n, "");
  }

  /** Thirty days, in seconds. */
  const TokenLifetime: int := 30 * 24 * 60 * 60
  const TokenIssuer: string := "Unimate_app"

  /** The claims of an access token; times are Unix seconds, the precision
      of a JWT numeric date. */
  datatype Claims = Claims(
    userId: nat,
    username: string,
    email: string,
    expiresAt: int,
    issuedAt: int,
    notBefore: int,
    issuer: string)

  /** The claims `GenerateToken` signs at time `now`. */
  function NewClaims(userId: nat, username: string, email: string, now: int): (c: Claims)
    ensures c.userId == userId && c.username == username && c.email == email
    ensures c.issuedAt == now && c.notBefore == now
    ensures c.expiresAt - c.issuedAt == TokenLifetime
    ensures c.issuer == TokenIssuer
  {
    Claims(userId, username, email, now + TokenLifetime, now, now, TokenIssuer)
  }

  /** `GenerateToken`: `sign` is the HS256 signature with the server key. */
  function GenerateToken(userId: nat, username: string, email: string, now: int,
                         sign: Claims -> Result<string, string>): (r: Result<string, string>)
    ensures exists c: Claims ::
      && r == sign(c)
      && c.userId == userId && c.username == username && c.email == email
      && c.expiresAt == now + TokenLifetime && c.issuer == TokenIssuer
  {
    sign(NewClaims(userId, username, email, now))
  }

  const InvalidToken: string := "invalid token"

  /** `ParseToken`, given what the JWT library made of the text: its error,
      or the claims and whether the token is valid. */
  function ParseToken(parsed: Result<(Claims, bool), string>): (r: Result<Claims, string>)
    ensures parsed.Err? ==> r == Err(parsed.error)
    ensures r.Ok? <==> parsed.Ok? && parsed.value.1
    ensures r.Ok? ==> r.value == parsed.value.0
  {
    match parsed
    case Err(e) => Err(e)
    case Ok((claims, valid)) => if valid then Ok(claims) else Err(InvalidToken)
  }

  /** `RefreshToken`: a token that does not parse gives the parse error;
      otherwise a new token is signed for the same user. */
  function RefreshToken(token: string, parse: string -> Result<(Claims, bool), string>, now: int,
                        sign: Claims -> Result<string, string>): (r: Result<string, string>)
    ensures ParseToken(parse(token)).Err? ==> r == Err(ParseToken(parse(token)).error)
  {
    match ParseToken(parse(token))
    case Err(e) => Err(e)
    case Ok(c) => GenerateToken(c.userId, c.username, c.email, now, sign)
  }

  /** A refreshed token carries the old token's user id, name and e-mail,
      and a reissued thirty-day lifetime counted from `now`, whatever the old
      token's times and issuer were. */
  lemma RefreshKeepsIdentity(token: string, parse: string -> Result<(Claims, bool), string>, now: int,
                             sign: Claims -> Result<string, string>)
    requires ParseToken(parse(token)).Ok?
    ensures var prev := ParseToken(parse(token)).value;
      var reissued := NewClaims(prev.userId, prev.username, prev.email, now);
      && RefreshToken(token, parse, now, sign) == sign(reissued)
      && reissued.userId == prev.userId && reissued.username == prev.username && reissued.email == prev.email
      && reissued.issuedAt == now && reissued.expiresAt == now + TokenLifetime && reissued.issuer == TokenIssuer
  {
  }
}

=== FILE: wrappers.dfy ===
/** Failure-compatible wrappers shared by every module of the model. */
module Wrappers {

  /** An optional value: the Go `(value, ok)` and `(value, err)` pairs whose
      error is not inspected. */
  datatype Option<+T> = None | Some(value: T)

  /** A value or an error, for the Go `(value, error)` returns whose error is
      passed on. */
  datatype Result<+T, +E> = Ok(value: T) | Err(error: E)
}
